=== FILE: README.md ===
# Initial load, paging and bulk writes of the xapnet persistency templates

This project models the persistency core of the GigaSpaces XAP.NET templates in Dafny. A space's external data source is backed by NHibernate or Entity Framework. The core does the following:

- It reads whole tables into the space at start-up ("initial load"). Each table is cut into chunks. Every chunk is read page by page by a data enumerator. A fan-in engine runs the enumerators on a small pool of worker threads and merges their rows into one stream.
- It writes bulks of space operations back through the ORM inside a transaction.
- On the Entity Framework side, `EFManager` maps entity types to table names. It also rewrites a space query's SQL text into the form Entity Framework accepts.

Modules, one per file:

| module | file | what it holds |
|---|---|---|
| `Exceptions` | exceptions.dfy | `Option`, `Result` and the exceptions the code throws |
| `LinkableList` | linkable_list.dfy | the linked list a batch is accumulated in, as heap objects with a ghost view of their contents |
| `FanIn` | fan_in.dfy | the fan-in engine (`ConcurrentMultiDataEnumerator`, its shared state, the enumerate tasks, the worker threads and the blocking cursor) as a state machine of atomic steps |
| `FanInProofs` | fan_in_proofs.dfy | the engine's safety invariant and the proof that every step keeps it |
| `FanInProperties` | fan_in_properties.dfy | what the invariant buys: delivery, start-once, monotonicity, and one concrete run that shows a defect |
| `Paging` | paging.dfy | the chunk enumerators `NHibernateDataEnumerator` and `EntityFrameworkDataEnumerator` over a table given as a sequence |
| `DataSource` | data_source.dfy | the settings and their setters, Init, the initial-load entries, `DivideToChunks` and `InitialLoad` |
| `Bulk` | bulk.dfy | both `ExecuteBulk`s, as call logs given a transactional meaning by `Replay` |
| `EntityMaps` | entity_maps.dfy | `EFManager`'s two dictionaries between types and table names |
| `SqlRewrite` | sql_rewrite.dfy | `EFManager`'s table-name parsing, parameter numbering and query rewriting |

The engine exists twice in the source:

- as public classes in the Entity Framework template;
- as nested classes in the NHibernate template.

The two copies have the same steps, so one state machine models both. The one place they differ is Reset, and a flag selects which copy's behaviour applies.

Threads run as interleaved atomic steps:

- Each region the code runs under the shared lock is one step, with three fusions. The pull loop's test of `disposed` is a step of its own, and the producer's MoveNext that follows it is fused with the lock region that publishes a full batch: the producer is touched by its own task alone. The interlocked increment of the done-count is fused with the lock region that sets all-done: only the task whose increment returns the number of tasks enters that region, and nothing else reads the done-count. A producer's exception is stored in the same step as its pull.
- A consumer call that would block (`Monitor.Wait`, `Thread.Join`) returns `Pending` or `JoinPending`. It goes on at the consumer's next step.
- Any interleaving of worker and consumer steps is a `Run`. The invariants hold in every state any run reaches.

## Model

| member | source | states |
|---|---|---|
| LinkableList.List.AppendValue | templates/basic-persistency-ef/src/My_App/EntityFramework/Enumerators/TaskEnumerators/LinkableLinkedList.cs:33-48 | appending a value adds exactly that value at the end, raises the count by one, keeps every earlier node and keeps the first node of a non-empty list |
| LinkableList.List.AppentList | templates/basic-persistency-ef/src/My_App/EntityFramework/Enumerators/TaskEnumerators/LinkableLinkedList.cs:50-67 | linking a list on makes the contents the two contents concatenated and the count their sum. Into an empty list it takes the donor's first and last node; an empty donor leaves the last node where it was |
| LinkableList.List.FirstNullIffEmpty | templates/basic-persistency-ef/src/My_App/EntityFramework/Enumerators/TaskEnumerators/LinkableLinkedList.cs:35-37 | the list has no first node exactly when its count is zero, which is the emptiness test both append operations branch on |
| FanIn.StartPolling | templates/basic-persistency-ef/src/My_App/EntityFramework/Enumerators/ConcurrentMultiDataEnumerator.cs:31-75 | zero producers mark the load done at once. The queue gets one task per producer, and min(pool size, producers) new idle threads are added. A negative thread count throws before anything starts; tasks, list and error are untouched either way |
| FanIn.WorkerStep | templates/basic-persistency-ef/src/My_App/EntityFramework/Enumerators/ConcurrentMultiDataEnumerator.cs:44-65 | a worker step never shortens the list and never touches the producers, cursor or disposed flag. It raises the done-count by at most one and never clears all-done. It replaces the error only with a producer failure, and moves no task back. After dispose, only a task that passed the loop's test before the dispose can still pull an item |
| FanIn.TaskStep | templates/basic-persistency-ef/src/My_App/EntityFramework/Enumerators/TaskEnumerators/EnumerateTask.cs:30-77 | one step of ExecuteTask changes only its own task and worker and advances the task by at most one item, and only in a pull. The loop's test leaves the loop exactly when disposed is set. The done-count rises only when the task finishes; the error slot is overwritten only by this task's own failure |
| FanIn.LoopTest | templates/basic-persistency-ef/src/My_App/EntityFramework/Enumerators/TaskEnumerators/EnumerateTask.cs:37 | the loop's test of `disposed` ends the loop exactly when it is set and goes on to the pull otherwise; it changes nothing but that task's phase |
| FanIn.PullStep | templates/basic-persistency-ef/src/My_App/EntityFramework/Enumerators/TaskEnumerators/EnumerateTask.cs:37-51 | the pull after the loop's test touches only its own task and worker. It takes the next item exactly when the producer has one left, and fails exactly when the producer is exhausted and throws; it can only record this task's failure |
| FanIn.MoveNext | templates/basic-persistency-ef/src/My_App/EntityFramework/Enumerators/TaskEnumerators/LinkableLinkedListBlockingEnumerator.cs:21-71 | the corrected engine's cursor yields exactly when it is behind the list size, and then yields the next published value and advances by one. At the end it throws a stored exception first, returns false when the load is done or disposed, and waits otherwise. During construction it rethrows a stored exception and keeps it. Polling starts only on the first call. The list, tasks, error and done-count never change |
| FanIn.MoveNextAsWritten | templates/basic-persistency-ef/src/My_App/EntityFramework/Enumerators/ConcurrentMultiDataEnumerator.cs:77-85 | the orchestrator as written agrees with the corrected MoveNext, except that a start whose allocation throws, or whose constructor rethrows a stored exception, leaves the cursor not started, so the next call starts polling again |
| FanIn.CursorStepAsWritten | templates/basic-persistency-ef/src/My_App/EntityFramework/Enumerators/TaskEnumerators/LinkableLinkedListBlockingEnumerator.cs:67-70 | as written, advancing a cursor that has no current node while the list has grown raises NullReferenceException; in every other state it agrees with MoveNext |
| FanIn.DisposeProducers | templates/basic-persistency-ef/src/My_App/EntityFramework/Enumerators/ConcurrentMultiDataEnumerator.cs:106-107 | producers are disposed in list order. The loop completes exactly when no producer's Dispose throws, and then it has disposed all of them |
| FanIn.Dispose | templates/basic-persistency-ef/src/My_App/EntityFramework/Enumerators/ConcurrentMultiDataEnumerator.cs:97-108 | Dispose always sets disposed. Before polling started, the thread array is null and Dispose throws NullReferenceException without disposing any producer. Otherwise it waits for the workers and then disposes the producers |
| FanInProofs.InitEstablishesInv | templates/basic-persistency-ef/src/My_App/EntityFramework/Enumerators/TaskEnumerators/EnumerateTaskSharedState.cs:24-29 | a new engine (fresh shared state, one queued task per producer) satisfies the invariant |
| FanInProofs.WorkerStepKeepsInv | templates/basic-persistency-ef/src/My_App/EntityFramework/Enumerators/ConcurrentMultiDataEnumerator.cs:44-65 | every worker step keeps the invariant, the loop's test of `disposed` and the pull after it being separate steps. For each producer, the list holds a prefix of its items in order and the task's batch holds the next ones. The done-count counts the finished tasks, all-done means all finished, and a stored exception has a failed task behind it. Each queued task is in the queue once and no two workers run the same task |
| FanInProofs.MoveNextKeepsInv | templates/basic-persistency-ef/src/My_App/EntityFramework/Enumerators/ConcurrentMultiDataEnumerator.cs:77-85 | every consumer MoveNext step keeps the invariant, including the lazy start and a start that throws |
| FanInProofs.DisposeKeepsInv | templates/basic-persistency-ef/src/My_App/EntityFramework/Enumerators/ConcurrentMultiDataEnumerator.cs:97-108 | Dispose keeps the invariant although it stops the tasks mid-producer |
| FanInProofs.NextKeepsInv | templates/basic-persistency-ef/src/My_App/EntityFramework/Enumerators/TaskEnumerators/EnumerateTask.cs:30-77 | the invariant is inductive: every enabled step of any worker or of the consumer keeps it |
| FanInProperties.ReachableInv | templates/basic-persistency-ef/src/My_App/EntityFramework/Enumerators/ConcurrentMultiDataEnumerator.cs:20-108 | every state any interleaving reaches from a new engine satisfies the invariant |
| FanInProperties.StartsAtMostOnce | templates/basic-persistency-ef/src/My_App/EntityFramework/Enumerators/ConcurrentMultiDataEnumerator.cs:77-85 | in every interleaving, polling starts at most once, whatever the consumer's calls throw |
| FanInProperties.FirstStartIsFresh | templates/basic-persistency-ef/src/My_App/EntityFramework/Enumerators/ConcurrentMultiDataEnumerator.cs:31-43 | a start of a reachable engine that has not started polling finds no thread and no queue, and queues only fresh tasks (empty batch, nothing pulled), so its threads are the only ones and take only its own queue, as the source's local queue and new tasks give |
| FanInProperties.FinishedTaskDelivered | templates/basic-persistency-ef/src/My_App/EntityFramework/Enumerators/TaskEnumerators/EnumerateTask.cs:37-65 | a task that finished without dispose has published every item of its producer, in the producer's order |
| FanInProperties.AllDoneDelivered | templates/basic-persistency-ef/src/My_App/EntityFramework/Enumerators/TaskEnumerators/EnumerateTask.cs:58-65 | once all producers are done (and nothing was disposed): no exception is stored, the list holds each producer's items in that producer's order, and its size is the total number of items |
| FanInProperties.AllDoneNoError | templates/basic-persistency-ef/src/My_App/EntityFramework/Enumerators/TaskEnumerators/EnumerateTask.cs:58-75 | all-done is set only when every task finished and no task stored an exception |
| FanInProperties.DoneCursorEnds | templates/basic-persistency-ef/src/My_App/EntityFramework/Enumerators/TaskEnumerators/LinkableLinkedListBlockingEnumerator.cs:48-65 | a cursor at the end of the list of a finished load returns false and changes nothing |
| FanInProperties.AllDoneFreezes | templates/basic-persistency-ef/src/My_App/EntityFramework/Enumerators/ConcurrentMultiDataEnumerator.cs:44-65 | after all producers are done, no step changes the list, the error or the tasks |
| FanInProperties.AllDoneIdle | templates/basic-persistency-ef/src/My_App/EntityFramework/Enumerators/ConcurrentMultiDataEnumerator.cs:44-65 | after all producers are done, the queue is empty and no worker is running a task |
| FanInProperties.PullIgnoresDisposed | templates/basic-persistency-ef/src/My_App/EntityFramework/Enumerators/TaskEnumerators/EnumerateTask.cs:37-51 | the pull after the loop's test does the same whether or not Dispose has run since the test: a task that passed the test takes its next item and publishes a full batch |
| FanInProperties.StepPublishes | templates/basic-persistency-ef/src/My_App/EntityFramework/Enumerators/TaskEnumerators/EnumerateTask.cs:41-56 | a worker step appends only entries of its own task. Inside the loop that is a full batch of exactly the batch size; after the loop it is the remaining batch, shorter than a positive batch size |
| FanInProperties.StepMonotonic | templates/basic-persistency-ef/src/My_App/EntityFramework/Enumerators/TaskEnumerators/EnumerateTask.cs:30-77 | under any step the list only grows; disposed, a stored exception and all-done are never taken back, and no task moves back |
| FanInProperties.YieldThenCurrent | templates/basic-persistency-ef/src/My_App/EntityFramework/Enumerators/TaskEnumerators/LinkableLinkedListBlockingEnumerator.cs:67-81 | after a MoveNext that yields a value, Current returns that value |
| FanInProperties.NullNodeRace | templates/basic-persistency-ef/src/My_App/EntityFramework/Enumerators/TaskEnumerators/LinkableLinkedListBlockingEnumerator.cs:21-44 | a concrete interleaving with one producer of one item, batch size 2 and one thread. The worker pulls its item into an unfinished batch, Dispose lands while the cursor is being built, the constructor gives up with no node, and the worker then leaves the loop and flushes the item. The code as written then raises NullReferenceException; the model's MoveNext yields the item |
| FanInProperties.RestartAsWritten | templates/basic-persistency-ef/src/My_App/EntityFramework/Enumerators/ConcurrentMultiDataEnumerator.cs:77-85 | a concrete run with one producer that throws at once, as written: the first MoveNext rethrows the failure, the second starts polling again, queues the failed producer a second time and starts a second thread, and the engine's invariant no longer holds |
| FanInProperties.RestartCorrected | templates/basic-persistency-ef/src/My_App/EntityFramework/Enumerators/ConcurrentMultiDataEnumerator.cs:77-85 | the same steps with the start flag set on the first call: polling starts once and every later MoveNext rethrows the producer's failure |
| Paging.Window | templates/basic-persistency-ef/src/My_App/EntityFramework/Enumerators/EntityFrameworkDataEnumerator.cs:83-88 | a page is Skip(first).Take(count): its length is the rows left after `first`, capped at `count`, and its k-th row is row first + k |
| Paging.MoveNext | exported-templates/nhibernate-persistency/MultiprojectNhibernate/My_AppTemplateName/NHibernate/Enumerator/NHibernateDataEnumerator.cs:117-156 | MoveNext throws the construction error exactly when a NHibernate enumerator has neither entity type nor query. Having yielded chunk-size rows exhausts it, and an exhausted one returns false. A successful call yields one more row. Page number p is fetched from offset + p times the fetch size with at most min(fetch size, chunk size) rows, and only when the current page is drained |
| Paging.MoveNextKeepsPagerOk | templates/basic-persistency-ef/src/My_App/EntityFramework/Enumerators/EntityFrameworkDataEnumerator.cs:74-101 | MoveNext keeps the enumerator's invariant: the rows yielded so far are the first rows of its chunk and the current page is the next stretch of the chunk. A call yields the next row of the chunk while one is left, and returns false when none is left |
| Paging.WholePagerYieldsTable | exported-templates/nhibernate-persistency/MultiprojectNhibernate/My_AppTemplateName/NHibernate/Enumerator/NHibernateDataEnumerator.cs:50-57 | the enumerator over a whole table yields its rows in order, up to int.MaxValue of them, and then returns false |
| Paging.OrderKeysAgree | templates/basic-persistency-ef/src/My_App/EntityFramework/Enumerators/EntityFrameworkDataEnumerator.cs:168-189 | ordering by id, both templates order by the key: the NHibernate identifier and the first Entity Framework primary key. Otherwise the NHibernate criteria stay unordered while the Entity Framework query is ordered by its first member when there is one |
| Paging.EnumeratorYieldsChunk | templates/basic-persistency-ef/src/My_App/EntityFramework/Enumerators/EntityFrameworkDataEnumerator.cs:74-101 | for either enumerator with a positive fetch size, the j-th MoveNext yields row j of the chunk `rows[offset .. offset + chunkSize]` (cut at the table's end), and the call after the last row returns false |
| Paging.ExhaustedIsSticky | exported-templates/nhibernate-persistency/MultiprojectNhibernate/My_AppTemplateName/NHibernate/Enumerator/NHibernateDataEnumerator.cs:122-127 | once exhausted, an enumerator returns false to every later call and does not change |
| Paging.NonPositiveFetchYieldsNothing | templates/basic-persistency-ef/src/My_App/EntityFramework/Enumerators/EntityFrameworkDataEnumerator.cs:83-96 | with a fetch size that is not positive, every page is empty and the first MoveNext returns false |
| Paging.NoSourceFails | exported-templates/nhibernate-persistency/MultiprojectNhibernate/My_AppTemplateName/NHibernate/Enumerator/NHibernateDataEnumerator.cs:102-111 | without an entity type or a query, the NHibernate enumerator's first MoveNext throws the construction error and its second dereferences the missing criteria. The Entity Framework one dereferences its missing query at once |
| DataSource.SetPoolSize | exported-templates/nhibernate-persistency/MultiprojectNhibernate/My_AppTemplateName/NHibernate/NHibernateExternalDataSource.cs:198-207 | the pool-size setter rejects exactly the values below 1, with its message, and otherwise changes only the pool size |
| DataSource.SetChunkSize | exported-templates/nhibernate-persistency/MultiprojectNhibernate/My_AppTemplateName/NHibernate/NHibernateExternalDataSource.cs:266-275 | the chunk-size setter rejects exactly the values below 1 other than -1, with its message, and otherwise changes only the chunk size |
| DataSource.SetFetchSize | exported-templates/nhibernate-persistency/MultiprojectNhibernate/My_AppTemplateName/NHibernate/NHibernateExternalDataSource.cs:280-289 | the fetch-size setter rejects exactly the values below 1, with its message, and otherwise changes only the fetch size |
| DataSource.ReadSettings | templates/basic-persistency-ef/src/My_App/EntityFramework/EntityFrameworkExternalDataSource.cs:57-60 | Init through the setters accepts the properties exactly when the settings Init as written stores are valid, and then stores the same settings. The Entity Framework data source has setters only for the chunk size and the pool size, so its fetch size is stored unchecked and never fails Init |
| DataSource.ReadSettingsBypassesSetters | exported-templates/nhibernate-persistency/MultiprojectNhibernate/My_AppTemplateName/NHibernate/NHibernateExternalDataSource.cs:64-68 | a chunk-size property of 0 is stored by Init as written although the setter rejects it |
| DataSource.CreateContextAsWritten | templates/basic-persistency-ef/src/My_App/EntityFramework/EntityFrameworkExternalDataSource.cs:62-80 | as written, Init without a DbContext fails exactly when the type name is null or white space, does not resolve, or the resolved type cannot be built as a DbContext: no constructor taking a string (MissingMethodException), a constructor that throws (TargetInvocationException), or an object that is not a DbContext (InvalidCastException). The connection-string message is never raised |
| DataSource.CreateContext | templates/basic-persistency-ef/src/My_App/EntityFramework/EntityFrameworkExternalDataSource.cs:62-80 | a context is created only from a non-blank type name and a non-blank connection string, and a blank connection string is rejected before any constructor runs |
| DataSource.CreateContextDiffers | templates/basic-persistency-ef/src/My_App/EntityFramework/EntityFrameworkExternalDataSource.cs:68-70 | the code as written and the intended check disagree exactly on a usable type name with a null or white-space connection string, which the intended check rejects with its own message |
| DataSource.EmptyConnectionStringMisreported | templates/basic-persistency-ef/src/My_App/My_AppDbContext.cs:16-18 | with the type name "Ctx, App" and an empty connection string, the code as written reaches the constructor: the shipped context class, whose base DbContext(string) rejects a blank string, fails with TargetInvocationException instead of the connection-string message, and a context class that takes any string is built without one. The intended check rejects the input with its message |
| DataSource.DefaultInitialLoadEntries | exported-templates/nhibernate-persistency/MultiprojectNhibernate/My_AppTemplateName/NHibernate/NHibernateExternalDataSource.cs:90-110 | the NHibernate default entries are the mapped entities, minus those whose mapped superclass is itself mapped. The filter fails exactly when a superclass has no metadata |
| DataSource.ManagedEntrySet | exported-templates/nhibernate-persistency/MultiprojectNhibernate/My_AppTemplateName/NHibernate/NHibernateExternalDataSource.cs:242-258 | the managed-entry dictionary holds exactly the given names. A repeated name makes it throw; a null list gives an empty dictionary |
| DataSource.AddAll | exported-templates/nhibernate-persistency/MultiprojectNhibernate/My_AppTemplateName/NHibernate/NHibernateExternalDataSource.cs:251-255 | adding names one by one fails exactly on a name already added; otherwise the result is the old names plus the new |
| DataSource.NumChunksIsCeiling | exported-templates/nhibernate-persistency/MultiprojectNhibernate/My_AppTemplateName/NHibernate/NHibernateExternalDataSource.cs:406-409 | the number of chunks is the ceiling of count divided by chunk size: they cover every row and the last one is not empty |
| DataSource.DivideToChunks | exported-templates/nhibernate-persistency/MultiprojectNhibernate/My_AppTemplateName/NHibernate/NHibernateExternalDataSource.cs:392-417 | DivideToChunks fails exactly when the entity type is null, with its message |
| DataSource.DivideToChunksShape | templates/basic-persistency-ef/src/My_App/EntityFramework/EntityFrameworkExternalDataSource.cs:280-290 | the chunks of an entity are ceiling(count / c) enumerators with offsets 0, c, 2c, … and chunk size c |
| DataSource.ChunksPartitionRows | templates/basic-persistency-ef/src/My_App/EntityFramework/EntityFrameworkExternalDataSource.cs:287-288 | every row x of the table falls in exactly one chunk, number x / c, and that chunk exists |
| DataSource.TableSpecs | templates/basic-persistency-ef/src/My_App/EntityFramework/EntityFrameworkExternalDataSource.cs:99-105 | with chunking off there is one whole-table enumerator per entry. With chunking on, building the chunks fails exactly when an entry has no entity type |
| DataSource.TableSpecsChunksInOrder | templates/basic-persistency-ef/src/My_App/EntityFramework/EntityFrameworkExternalDataSource.cs:99-105 | with chunking on and every entry typed, the enumerators are each entry's ⌈count / c⌉ chunks in entry order: chunk k of entry i has offset k·c and comes right after the chunks of the entries before it |
| DataSource.InitialLoad | templates/basic-persistency-ef/src/My_App/EntityFramework/EntityFrameworkExternalDataSource.cs:96-107 | the engine gets the fetch size as batch size and the configured pool size. The load fails exactly when chunking is on and an entry has no entity type |
| DataSource.InitialLoadReadsEveryRow | exported-templates/nhibernate-persistency/MultiprojectNhibernate/My_AppTemplateName/NHibernate/NHibernateExternalDataSource.cs:148-160 | with a chunk size the setter allows, the enumerators of the initial load read every row of every entry exactly once. Rows come table after table in entry order and in each table's order, whether chunking is on or off |
| Bulk.HibernateItem | exported-templates/nhibernate-persistency/MultiprojectNhibernate/My_AppTemplateName/NHibernate/NHibernateExternalDataSource.cs:354-385 | ExecuteBulkItem throws exactly on a null item, or on a managed entry the ORM cannot store; an unmanaged entry is skipped. On a retry or with UseMerge it never calls SaveOrUpdate |
| Bulk.HibernateItemEffect | exported-templates/nhibernate-persistency/MultiprojectNhibernate/My_AppTemplateName/NHibernate/NHibernateExternalDataSource.cs:361-384 | an item that does not throw applies exactly its operation to the transaction's view: a write or update stores the entry's state and a remove deletes it. It works through SaveOrUpdate, a Merge fallback or Merge alone |
| Bulk.HibernateItems | exported-templates/nhibernate-persistency/MultiprojectNhibernate/My_AppTemplateName/NHibernate/NHibernateExternalDataSource.cs:332-333 | the items fail exactly when one of them does, and make only data calls |
| Bulk.HibernateItemsEffect | exported-templates/nhibernate-persistency/MultiprojectNhibernate/My_AppTemplateName/NHibernate/NHibernateExternalDataSource.cs:332-333 | items that do not throw apply the managed items of the bulk to the transaction's view, in order |
| Bulk.HibernateAttempt | exported-templates/nhibernate-persistency/MultiprojectNhibernate/My_AppTemplateName/NHibernate/NHibernateExternalDataSource.cs:326-341 | one attempt begins one transaction. It commits when no item and not the commit throws, and rolls back otherwise; it always closes the session |
| Bulk.HibernateAttemptEffect | exported-templates/nhibernate-persistency/MultiprojectNhibernate/My_AppTemplateName/NHibernate/NHibernateExternalDataSource.cs:329-341 | an attempt leaves the committed store holding the managed items' effect in order when it succeeds, and unchanged when it throws |
| Bulk.HibernateBulk | exported-templates/nhibernate-persistency/MultiprojectNhibernate/My_AppTemplateName/NHibernate/NHibernateExternalDataSource.cs:324-346 | a failed first attempt is retried once. ExecuteBulk throws "Can't execute bulk store." exactly when an item always fails or both commits fail |
| Bulk.HibernateBulkIsAtomic | exported-templates/nhibernate-persistency/MultiprojectNhibernate/My_AppTemplateName/NHibernate/NHibernateExternalDataSource.cs:324-346 | ExecuteBulk applies the managed items, in order, all or nothing: the store holds their effect when it returns and is unchanged when it throws |
| Bulk.RetryNeverSaveOrUpdates | exported-templates/nhibernate-persistency/MultiprojectNhibernate/My_AppTemplateName/NHibernate/NHibernateExternalDataSource.cs:368-369 | the retry attempt merges and never calls SaveOrUpdate |
| Bulk.NullItemFailsTwice | exported-templates/nhibernate-persistency/MultiprojectNhibernate/My_AppTemplateName/NHibernate/NHibernateExternalDataSource.cs:356-358 | a null item fails both attempts; ExecuteBulk then throws "Can't execute bulk store." around a NullReferenceException |
| Bulk.ContextItem | templates/basic-persistency-ef/src/My_App/EntityFramework/EntityFrameworkExternalDataSource.cs:178-202 | an Entity Framework item is skipped when null. It throws exactly on an unknown operation (ArgumentOutOfRange), on a remove or update of an entry the Merge extension cannot read, or on a remove of an entry the context does not find (InvalidOperation). It never calls SaveOrUpdate |
| Bulk.ContextItemEffect | templates/basic-persistency-ef/src/My_App/EntityFramework/ExtensionMethods.cs:64-79 | an item that does not throw changes only what the context finds, not the database: a write stores the entry, a remove deletes it, and an update stores it only when the context finds its key, as Merge updates a tracked entity and otherwise attaches nothing |
| Bulk.ContextItems | templates/basic-persistency-ef/src/My_App/EntityFramework/EntityFrameworkExternalDataSource.cs:176-203 | the items fail exactly when one of them fails on what the items before it left the context finding, and make only data calls |
| Bulk.ContextItemsEffect | templates/basic-persistency-ef/src/My_App/EntityFramework/EntityFrameworkExternalDataSource.cs:176-203 | items that do not throw apply the whole bulk, in order, to what the context finds and leave the database unchanged |
| Bulk.ContextBulk | templates/basic-persistency-ef/src/My_App/EntityFramework/EntityFrameworkExternalDataSource.cs:170-212 | the log begins one transaction. It ends in a successful commit exactly when no item, SaveChanges or the commit throws, and in a rollback otherwise. Every commit follows a SaveChanges |
| Bulk.ContextBulkIsAtomic | templates/basic-persistency-ef/src/My_App/EntityFramework/EntityFrameworkExternalDataSource.cs:170-212 | as written, a commit writes the changes an earlier rolled-back call left in the context and then the whole bulk, in order; otherwise the database is unchanged. It ends outside a transaction, and a commit leaves nothing unsaved |
| Bulk.CorrectedContextBulk | templates/basic-persistency-ef/src/My_App/EntityFramework/EntityFrameworkExternalDataSource.cs:204-210 | the corrected ExecuteBulk commits under the same condition, and when it rolls back it then discards the context's changes |
| Bulk.CorrectedContextBulkIsAtomic | templates/basic-persistency-ef/src/My_App/EntityFramework/EntityFrameworkExternalDataSource.cs:170-212 | the corrected ExecuteBulk leaves the context clean, so from a clean context every call applies its whole bulk, in order, or nothing |
| Bulk.RolledBackWriteLeaks | templates/basic-persistency-ef/src/My_App/EntityFramework/EntityFrameworkExternalDataSource.cs:204-210 | a Write followed by an unknown operation is rolled back and leaves the database empty, yet the next ExecuteBulk, even of an empty bulk, commits the Write; the corrected code commits nothing |
| EntityMaps.ReloadDbEntries | templates/basic-persistency-ef/src/My_App/EntityFramework/EFManager.cs:32-56 | a reload that completes records one entry per conceptual type and leaves the dictionaries mutually inverse. One that throws keeps the old entries |
| EntityMaps.AddEntriesKeepsInverse | templates/basic-persistency-ef/src/My_App/EntityFramework/EFManager.cs:49-54 | a fill that completes keeps the two dictionaries inverse to each other |
| EntityMaps.AddEntriesAllPresent | templates/basic-persistency-ef/src/My_App/EntityFramework/EFManager.cs:40-54 | the fill completes only when every conceptual type had its CLR type annotation |
| EntityMaps.ReloadSucceedsIffDistinct | templates/basic-persistency-ef/src/My_App/EntityFramework/EFManager.cs:49-54 | with every type annotated and known, the reload completes exactly when no type and no table name repeats. Otherwise it stops with a duplicate-key exception, and on success the entries are the types |
| EntityMaps.LookupsRoundTrip | templates/basic-persistency-ef/src/My_App/EntityFramework/EFManager.cs:58-73 | after a completed reload, a loaded type's table name leads back to the type, and a mapped name's type leads back to the name |
| SqlRewrite.LastIndexOfIgnoreCase | templates/basic-persistency-ef/src/My_App/EntityFramework/EFManager.cs:115 | the position of the last case-insensitive occurrence of the pattern, or -1 when there is none |
| SqlRewrite.IndexOfChar | templates/basic-persistency-ef/src/My_App/EntityFramework/EFManager.cs:116 | the first position of the character at or after the start, or -1. A start outside the string throws ArgumentOutOfRange |
| SqlRewrite.AfterLastDot | templates/basic-persistency-ef/src/My_App/EntityFramework/EFManager.cs:118-122 | the part of a name after its last '.', the name itself when it has none; it contains no '.' |
| SqlRewrite.TableToken | templates/basic-persistency-ef/src/My_App/EntityFramework/EFManager.cs:113-122 | the table token of a query contains no space and no '.'; reading it fails only with ArgumentOutOfRange. What it reads is stated by TableTokenReads |
| SqlRewrite.TableTokenReads | templates/basic-persistency-ef/src/My_App/EntityFramework/EFManager.cs:113-122 | a query whose last "From " is followed by a token q and a space reads the part of q after its last '.', which is q itself when q has no '.' (so `FROM EFEdsTest.Model.Entities.Student WHERE …` reads Student) |
| SqlRewrite.CandidatesDifferByTrailingS | templates/basic-persistency-ef/src/My_App/EntityFramework/EFManager.cs:126-135 | the two candidate table names are the token and the token with one trailing 's' removed or added |
| SqlRewrite.ParseTableNameReads | templates/basic-persistency-ef/src/My_App/EntityFramework/EFManager.cs:113-124 | a query whose last "From " is followed by a token q and a space parses to t, the part of q after its last '.', and t with one trailing 's' removed or added |
| SqlRewrite.EntityTypeFromReadsTable | templates/basic-persistency-ef/src/My_App/EntityFramework/EFManager.cs:101-124 | for such a query the entity type is the one mapped to t, else the one mapped to its other candidate, else none |
| SqlRewrite.FirstMapped | templates/basic-persistency-ef/src/My_App/EntityFramework/EFManager.cs:104-110 | the type of the first candidate that is mapped, or null exactly when none is |
| SqlRewrite.UpdateSqlQueryParameterStubs | templates/basic-persistency-ef/src/My_App/EntityFramework/EFManager.cs:157-174 | the numbering loop computes the left-to-right numbering of the query's '?': no '?' is left, and each one became a new `{k}` |
| SqlRewrite.KthQuestionMarkBecomesPlaceholder | templates/basic-persistency-ef/src/My_App/EntityFramework/EFManager.cs:166-170 | the k-th '?' from the left becomes `{k}` and the text around it is kept |
| SqlRewrite.StubsFromCountsPlaceholders | templates/basic-persistency-ef/src/My_App/EntityFramework/EFManager.cs:157-174 | numbering adds exactly one '{' and one '}' per '?' |
| SqlRewrite.StubsRoundTrip | templates/basic-persistency-ef/src/My_App/EntityFramework/EFManager.cs:157-174 | on a query without '{', turning each `{k}` back into '?' restores the query: numbering loses nothing |
| SqlRewrite.DecimalRoundTrip | templates/basic-persistency-ef/src/My_App/EntityFramework/EFManager.cs:168 | the decimal digits written for a parameter number read back as that number |
| SqlRewrite.TrimStartSpaces | templates/basic-persistency-ef/src/My_App/EntityFramework/EFManager.cs:152 | trimming removes exactly the leading spaces |
| SqlRewrite.SelectPrefixed | templates/basic-persistency-ef/src/My_App/EntityFramework/EFManager.cs:150-153 | the result starts with "select *" (ignoring case); a query that already did is kept, any other gets "select * " before its trimmed text |
| SqlRewrite.ReplaceTableToken | templates/basic-persistency-ef/src/My_App/EntityFramework/EFManager.cs:143-148 | replacing the table token fails exactly when reading it fails |
| SqlRewrite.UpdateQueryFormat | templates/basic-persistency-ef/src/My_App/EntityFramework/EFManager.cs:137-155 | the rewritten query keeps its parameters and starts with "select *". A query whose type cannot be resolved fails like the null dictionary key; an unreadable token fails |
| SqlRewrite.UpdateQueryFormatNamesRealTable | templates/basic-persistency-ef/src/My_App/EntityFramework/EFManager.cs:137-155 | when the query has a "From " and the real table names are plain tokens, the table token of the rewritten query is exactly the real table name of the query's entity type |

## Left out

- Threads, locks and `Monitor.Wait`/`PulseAll` are not modelled beyond atomic steps. Liveness (that a blocked cursor is woken, that `Join` returns) is not stated; only safety is.
- The NHibernate engine is not modelled as a separate copy. Its classes are textual copies of the Entity Framework ones, so `FanIn` models both; Reset, the one difference, takes a flag.
- FanIn.Producer: a producer's MoveNext throws only after its last item (`failsOnPull`), not at an arbitrary position. This keeps the per-producer delivery statement simple and still lets every task fail.
- Sessions, transactions and DbContexts of the enumerators, their Dispose, and the NHibernate proxy unwrapping in Current are not modelled; the ORM query is the sequence of rows it returns, ordered.
- Paging.MoveNext: the offset arithmetic `offset + fetchPos * fetchSize` and the row counters are unbounded integers. The source's 32-bit wrap-around is not modelled.
- DataSource.DivideToChunks: requires a chunk size of at least 1. With 0 the source's loop never ends, and a function cannot model that. `from += chunkSize` is unbounded here, so its 32-bit overflow is not modelled either.
- DataSource.InitialLoad: requires a chunk size of at least 1, or -1, for the same reason.
- DataSource.InitialLoadReadsEveryRow: assumes every table holds at most int.MaxValue rows and every entry names a table the database has. `from += chunkSize` is an unbounded sum here; in the source it is a 32-bit sum, which wraps past int.MaxValue even for smaller counts: with count 2147483647 and chunk size 100000, `from` turns negative after the last chunk and the source's loop goes on, so for such tables the source's chunks differ from the model's.
- The row count `DivideToChunks` asks the database for is a parameter. `GetIntProperty`, `GetBoolProperty` and `GetProperty` of the base class are map lookups with a default; their string parsing is not modelled.
- DataSource.IsNullOrWhiteSpace recognises the ASCII white-space characters only, not the rest of Unicode's.
- Opening a session, `BeginTransaction` and `CloseSession` are taken not to throw. The `using` Dispose of the Entity Framework transaction is not modelled.
- Bulk.HibernateBulk, Bulk.HibernateBulkIsAtomic: which entities the ORM refuses is one fixed set for both attempts, so an item on a `broken` entity fails the retry as it failed the first attempt. A failure that goes away on the retry is modelled only for the commit (`failingCommits`).
- DataSource.CreateContextAsWritten, DataSource.CreateContext: binding the reflected constructor call is one outcome per type and string (`Construction`). An AmbiguousMatchException, which a null connection string can cause when the type has several one-argument constructors of reference type, is not modelled.
- Bulk.ContextItem: an Entity Framework `Add` of an entity the database rejects, or of a key the context already tracks, does not throw there; the rejection is the SaveChanges failure (`saveFails`). Find on an entity the context has marked Deleted is taken to find nothing.
- Bulk.ContextBulkIsAtomic: the context's view after SaveChanges succeeded and the commit failed is taken to be the rolled-back database with nothing unsaved; what Entity Framework's tracker then holds is not modelled.
- FanIn.MoveNext, FanInProofs.MoveNextKeepsInv, FanInProofs.NextKeepsInv, FanInProperties.ReachableInv, FanInProperties.StartsAtMostOnce: these are about the corrected engine, which differs from the orchestrator as written in two ways (see Findings). Its start flag is set on the first call, whereas the code as written restarts polling after a failed start. A cursor that Dispose left without a node moves to the list's first element instead of dereferencing the missing node. The invariant does not hold for the code as written.
- FanIn.StartPolling, FanIn.Dispose: a second start, which only the orchestrator as written makes, is modelled loosely. In the source it builds a queue of its own that only its own threads read, new tasks with empty batches, and a new thread array that replaces the old one, so Dispose then joins only the second start's threads. The model has one queue that every thread reads, so the second start's queue replaces what was left of the first's and an older thread may take its tasks; it keeps each task's record, batch included; and Dispose waits for every thread ever started. A first start has none of these differences (FanInProperties.FirstStartIsFresh).
- FanIn.MoveNextAsWritten: a second start reuses the one shared state and list, as the source does; the second cursor's constructor is the same model step as the first's.
- FanIn.Reset and Paging.Reset always throw (NotSupportedException or NotImplementedException) and change nothing; they have no property of their own beyond that.
- SqlRewrite.LastIndexOfIgnoreCase: folds case for ASCII letters only. `StringComparison.OrdinalIgnoreCase` also folds other letters, so a non-ASCII character that upper-cases to an ASCII one (such as U+017F, long s) matches in the source and not here.
- SqlRewrite.CandidatesDifferByTrailingS: the trailing-'s' test looks at the last character only, an ordinal comparison. The source's `EndsWith("s")` is culture-sensitive and ignores zero-weight characters, so for "Students" followed by a soft hyphen (U+00AD) the source's second candidate drops the soft hyphen and gives "Students", while the model's adds an 's'.
- SqlRewrite.SelectPrefixed: the "select *" test folds case for ASCII letters only, as in LastIndexOfIgnoreCase.
- DataSource.DefaultInitialLoadEntries: states which entity names the default list holds, not their order, which is the order of the session factory's metadata dictionary.
- `Shutdown`, the `GetEnumerator(Query)` wiring, `SetOptionsForDbContext`, the extension methods `GetEntityPrimaryKeys` and `GetEntityMembers` are not modelled; `Merge` is modelled by its effect on what the context finds (Bulk.ContextItem). The metadata workspace and `SessionFactoryBuilder` become inputs (`Orm`, `entitySets`, `ClassMetadata`, the primary keys and members). The feeders, processors, wizards and installers are not part of this model.
- EntityMaps.GetTableNameByType: the entity-set search by type name or base-type name and its cache are one input map from type to table.

## Findings

| source | as written | input that shows it | evidently intended | confidence | as-written member | corrected member |
|---|---|---|---|---|---|---|
| templates/basic-persistency-ef/src/My_App/EntityFramework/Enumerators/ConcurrentMultiDataEnumerator.cs:77-85 | `_startedPolling` is set only after `StartPollingObjects` returns | a producer throws before the cursor's constructor sees an element; the constructor rethrows; the next MoveNext starts polling again, queueing a second set of tasks over the same producers | polling starts once, on the first MoveNext | medium, not executed | FanInProperties.RestartAsWritten | FanInProperties.RestartCorrected |
| templates/basic-persistency-ef/src/My_App/EntityFramework/Enumerators/TaskEnumerators/LinkableLinkedListBlockingEnumerator.cs:21-44 | the constructor leaves the cursor without a node when it gives up on a disposed, empty list; MoveNext then waits only when the position equals the list size | one producer with one item, batch size 2, one thread. Dispose comes from another thread while the first MoveNext is in the constructor, and the worker then flushes its item: the next MoveNext dereferences the null node | the cursor starts before the list's first node whenever the list fills; the item is yielded or the call returns false | low, not executed | FanInProperties.NullNodeRace | FanIn.MoveNext |
| templates/basic-persistency-ef/src/My_App/EntityFramework/EntityFrameworkExternalDataSource.cs:68-70 | the connection-string check tests the context type name a second time, so it never fires | type name "Ctx, App", connection string "": the blank string reaches the context's constructor, which with the shipped context class throws a TargetInvocationException, and with a class that takes any string builds a context | a null or white-space connection string is rejected with its own message | high, not executed | DataSource.EmptyConnectionStringMisreported | DataSource.CreateContextDiffers |
| exported-templates/nhibernate-persistency/MultiprojectNhibernate/My_AppTemplateName/NHibernate/NHibernateExternalDataSource.cs:64-68 | Init stores the integer properties straight into the fields, bypassing the setters' checks | property InitialLoadChunkSize = 0: DivideToChunks' `from += 0` never advances | the properties are checked as the setters check them | medium, not executed | DataSource.ReadSettingsBypassesSetters | DataSource.ReadSettings |
| templates/basic-persistency-ef/src/My_App/EntityFramework/EntityFrameworkExternalDataSource.cs:204-210 | the catch rolls the transaction back but leaves the long-lived DbContext's tracked changes in place | a bulk [Write a, unknown operation] on an empty database, then an empty bulk: the second call's SaveChanges writes a and commits it | a rolled-back bulk leaves nothing behind for later calls | medium, not executed | Bulk.RolledBackWriteLeaks | Bulk.CorrectedContextBulkIsAtomic |

=== FILE: bulk.dfy ===
/**
 * ExecuteBulk of the two external data sources: how a bulk of space operations
 * becomes calls on the ORM.
 *
 * The ORM is an oracle (`Orm`) that says which calls throw; the calls the code makes
 * are returned as a log, and `Replay` gives the log a meaning over a store of entity
 * states, with transactions: the changes of a transaction reach the committed store
 * only at a successful commit. The main properties are stated over that meaning: a
 * bulk is applied whole, in order, or not at all.
 */
module Bulk {
  import opened Exceptions

  /** A space entry: its type name, its identity, and the state it carries. */
  datatype Entity = Entity(typeName: string, id: int, state: int)

  /** BulkOperation: the three the data sources handle, and any other value. */
  datatype Operation = Write | Update | Remove | Other

  /** A BulkItem: the entry (None for a null item) and its operation. */
  datatype BulkItem = BulkItem(item: Option<Entity>, op: Operation)

  /** The ORM calls the bulk code makes, in order; a commit records whether it went through. */
  datatype Call =
    | BeginTransaction
    | Merge(entity: Entity)          // session.Merge, or the DbContext Merge extension
    | Delete(entity: Entity)         // session.Delete
    | SaveOrUpdate(entity: Entity)   // session.SaveOrUpdate
    | Add(entity: Entity)            // DbSet.Add
    | SetRemove(entity: Entity)      // DbSet.Remove
    | SaveChanges(saved: bool)       // DbContext.SaveChanges
    | Commit(succeeded: bool)
    | Rollback
    | CloseSession
    | DiscardChanges                 // detaching the DbContext's tracked changes

  /**
   * What the ORM does with the calls. `rejected`: entities whose SaveOrUpdate throws a
   * HibernateException (an instance with the same identity is already in the session),
   * while Merge accepts them; `broken`: entities every call on which throws a
   * HibernateException; `failingCommits`: the attempts (0 for the first) whose commit
   * throws; `saveFails`: whether SaveChanges throws. `rejected` and `broken` are the
   * same for every attempt, so an entity that fails the first attempt fails the retry
   * too: only a commit failure can go away on the retry.
   */
  datatype Orm = Orm(rejected: set<Entity>, broken: set<Entity>, failingCommits: set<nat>, saveFails: bool)

  /** The calls of one attempt or one item, and the exception that ended it, if any. */
  datatype Run = Run(calls: seq<Call>, failure: Option<Exception>)

  const BulkStoreMessage: string := "Can't execute bulk store."

  // ---------------------------------------------------------------------------
  // The meaning of a call log
  // ---------------------------------------------------------------------------

  type Key = (string, int)

  /** The stored state of each entity, by type name and identity. */
  type Store = map<Key, int>

  function KeyOf(e: Entity): Key {
    (e.typeName, e.id)
  }

  /** A transaction's view: the committed store and the store with the transaction's changes. */
  datatype Tx = Tx(committed: Store, pending: Store)

  /** Whether a call only changes data (no transaction control). */
  predicate DataCall(c: Call) {
    c.Merge? || c.Delete? || c.SaveOrUpdate? || c.Add? || c.SetRemove?
  }

  /**
   * One call's effect: writes (Merge, SaveOrUpdate, Add) store the entity's state,
   * deletions remove it; both only in the transaction's view, which a successful
   * commit makes the committed store and a begin or a rollback discards.
   */
  function Step(tx: Tx, c: Call): (r: Tx)
    ensures DataCall(c) ==> r.committed == tx.committed
    ensures c.Rollback? || c.BeginTransaction? ==> r == Tx(tx.committed, tx.committed)
    ensures c == Commit(true) ==> r.committed == tx.pending
  {
    match c
    case BeginTransaction => Tx(tx.committed, tx.committed)
    case Merge(e) => tx.(pending := tx.pending[KeyOf(e) := e.state])
    case SaveOrUpdate(e) => tx.(pending := tx.pending[KeyOf(e) := e.state])
    case Add(e) => tx.(pending := tx.pending[KeyOf(e) := e.state])
    case Delete(e) => tx.(pending := tx.pending - {KeyOf(e)})
    case SetRemove(e) => tx.(pending := tx.pending - {KeyOf(e)})
    case SaveChanges(_) => tx
    case Commit(ok) => if ok then Tx(tx.pending, tx.pending) else tx
    case Rollback => Tx(tx.committed, tx.committed)
    case CloseSession => tx
    case DiscardChanges => tx
  }

  function Replay(tx: Tx, calls: seq<Call>): Tx
    decreases |calls|
  {
    if |calls| == 0 then tx else Replay(Step(tx, calls[0]), calls[1..])
  }

  lemma {:induction false} ReplayAppend(tx: Tx, a: seq<Call>, b: seq<Call>)
    ensures Replay(tx, a + b) == Replay(Replay(tx, a), b)
    decreases |a|
  {
    if |a| == 0 {
      assert a + b == b;
    } else {
      assert (a + b)[0] == a[0];
      assert (a + b)[1..] == a[1..] + b;
      ReplayAppend(Step(tx, a[0]), a[1..], b);
    }
  }

  lemma ReplayShort(tx: Tx, c0: Call, c1: Call, c2: Call)
    ensures Replay(tx, [c0]) == Step(tx, c0)
    ensures Replay(tx, [c0, c1]) == Step(Step(tx, c0), c1)
    ensures Replay(tx, [c0, c1, c2]) == Step(Step(Step(tx, c0), c1), c2)
  {
    var t1 := Step(tx, c0);
    var t2 := Step(t1, c1);
    assert [c0][1..] == [] && [c1][1..] == [] && [c2][1..] == [];
    assert Replay(t2, [c2]) == Step(t2, c2);
    assert Replay(t1, [c1]) == t2;
    assert [c0, c1][1..] == [c1];
    assert Replay(tx, [c0, c1]) == Replay(t1, [c1]);
    assert [c1, c2][1..] == [c2];
    assert Replay(t1, [c1, c2]) == Replay(t2, [c2]);
    assert [c0, c1, c2][1..] == [c1, c2];
    assert Replay(tx, [c0, c1, c2]) == Replay(t1, [c1, c2]);
  }

  /** Replaying a log that starts with a begin: the transaction starts from the committed store. */
  lemma ReplayFromBegin(tx: Tx, calls: seq<Call>, tail: seq<Call>)
    ensures Replay(tx, [BeginTransaction] + calls + tail)
            == Replay(Replay(Tx(tx.committed, tx.committed), calls), tail)
  {
    ReplayAppend(tx, [BeginTransaction] + calls, tail);
    ReplayAppend(tx, [BeginTransaction], calls);
    ReplayShort(tx, BeginTransaction, BeginTransaction, BeginTransaction);
  }

  /** What one bulk item asks of the store: Write and Update store the entry, Remove deletes it. */
  function Apply(s: Store, b: BulkItem): Store {
    if b.item.None? then s
    else match b.op
      case Write => s[KeyOf(b.item.value) := b.item.value.state]
      case Update => s[KeyOf(b.item.value) := b.item.value.state]
      case Remove => s - {KeyOf(b.item.value)}
      case Other => s
  }

  /** The bulk's items applied one after another, in order. */
  function ApplyAll(s: Store, bulk: seq<BulkItem>): Store
    decreases |bulk|
  {
    if |bulk| == 0 then s else ApplyAll(Apply(s, bulk[0]), bulk[1..])
  }

  /** The items of entity types the data source manages. */
  function OnlyManaged(bulk: seq<BulkItem>, managed: set<string>): (r: seq<BulkItem>)
    ensures |r| <= |bulk|
    ensures forall i :: 0 <= i < |r| ==> r[i] in bulk && r[i].item.Some? && r[i].item.value.typeName in managed
  {
    if |bulk| == 0 then []
    else
      var rest := OnlyManaged(bulk[1..], managed);
      if bulk[0].item.Some? && bulk[0].item.value.typeName in managed then [bulk[0]] + rest else rest
  }

  /** The number of transactions a log begins. */
  function Begins(calls: seq<Call>): nat {
    if |calls| == 0 then 0 else (if calls[0].BeginTransaction? then 1 else 0) + Begins(calls[1..])
  }

  lemma {:induction false} BeginsAppend(a: seq<Call>, b: seq<Call>)
    ensures Begins(a + b) == Begins(a) + Begins(b)
    decreases |a|
  {
    if |a| == 0 {
      assert a + b == b;
    } else {
      assert (a + b)[0] == a[0];
      assert (a + b)[1..] == a[1..] + b;
      BeginsAppend(a[1..], b);
    }
  }

  lemma {:induction false} NoBegins(calls: seq<Call>)
    requires forall i :: 0 <= i < |calls| ==> !calls[i].BeginTransaction?
    ensures Begins(calls) == 0
    decreases |calls|
  {
    if |calls| > 0 {
      assert !calls[0].BeginTransaction?;
      NoBegins(calls[1..]);
    }
  }

  /** A log that begins one transaction and never another. */
  lemma OneBegin(calls: seq<Call>)
    requires |calls| >= 1 && calls[0].BeginTransaction?
    requires forall i :: 1 <= i < |calls| ==> !calls[i].BeginTransaction?
    ensures Begins(calls) == 1
  {
    NoBegins(calls[1..]);
  }

  /** Data calls leave the committed store alone. */
  lemma {:induction false} DataCallsKeepCommitted(tx: Tx, calls: seq<Call>)
    requires forall i :: 0 <= i < |calls| ==> DataCall(calls[i])
    ensures Replay(tx, calls).committed == tx.committed
    decreases |calls|
  {
    if |calls| > 0 {
      assert DataCall(calls[0]);
      DataCallsKeepCommitted(Step(tx, calls[0]), calls[1..]);
    }
  }

  // ---------------------------------------------------------------------------
  // NHibernate: ExecuteBulkItem and ExecuteBulk with one retry
  // ---------------------------------------------------------------------------

  /** Whether ExecuteBulkItem throws on an item, whatever the attempt and UseMerge. */
  predicate HibernateItemFails(b: BulkItem, managed: set<string>, orm: Orm) {
    b.item.None? || (b.item.value.typeName in managed && !b.op.Other? && b.item.value in orm.broken)
  }

  /**
   * ExecuteBulkItem: a null item throws when its type is asked for; an entry of an
   * unmanaged type is skipped; Remove deletes the merged entry; Write and Update merge
   * on a retry or with UseMerge, and otherwise SaveOrUpdate, falling back to Merge on
   * a HibernateException; any other operation does nothing.
   */
  function HibernateItem(b: BulkItem, managed: set<string>, useMerge: bool, retries: nat, orm: Orm): (r: Run)
    ensures r.failure.Some? <==> HibernateItemFails(b, managed, orm)
    ensures r.failure.Some? ==> r.failure.value == if b.item.None? then NullReference else OrmFailure(true)
    ensures forall i :: 0 <= i < |r.calls| ==> DataCall(r.calls[i])
    ensures (retries > 0 || useMerge) ==> forall i :: 0 <= i < |r.calls| ==> !r.calls[i].SaveOrUpdate?
    ensures b.item.Some? && b.item.value.typeName !in managed ==> r == Run([], None)
  {
    if b.item.None? then Run([], Some(NullReference))
    else
      var e := b.item.value;
      if e.typeName !in managed then Run([], None)
      else match b.op
        case Remove =>
          if e in orm.broken then Run([Merge(e)], Some(OrmFailure(true))) else Run([Merge(e), Delete(e)], None)
        case Other => Run([], None)
        case _ =>
          if retries > 0 || useMerge then
            (if e in orm.broken then Run([Merge(e)], Some(OrmFailure(true))) else Run([Merge(e)], None))
          else if e in orm.broken then Run([SaveOrUpdate(e), Merge(e)], Some(OrmFailure(true)))
          else if e in orm.rejected then Run([SaveOrUpdate(e), Merge(e)], None)
          else Run([SaveOrUpdate(e)], None)
  }

  /** An item that goes through does to the transaction what the item asks, if its type is managed. */
  lemma HibernateItemEffect(b: BulkItem, managed: set<string>, useMerge: bool, retries: nat, orm: Orm, tx: Tx)
    requires !HibernateItemFails(b, managed, orm)
    ensures Replay(tx, HibernateItem(b, managed, useMerge, retries, orm).calls)
            == tx.(pending := ApplyAll(tx.pending, OnlyManaged([b], managed)))
  {
    var calls := HibernateItem(b, managed, useMerge, retries, orm).calls;
    assert [b][1..] == [];
    var e := b.item.value;
    if e.typeName in managed {
      assert OnlyManaged([b], managed) == [b];
      assert ApplyAll(tx.pending, [b]) == Apply(tx.pending, b);
      var k := KeyOf(e);
      if |calls| == 1 {
        ReplayShort(tx, calls[0], calls[0], calls[0]);
      } else if |calls| == 2 {
        ReplayShort(tx, calls[0], calls[1], calls[1]);
        if b.op.Remove? {
          assert tx.pending[k := e.state] - {k} == tx.pending - {k};
        }
      }
    }
  }

  /** The items of a bulk in order, stopping at the first that throws. */
  function HibernateItems(bulk: seq<BulkItem>, managed: set<string>, useMerge: bool, retries: nat, orm: Orm): (r: Run)
    ensures r.failure.Some? <==> exists i :: 0 <= i < |bulk| && HibernateItemFails(bulk[i], managed, orm)
    ensures r.failure.Some? ==> r.failure.value == NullReference || r.failure.value == OrmFailure(true)
    ensures forall i :: 0 <= i < |r.calls| ==> DataCall(r.calls[i])
    ensures (retries > 0 || useMerge) ==> forall i :: 0 <= i < |r.calls| ==> !r.calls[i].SaveOrUpdate?
    decreases |bulk|
  {
    if |bulk| == 0 then Run([], None)
    else
      var first := HibernateItem(bulk[0], managed, useMerge, retries, orm);
      if first.failure.Some? then first
      else
        var rest := HibernateItems(bulk[1..], managed, useMerge, retries, orm);
        assert (exists i :: 0 <= i < |bulk| && HibernateItemFails(bulk[i], managed, orm))
               <==> (exists i :: 0 <= i < |bulk[1..]| && HibernateItemFails(bulk[1..][i], managed, orm)) by {
          if exists i :: 0 <= i < |bulk| && HibernateItemFails(bulk[i], managed, orm) {
            var i :| 0 <= i < |bulk| && HibernateItemFails(bulk[i], managed, orm);
            assert i > 0 && bulk[1..][i - 1] == bulk[i];
          }
        }
        Run(first.calls + rest.calls, rest.failure)
  }

  /** Items that all go through do to the transaction what the managed ones ask, in order. */
  lemma {:induction false} HibernateItemsEffect(bulk: seq<BulkItem>, managed: set<string>, useMerge: bool, retries: nat, orm: Orm, tx: Tx)
    requires HibernateItems(bulk, managed, useMerge, retries, orm).failure.None?
    ensures Replay(tx, HibernateItems(bulk, managed, useMerge, retries, orm).calls)
            == tx.(pending := ApplyAll(tx.pending, OnlyManaged(bulk, managed)))
    decreases |bulk|
  {
    if |bulk| > 0 {
      assert !HibernateItemFails(bulk[0], managed, orm);
      var first := HibernateItem(bulk[0], managed, useMerge, retries, orm);
      var rest := HibernateItems(bulk[1..], managed, useMerge, retries, orm);
      HibernateItemEffect(bulk[0], managed, useMerge, retries, orm, tx);
      var tx1 := tx.(pending := ApplyAll(tx.pending, OnlyManaged([bulk[0]], managed)));
      HibernateItemsEffect(bulk[1..], managed, useMerge, retries, orm, tx1);
      ReplayAppend(tx, first.calls, rest.calls);
      assert [bulk[0]][1..] == [];
      if bulk[0].item.Some? && bulk[0].item.value.typeName in managed {
        assert OnlyManaged(bulk, managed) == [bulk[0]] + OnlyManaged(bulk[1..], managed);
        assert OnlyManaged([bulk[0]], managed) == [bulk[0]];
        assert ([bulk[0]] + OnlyManaged(bulk[1..], managed))[1..] == OnlyManaged(bulk[1..], managed);
      } else {
        assert OnlyManaged([bulk[0]], managed) == [];
      }
    }
  }

  /** What an attempt calls after the items: commit and close, or roll back and close. */
  function HibernateTail(itemsFailed: bool, commitFails: bool): seq<Call> {
    if itemsFailed then [Rollback, CloseSession]
    else if commitFails then [Commit(false), Rollback, CloseSession]
    else [Commit(true), CloseSession]
  }

  /**
   * One attempt of ExecuteBulk(bulk, retries): begin, the items, commit, close; when
   * anything throws, roll back and close.
   */
  function HibernateAttempt(bulk: seq<BulkItem>, managed: set<string>, useMerge: bool, retries: nat, orm: Orm): (r: Run)
    ensures r.failure.Some? <==> (exists i :: 0 <= i < |bulk| && HibernateItemFails(bulk[i], managed, orm)) || retries in orm.failingCommits
    ensures |r.calls| >= 3 && r.calls[0] == BeginTransaction && r.calls[|r.calls| - 1] == CloseSession
    ensures r.failure.Some? ==> r.calls[|r.calls| - 2] == Rollback
    ensures r.failure.None? ==> r.calls[|r.calls| - 2] == Commit(true)
    ensures Begins(r.calls) == 1
  {
    var items := HibernateItems(bulk, managed, useMerge, retries, orm);
    var tail := HibernateTail(items.failure.Some?, retries in orm.failingCommits);
    var failure :=
      if items.failure.Some? then items.failure
      else if retries in orm.failingCommits then Some(OrmFailure(true))
      else None;
    var calls := [BeginTransaction] + items.calls + tail;
    assert forall i :: 1 <= i < |calls| ==> !calls[i].BeginTransaction? by {
      forall i | 1 <= i < |calls|
        ensures !calls[i].BeginTransaction?
      {
        if i <= |items.calls| {
          assert calls[i] == items.calls[i - 1];
        } else {
          assert calls[i] == tail[i - 1 - |items.calls|];
        }
      }
    }
    OneBegin(calls);
    Run(calls, failure)
  }

  /** An attempt commits what the managed items ask, in order, or leaves the store as it was. */
  lemma HibernateAttemptEffect(bulk: seq<BulkItem>, managed: set<string>, useMerge: bool, retries: nat, orm: Orm, s: Store)
    ensures var r := HibernateAttempt(bulk, managed, useMerge, retries, orm);
            Replay(Tx(s, s), r.calls).committed == if r.failure.None? then ApplyAll(s, OnlyManaged(bulk, managed)) else s
  {
    var items := HibernateItems(bulk, managed, useMerge, retries, orm);
    var tail := HibernateTail(items.failure.Some?, retries in orm.failingCommits);
    ReplayFromBegin(Tx(s, s), items.calls, tail);
    var mid := Replay(Tx(s, s), items.calls);
    DataCallsKeepCommitted(Tx(s, s), items.calls);
    if items.failure.None? {
      HibernateItemsEffect(bulk, managed, useMerge, retries, orm, Tx(s, s));
    }
    HibernateTailEffect(mid, items.failure.Some?, retries in orm.failingCommits);
  }

  /** The end of an attempt commits the transaction's view, or keeps the committed store when something threw. */
  lemma HibernateTailEffect(tx: Tx, itemsFailed: bool, commitFails: bool)
    ensures Replay(tx, HibernateTail(itemsFailed, commitFails)).committed
            == if itemsFailed || commitFails then tx.committed else tx.pending
  {
    var tail := HibernateTail(itemsFailed, commitFails);
    ReplayShort(tx, tail[0], tail[1], tail[|tail| - 1]);
  }

  /**
   * ExecuteBulk(bulk): a first attempt; when it throws, a second attempt with
   * retries = 1; when that throws too, an exception "Can't execute bulk store." with
   * the second attempt's exception inside.
   */
  function HibernateBulk(bulk: seq<BulkItem>, managed: set<string>, useMerge: bool, orm: Orm): (r: Run)
    ensures 1 <= Begins(r.calls) <= 2
    ensures r.failure.Some? ==> r.failure.value.Wrapped? && r.failure.value.message == BulkStoreMessage
    ensures r.failure.Some? <==> (exists i :: 0 <= i < |bulk| && HibernateItemFails(bulk[i], managed, orm))
                                 || (0 in orm.failingCommits && 1 in orm.failingCommits)
  {
    var first := HibernateAttempt(bulk, managed, useMerge, 0, orm);
    if first.failure.None? then first
    else
      var second := HibernateAttempt(bulk, managed, useMerge, 1, orm);
      BeginsAppend(first.calls, second.calls);
      Run(first.calls + second.calls,
          if second.failure.None? then None else Some(Wrapped(BulkStoreMessage, CauseOf(second.failure.value))))
  }

  /** The class name of an exception, as the wrapping exception keeps it. */
  function CauseOf(e: Exception): ExceptionCause {
    match e
    case NullReference => Cause("NullReferenceException")
    case OrmFailure(true) => Cause("HibernateException")
    case _ => Cause("Exception")
  }

  /**
   * ExecuteBulk applies the managed items of the bulk, in order, all or nothing: when
   * it returns, the store holds their effect; when it throws, the store is unchanged.
   */
  lemma HibernateBulkIsAtomic(bulk: seq<BulkItem>, managed: set<string>, useMerge: bool, orm: Orm, s: Store)
    ensures var r := HibernateBulk(bulk, managed, useMerge, orm);
            Replay(Tx(s, s), r.calls).committed == if r.failure.None? then ApplyAll(s, OnlyManaged(bulk, managed)) else s
  {
    var first := HibernateAttempt(bulk, managed, useMerge, 0, orm);
    HibernateAttemptEffect(bulk, managed, useMerge, 0, orm, s);
    if first.failure.Some? {
      var second := HibernateAttempt(bulk, managed, useMerge, 1, orm);
      ReplayAppend(Tx(s, s), first.calls, second.calls);
      BeginForgetsPending(Replay(Tx(s, s), first.calls), second.calls);
      HibernateAttemptEffect(bulk, managed, useMerge, 1, orm, s);
    }
  }

  /** A log that starts with a begin does not depend on the pending view it finds. */
  lemma BeginForgetsPending(tx: Tx, calls: seq<Call>)
    requires |calls| > 0 && calls[0] == BeginTransaction
    ensures Replay(tx, calls) == Replay(Tx(tx.committed, tx.committed), calls)
  {
  }

  /** The retry merges: the second attempt never calls SaveOrUpdate. */
  lemma RetryNeverSaveOrUpdates(bulk: seq<BulkItem>, managed: set<string>, useMerge: bool, orm: Orm)
    ensures var r := HibernateAttempt(bulk, managed, useMerge, 1, orm);
            forall i :: 0 <= i < |r.calls| ==> !r.calls[i].SaveOrUpdate?
  {
    var r := HibernateAttempt(bulk, managed, useMerge, 1, orm);
    var items := HibernateItems(bulk, managed, useMerge, 1, orm);
    forall i | 0 <= i < |r.calls|
      ensures !r.calls[i].SaveOrUpdate?
    {
      if 1 <= i <= |items.calls| {
        assert r.calls[i] == items.calls[i - 1];
      }
    }
  }

  /** A null item fails both attempts: the data source throws "Can't execute bulk store." around a NullReferenceException. */
  lemma NullItemFailsTwice(op: Operation, rest: seq<BulkItem>, managed: set<string>, useMerge: bool, orm: Orm)
    ensures var r := HibernateBulk([BulkItem(None, op)] + rest, managed, useMerge, orm);
            && Begins(r.calls) == 2
            && r.failure == Some(Wrapped(BulkStoreMessage, Cause("NullReferenceException")))
  {
    var bulk := [BulkItem(None, op)] + rest;
    assert bulk[0] == BulkItem(None, op);
    var first := HibernateAttempt(bulk, managed, useMerge, 0, orm);
    var second := HibernateAttempt(bulk, managed, useMerge, 1, orm);
    BeginsAppend(first.calls, second.calls);
  }

  // ---------------------------------------------------------------------------
  // Entity Framework: ExecuteBulk on the data source's long-lived DbContext
  // ---------------------------------------------------------------------------

  /**
   * The tracker's unsaved changes, by key: the state an added or modified entity will
   * be saved with, or None for a deleted one.
   */
  type Changes = map<Key, Option<int>>

  /** A store seen through unsaved changes. */
  function Overlay(s: Store, u: Changes): (r: Store)
    ensures forall k :: k in r <==> (k in u && u[k].Some?) || (k !in u && k in s)
    ensures forall k :: k in r && k in u ==> r[k] == u[k].value
    ensures forall k :: k in r && k !in u ==> r[k] == s[k]
  {
    map k | k in s.Keys + u.Keys && (k in u ==> u[k].Some?) :: if k in u then u[k].value else s[k]
  }

  lemma OverlayNothing(s: Store)
    ensures Overlay(s, map[]) == s
  {
  }

  lemma OverlaySet(s: Store, u: Changes, k: Key, v: int)
    ensures Overlay(s, u[k := Some(v)]) == Overlay(s, u)[k := v]
  {
  }

  lemma OverlayDelete(s: Store, u: Changes, k: Key)
    ensures Overlay(s, u[k := None]) == Overlay(s, u) - {k}
  {
  }

  /**
   * The data source's DbContext and its database: the committed store, the store the
   * open transaction sees, and the changes the context tracks but has not saved. The
   * context outlives every ExecuteBulk call.
   */
  datatype Context = Context(committed: Store, inTx: Store, unsaved: Changes)

  /** What the context finds by key: the transaction's store through the unsaved changes. */
  function View(c: Context): Store {
    Overlay(c.inTx, c.unsaved)
  }

  /**
   * One call on the context. The Merge extension finds the entry by key and copies the
   * entry's values onto the tracked one; when it finds none it adds the entry and
   * detaches it again, which leaves nothing to save. A rollback ends the database
   * transaction and leaves the tracker as it is.
   */
  function ContextStep(c: Context, call: Call): (r: Context)
    ensures DataCall(call) ==> r.committed == c.committed && r.inTx == c.inTx
    ensures call == SaveChanges(true) ==> r.inTx == View(c) && r.unsaved == map[]
    ensures call.Rollback? ==> r == c.(inTx := c.committed)
    ensures call == Commit(true) ==> r.committed == c.inTx
  {
    match call
    case BeginTransaction => c.(inTx := c.committed)
    case Merge(e) =>
      if KeyOf(e) in View(c) then c.(unsaved := c.unsaved[KeyOf(e) := Some(e.state)]) else c
    case Add(e) => c.(unsaved := c.unsaved[KeyOf(e) := Some(e.state)])
    case SetRemove(e) => c.(unsaved := c.unsaved[KeyOf(e) := None])
    case SaveChanges(ok) => if ok then c.(inTx := View(c), unsaved := map[]) else c
    case Commit(ok) => if ok then c.(committed := c.inTx) else c
    case Rollback => c.(inTx := c.committed)
    case DiscardChanges => c.(unsaved := map[])
    case _ => c
  }

  function ContextReplay(c: Context, calls: seq<Call>): Context
    decreases |calls|
  {
    if |calls| == 0 then c else ContextReplay(ContextStep(c, calls[0]), calls[1..])
  }

  lemma {:induction false} ContextReplayAppend(c: Context, a: seq<Call>, b: seq<Call>)
    ensures ContextReplay(c, a + b) == ContextReplay(ContextReplay(c, a), b)
    decreases |a|
  {
    if |a| == 0 {
      assert a + b == b;
    } else {
      assert (a + b)[0] == a[0];
      assert (a + b)[1..] == a[1..] + b;
      ContextReplayAppend(ContextStep(c, a[0]), a[1..], b);
    }
  }

  lemma ContextReplayShort(c: Context, c0: Call, c1: Call, c2: Call)
    ensures ContextReplay(c, [c0]) == ContextStep(c, c0)
    ensures ContextReplay(c, [c0, c1]) == ContextStep(ContextStep(c, c0), c1)
    ensures ContextReplay(c, [c0, c1, c2]) == ContextStep(ContextStep(ContextStep(c, c0), c1), c2)
  {
    var t1 := ContextStep(c, c0);
    var t2 := ContextStep(t1, c1);
    assert [c0][1..] == [] && [c1][1..] == [] && [c2][1..] == [];
    assert ContextReplay(t2, [c2]) == ContextStep(t2, c2);
    assert ContextReplay(t1, [c1]) == t2;
    assert [c0, c1][1..] == [c1];
    assert ContextReplay(c, [c0, c1]) == ContextReplay(t1, [c1]);
    assert [c1, c2][1..] == [c2];
    assert ContextReplay(t1, [c1, c2]) == ContextReplay(t2, [c2]);
    assert [c0, c1, c2][1..] == [c1, c2];
    assert ContextReplay(c, [c0, c1, c2]) == ContextReplay(t1, [c1, c2]);
  }

  /**
   * What one item does to what the context finds: Write adds the entry; Update changes
   * an entry the context finds and does nothing to one it does not; Remove deletes it.
   */
  function ContextApply(v: Store, b: BulkItem): Store {
    if b.item.None? then v
    else
      var k := KeyOf(b.item.value);
      match b.op
      case Write => v[k := b.item.value.state]
      case Update => if k in v then v[k := b.item.value.state] else v
      case Remove => v - {k}
      case Other => v
  }

  function ContextApplyAll(v: Store, bulk: seq<BulkItem>): Store
    decreases |bulk|
  {
    if |bulk| == 0 then v else ContextApplyAll(ContextApply(v, bulk[0]), bulk[1..])
  }

  lemma ContextApplyPrefix(v: Store, bulk: seq<BulkItem>, i: nat)
    requires 1 <= i <= |bulk|
    ensures ContextApplyAll(v, bulk[..i]) == ContextApplyAll(ContextApply(v, bulk[0]), bulk[1..][..i - 1])
  {
    assert bulk[..i][0] == bulk[0];
    assert bulk[..i][1..] == bulk[1..][..i - 1];
  }

  /**
   * Whether an item makes the Entity Framework ExecuteBulk throw, given what the context
   * finds: an unknown operation; a remove or an update whose Merge cannot read the entry;
   * a remove of an entry the context does not find, whose detached copy DbSet.Remove
   * refuses.
   */
  predicate ContextItemFails(b: BulkItem, orm: Orm, v: Store) {
    && b.item.Some?
    && (|| b.op.Other?
        || ((b.op.Remove? || b.op.Update?) && b.item.value in orm.broken)
        || (b.op.Remove? && KeyOf(b.item.value) !in v))
  }

  /**
   * One item: null items are skipped; Remove merges the entry and removes the merged
   * one from its set; Update merges; Write adds to the set; any other operation throws
   * ArgumentOutOfRangeException.
   */
  function ContextItem(b: BulkItem, orm: Orm, v: Store): (r: Run)
    ensures r.failure.Some? <==> ContextItemFails(b, orm, v)
    ensures r.failure.Some? && b.op.Other? ==> r.failure.value == ArgumentOutOfRange
    ensures b.item.Some? && b.op.Remove? && b.item.value !in orm.broken && KeyOf(b.item.value) !in v
            ==> r.failure == Some(InvalidOperation)
    ensures forall i :: 0 <= i < |r.calls| ==> DataCall(r.calls[i]) && !r.calls[i].SaveOrUpdate?
    ensures b.item.None? ==> r == Run([], None)
  {
    if b.item.None? then Run([], None)
    else
      var e := b.item.value;
      match b.op
      case Remove =>
        if e in orm.broken then Run([Merge(e)], Some(OrmFailure(false)))
        else if KeyOf(e) !in v then Run([Merge(e)], Some(InvalidOperation))
        else Run([Merge(e), SetRemove(e)], None)
      case Update => if e in orm.broken then Run([Merge(e)], Some(OrmFailure(false))) else Run([Merge(e)], None)
      case Write => Run([Add(e)], None)
      case Other => Run([], Some(ArgumentOutOfRange))
  }

  /** An item that does not throw changes what the context finds as the item asks, and nothing in the database. */
  lemma ContextItemEffect(b: BulkItem, orm: Orm, c: Context)
    requires !ContextItemFails(b, orm, View(c))
    ensures var r := ContextReplay(c, ContextItem(b, orm, View(c)).calls);
            r.committed == c.committed && r.inTx == c.inTx && View(r) == ContextApply(View(c), b)
  {
    var calls := ContextItem(b, orm, View(c)).calls;
    if |calls| == 1 {
      ContextReplayShort(c, calls[0], calls[0], calls[0]);
      var e := b.item.value;
      if KeyOf(e) in View(c) || calls[0].Add? {
        OverlaySet(c.inTx, c.unsaved, KeyOf(e), e.state);
      }
    } else if |calls| == 2 {
      ContextReplayShort(c, calls[0], calls[1], calls[1]);
      var e := b.item.value;
      var k := KeyOf(e);
      OverlaySet(c.inTx, c.unsaved, k, e.state);
      OverlayDelete(c.inTx, c.unsaved[k := Some(e.state)], k);
      assert c.unsaved[k := Some(e.state)][k := None] == c.unsaved[k := None];
      OverlayDelete(c.inTx, c.unsaved, k);
    }
  }

  /** The items of a bulk in order, each seeing what the ones before it did, stopping at the first that throws. */
  function ContextItems(bulk: seq<BulkItem>, orm: Orm, v: Store): (r: Run)
    ensures r.failure.Some? <==> exists i :: 0 <= i < |bulk| && ContextItemFails(bulk[i], orm, ContextApplyAll(v, bulk[..i]))
    ensures forall i :: 0 <= i < |r.calls| ==> DataCall(r.calls[i])
    decreases |bulk|
  {
    if |bulk| == 0 then Run([], None)
    else
      var first := ContextItem(bulk[0], orm, v);
      assert bulk[..0] == [];
      if first.failure.Some? then first
      else
        var v1 := ContextApply(v, bulk[0]);
        var rest := ContextItems(bulk[1..], orm, v1);
        assert (exists i :: 0 <= i < |bulk| && ContextItemFails(bulk[i], orm, ContextApplyAll(v, bulk[..i])))
               <==> (exists i :: 0 <= i < |bulk[1..]| && ContextItemFails(bulk[1..][i], orm, ContextApplyAll(v1, bulk[1..][..i]))) by {
          if exists i :: 0 <= i < |bulk| && ContextItemFails(bulk[i], orm, ContextApplyAll(v, bulk[..i])) {
            var i :| 0 <= i < |bulk| && ContextItemFails(bulk[i], orm, ContextApplyAll(v, bulk[..i]));
            ContextApplyPrefix(v, bulk, i);
            assert i > 0 && bulk[1..][i - 1] == bulk[i];
          }
          if exists i :: 0 <= i < |bulk[1..]| && ContextItemFails(bulk[1..][i], orm, ContextApplyAll(v1, bulk[1..][..i])) {
            var i :| 0 <= i < |bulk[1..]| && ContextItemFails(bulk[1..][i], orm, ContextApplyAll(v1, bulk[1..][..i]));
            ContextApplyPrefix(v, bulk, i + 1);
          }
        }
        Run(first.calls + rest.calls, rest.failure)
  }

  /** Items that do not throw change what the context finds as the whole bulk asks, in order, and nothing in the database. */
  lemma {:induction false} ContextItemsEffect(bulk: seq<BulkItem>, orm: Orm, c: Context)
    requires ContextItems(bulk, orm, View(c)).failure.None?
    ensures var r := ContextReplay(c, ContextItems(bulk, orm, View(c)).calls);
            r.committed == c.committed && r.inTx == c.inTx && View(r) == ContextApplyAll(View(c), bulk)
    decreases |bulk|
  {
    if |bulk| > 0 {
      assert bulk[..0] == [];
      assert !ContextItemFails(bulk[0], orm, View(c));
      var first := ContextItem(bulk[0], orm, View(c));
      var c1 := ContextReplay(c, first.calls);
      ContextItemEffect(bulk[0], orm, c);
      var rest := ContextItems(bulk[1..], orm, View(c1));
      ContextItemsEffect(bulk[1..], orm, c1);
      ContextReplayAppend(c, first.calls, rest.calls);
    }
  }

  /** Whether the Entity Framework ExecuteBulk commits, given what the context finds when it begins. */
  predicate ContextCommits(bulk: seq<BulkItem>, orm: Orm, v: Store) {
    && (forall i :: 0 <= i < |bulk| ==> !ContextItemFails(bulk[i], orm, ContextApplyAll(v, bulk[..i])))
    && !orm.saveFails
    && 0 !in orm.failingCommits
  }

  /** What the Entity Framework ExecuteBulk calls after the items. */
  function ContextTail(itemsFailed: bool, saveFails: bool, commitFails: bool): seq<Call> {
    if itemsFailed then [Rollback]
    else if saveFails then [SaveChanges(false), Rollback]
    else if commitFails then [SaveChanges(true), Commit(false), Rollback]
    else [SaveChanges(true), Commit(true)]
  }

  /**
   * ExecuteBulk of the Entity Framework data source: begin; the items; SaveChanges;
   * commit. Whatever throws, the unknown operation included, is caught: the
   * transaction is rolled back and nothing escapes, so the result is the call log alone.
   */
  function ContextBulk(bulk: seq<BulkItem>, orm: Orm, c: Context): (r: seq<Call>)
    ensures |r| >= 2 && r[0] == BeginTransaction
    ensures r[|r| - 1] == Commit(true) <==> ContextCommits(bulk, orm, Overlay(c.committed, c.unsaved))
    ensures r[|r| - 1] != Commit(true) ==> r[|r| - 1] == Rollback
    ensures forall i :: 0 <= i < |r| && r[i].Commit? ==> 1 <= i && r[i - 1] == SaveChanges(true)
    ensures Begins(r) == 1
  {
    var items := ContextItems(bulk, orm, Overlay(c.committed, c.unsaved));
    var tail := ContextTail(items.failure.Some?, orm.saveFails, 0 in orm.failingCommits);
    var r := [BeginTransaction] + items.calls + tail;
    ContextLogShape(items.calls, tail);
    OneBegin(r);
    r
  }

  /** After the begin, the log holds data calls, then a tail whose every commit follows a successful SaveChanges. */
  lemma ContextLogShape(calls: seq<Call>, tail: seq<Call>)
    requires forall i :: 0 <= i < |calls| ==> DataCall(calls[i])
    requires tail == ContextTail(false, false, false) || tail == ContextTail(false, false, true)
          || tail == ContextTail(false, true, false) || tail == ContextTail(true, false, false)
    ensures var r := [BeginTransaction] + calls + tail;
            forall i :: 1 <= i < |r| ==> !r[i].BeginTransaction? && (r[i].Commit? ==> r[i - 1] == SaveChanges(true))
  {
    var r := [BeginTransaction] + calls + tail;
    var n := |calls|;
    forall i | 1 <= i < |r|
      ensures !r[i].BeginTransaction? && (r[i].Commit? ==> r[i - 1] == SaveChanges(true))
    {
      if i <= n {
        assert r[i] == calls[i - 1];
      } else {
        assert r[i] == tail[i - 1 - n];
        if i > n + 1 {
          assert r[i - 1] == tail[i - 2 - n];
        }
      }
    }
  }

  /**
   * The Entity Framework ExecuteBulk on a context that may hold changes an earlier call
   * left: when it commits, the database receives those changes and then the whole bulk,
   * in order; otherwise the database is unchanged. It ends outside a transaction, and a
   * commit leaves nothing unsaved.
   */
  lemma ContextBulkIsAtomic(bulk: seq<BulkItem>, orm: Orm, c: Context)
    ensures var v := Overlay(c.committed, c.unsaved);
            var r := ContextReplay(c, ContextBulk(bulk, orm, c));
            && r.committed == (if ContextCommits(bulk, orm, v) then ContextApplyAll(v, bulk) else c.committed)
            && r.inTx == r.committed
            && (ContextCommits(bulk, orm, v) ==> r.unsaved == map[])
  {
    var c0 := c.(inTx := c.committed);
    var items := ContextItems(bulk, orm, View(c0));
    var tail := ContextTail(items.failure.Some?, orm.saveFails, 0 in orm.failingCommits);
    ContextReplayAppend(c, [BeginTransaction] + items.calls, tail);
    ContextReplayAppend(c, [BeginTransaction], items.calls);
    ContextReplayShort(c, BeginTransaction, BeginTransaction, BeginTransaction);
    var mid := ContextReplay(c0, items.calls);
    if items.failure.None? {
      ContextItemsEffect(bulk, orm, c0);
    } else {
      ContextItemsKeepDatabase(items.calls, c0);
    }
    ContextTailEffect(mid, items.failure.Some?, orm.saveFails, 0 in orm.failingCommits);
  }

  /** Data calls touch only the tracker. */
  lemma {:induction false} ContextItemsKeepDatabase(calls: seq<Call>, c: Context)
    requires forall i :: 0 <= i < |calls| ==> DataCall(calls[i])
    ensures ContextReplay(c, calls).committed == c.committed && ContextReplay(c, calls).inTx == c.inTx
    decreases |calls|
  {
    if |calls| > 0 {
      assert DataCall(calls[0]);
      ContextItemsKeepDatabase(calls[1..], ContextStep(c, calls[0]));
    }
  }

  /**
   * The end of the Entity Framework ExecuteBulk: a commit writes what the context finds;
   * a rollback keeps the committed store, and the tracked changes too unless SaveChanges
   * went through.
   */
  lemma ContextTailEffect(c: Context, itemsFailed: bool, saveFails: bool, commitFails: bool)
    ensures var r := ContextReplay(c, ContextTail(itemsFailed, saveFails, commitFails));
            && r.committed == (if itemsFailed || saveFails || commitFails then c.committed else View(c))
            && r.inTx == r.committed
            && (itemsFailed || saveFails ==> r.unsaved == c.unsaved)
            && (!itemsFailed && !saveFails ==> r.unsaved == map[])
  {
    var tail := ContextTail(itemsFailed, saveFails, commitFails);
    if |tail| == 1 {
      ContextReplayShort(c, tail[0], tail[0], tail[0]);
    } else if |tail| == 2 {
      ContextReplayShort(c, tail[0], tail[1], tail[1]);
    } else {
      ContextReplayShort(c, tail[0], tail[1], tail[2]);
    }
  }

  /**
   * The evidently intended ExecuteBulk: when it rolls back it also discards what the
   * context tracks, so that a failed bulk leaves nothing for the next call to save.
   */
  function CorrectedContextBulk(bulk: seq<BulkItem>, orm: Orm, c: Context): (r: seq<Call>)
    ensures |r| >= 2 && r[0] == BeginTransaction
    ensures r[|r| - 1] == Commit(true) <==> ContextCommits(bulk, orm, Overlay(c.committed, c.unsaved))
    ensures r[|r| - 1] != Commit(true) ==> r[|r| - 2..] == [Rollback, DiscardChanges]
  {
    var log := ContextBulk(bulk, orm, c);
    if log[|log| - 1] == Rollback then log + [DiscardChanges] else log
  }

  /**
   * The corrected ExecuteBulk always leaves the context clean, so on a clean context
   * every call applies its whole bulk, in order, or nothing, whatever failed before it.
   */
  lemma CorrectedContextBulkIsAtomic(bulk: seq<BulkItem>, orm: Orm, c: Context)
    ensures var r := ContextReplay(c, CorrectedContextBulk(bulk, orm, c));
            && r.unsaved == map[]
            && r.inTx == r.committed
            && (c.unsaved == map[] ==>
                  r.committed == if ContextCommits(bulk, orm, c.committed) then ContextApplyAll(c.committed, bulk) else c.committed)
  {
    var log := ContextBulk(bulk, orm, c);
    var r0 := ContextReplay(c, log);
    ContextBulkIsAtomic(bulk, orm, c);
    CorrectedContextBulkDiscards(bulk, orm, c);
    OverlayNothing(c.committed);
    assert r0.committed == ContextReplay(c, CorrectedContextBulk(bulk, orm, c)).committed;
  }

  /** The corrected log replays as the written one, with the tracked changes then discarded. */
  lemma CorrectedContextBulkDiscards(bulk: seq<BulkItem>, orm: Orm, c: Context)
    ensures var r0 := ContextReplay(c, ContextBulk(bulk, orm, c));
            var r := ContextReplay(c, CorrectedContextBulk(bulk, orm, c));
            && r.committed == r0.committed && r.inTx == r0.inTx
            && (ContextBulk(bulk, orm, c)[|ContextBulk(bulk, orm, c)| - 1] == Rollback ==> r.unsaved == map[])
            && (ContextBulk(bulk, orm, c)[|ContextBulk(bulk, orm, c)| - 1] != Rollback ==> r == r0)
  {
    var log := ContextBulk(bulk, orm, c);
    if log[|log| - 1] == Rollback {
      ContextReplayAppend(c, log, [DiscardChanges]);
      ContextReplayShort(ContextReplay(c, log), DiscardChanges, DiscardChanges, DiscardChanges);
    }
  }

  /**
   * As written, a rolled-back bulk is not forgotten: a Write followed by an unknown
   * operation rolls back and leaves the database empty, yet the next ExecuteBulk, even
   * of an empty bulk, saves and commits the Write. The corrected code commits nothing.
   */
  lemma RolledBackWriteLeaks(a: Entity, x: Entity)
    ensures var orm := Orm({}, {}, {}, false);
            var bulk := [BulkItem(Some(a), Write), BulkItem(Some(x), Other)];
            var c0 := Context(map[], map[], map[]);
            var c1 := ContextReplay(c0, ContextBulk(bulk, orm, c0));
            var c2 := ContextReplay(c1, ContextBulk([], orm, c1));
            var d1 := ContextReplay(c0, CorrectedContextBulk(bulk, orm, c0));
            var d2 := ContextReplay(d1, CorrectedContextBulk([], orm, d1));
            && c1.committed == map[]
            && c2.committed == map[KeyOf(a) := a.state]
            && d2.committed == map[]
  {
    var orm := Orm({}, {}, {}, false);
    var bulk := [BulkItem(Some(a), Write), BulkItem(Some(x), Other)];
    var c0 := Context(map[], map[], map[]);
    var items := ContextItems(bulk, orm, map[]);
    assert bulk[1..] == [BulkItem(Some(x), Other)];
    var v1 := ContextApply(map[], bulk[0]);
    assert ContextItem(bulk[0], orm, map[]) == Run([Add(a)], None);
    assert ContextItems(bulk[1..], orm, v1) == Run([], Some(ArgumentOutOfRange));
    assert items.calls == [Add(a)] + [];
    OverlayNothing(map[]);
    var log := ContextBulk(bulk, orm, c0);
    assert log == [BeginTransaction, Add(a), Rollback];
    ContextReplayShort(c0, BeginTransaction, Add(a), Rollback);
    var c1 := ContextReplay(c0, log);
    assert c1 == Context(map[], map[], map[KeyOf(a) := Some(a.state)]);
    assert bulk[..1] == [bulk[0]];
    assert ContextItemFails(bulk[1], orm, ContextApplyAll(map[], bulk[..1]));
    ContextBulkIsAtomic(bulk, orm, c0);
    ContextBulkIsAtomic([], orm, c1);
    OverlaySet(map[], map[], KeyOf(a), a.state);
    var d1 := ContextReplay(c0, CorrectedContextBulk(bulk, orm, c0));
    CorrectedContextBulkIsAtomic(bulk, orm, c0);
    CorrectedContextBulkIsAtomic([], orm, d1);
  }
}

=== FILE: data_source.dfy ===
/**
 * The policy side of the two external data sources (NHibernateExternalDataSource,
 * EntityFrameworkExternalDataSource): the initial-load settings and their setters,
 * Init's reading of the properties, the default initial-load entries, the managed-entry
 * dictionary, DivideToChunks and InitialLoad.
 *
 * The database is reached only for a row count, which is an argument here; the
 * enumerators InitialLoad builds are described by their constructor arguments (a
 * `Spec`), and what such an enumerator yields is stated in module Paging.
 */
module DataSource {
  import opened Exceptions
  import Paging

  // ---------------------------------------------------------------------------
  // Settings and setters
  // ---------------------------------------------------------------------------

  /** The initial-load settings: fetch size, chunk size (-1: no chunking), thread pool size. */
  datatype Settings = Settings(fetchSize: int, chunkSize: int, poolSize: int, performOrderById: bool, useMerge: bool)

  /** The field initialisers of the NHibernate data source. */
  const HibernateDefaults: Settings := Settings(10000, 100000, 10, false, false)

  /** The field initialisers of the Entity Framework data source (it orders by id by default). */
  const EntityFrameworkDefaults: Settings := Settings(10000, 100000, 10, true, false)

  const PoolSizeMessage: string := "InitialLoadThreadPoolSize must be a positive number"
  const ChunkSizeMessage: string := "InitialLoadChunkSize must be a positive number or -1"
  const FetchSizeMessage: string := "EnumeratorLoadFetchSize must be a positive number"

  /**
   * What the setters of one data source allow: a positive pool size and a chunk size
   * that is positive or -1. Only the NHibernate data source has a fetch-size setter,
   * so only there must the fetch size be positive.
   */
  predicate SettingsOk(s: Settings, hibernate: bool) {
    (hibernate ==> 1 <= s.fetchSize) && 1 <= s.poolSize && (1 <= s.chunkSize || s.chunkSize == -1)
  }

  /** The InitialLoadThreadPoolSize setter of either data source. */
  function SetPoolSize(s: Settings, v: int): (r: Result<Settings>)
    ensures r.Err? <==> v < 1
    ensures r.Err? ==> r.error == ArgumentError(PoolSizeMessage)
    ensures r.Ok? ==> r.value.poolSize == v && r.value.(poolSize := s.poolSize) == s
  {
    if v < 1 then Err(ArgumentError(PoolSizeMessage)) else Ok(s.(poolSize := v))
  }

  /** The InitialLoadChunkSize setter of either data source. */
  function SetChunkSize(s: Settings, v: int): (r: Result<Settings>)
    ensures r.Err? <==> v < 1 && v != -1
    ensures r.Err? ==> r.error == ArgumentError(ChunkSizeMessage)
    ensures r.Ok? ==> r.value.chunkSize == v && r.value.(chunkSize := s.chunkSize) == s
  {
    if v < 1 && v != -1 then Err(ArgumentError(ChunkSizeMessage)) else Ok(s.(chunkSize := v))
  }

  /** The EnumeratorLoadFetchSize setter (the NHibernate data source has one). */
  function SetFetchSize(s: Settings, v: int): (r: Result<Settings>)
    ensures r.Err? <==> v < 1
    ensures r.Err? ==> r.error == ArgumentError(FetchSizeMessage)
    ensures r.Ok? ==> r.value.fetchSize == v && r.value.(fetchSize := s.fetchSize) == s
  {
    if v < 1 then Err(ArgumentError(FetchSizeMessage)) else Ok(s.(fetchSize := v))
  }

  /**
   * From valid settings, each setter accepts a value exactly when the settings it
   * produces are valid: the setters guard SettingsOk, no more and no less. The Entity
   * Framework data source has no fetch-size setter and accepts any fetch size.
   */
  lemma SettersGuardSettingsOk(s: Settings, hibernate: bool, v: int)
    requires SettingsOk(s, hibernate)
    ensures SetPoolSize(s, v).Ok? <==> SettingsOk(s.(poolSize := v), hibernate)
    ensures SetChunkSize(s, v).Ok? <==> SettingsOk(s.(chunkSize := v), hibernate)
    ensures hibernate ==> (SetFetchSize(s, v).Ok? <==> SettingsOk(s.(fetchSize := v), hibernate))
    ensures !hibernate ==> SettingsOk(s.(fetchSize := v), hibernate)
    ensures SetPoolSize(s, v).Ok? ==> SettingsOk(SetPoolSize(s, v).value, hibernate)
    ensures SetChunkSize(s, v).Ok? ==> SettingsOk(SetChunkSize(s, v).value, hibernate)
    ensures SetFetchSize(s, v).Ok? ==> SettingsOk(SetFetchSize(s, v).value, hibernate)
  {
  }

  // ---------------------------------------------------------------------------
  // Init: reading the settings from the properties
  // ---------------------------------------------------------------------------

  /**
   * The space's properties, as the base class's GetIntProperty and GetBoolProperty
   * read them: a key that is absent gives the default.
   */
  datatype Properties = Properties(ints: map<string, int>, bools: map<string, bool>)

  function IntProperty(p: Properties, key: string, default: int): int {
    if key in p.ints then p.ints[key] else default
  }

  function BoolProperty(p: Properties, key: string, default: bool): bool {
    if key in p.bools then p.bools[key] else default
  }

  /**
   * The settings after Init, as the code reads them: each property is stored straight
   * into its field, without going through the setter. Only the NHibernate data source
   * reads UseMerge.
   */
  function ReadSettingsAsWritten(s: Settings, p: Properties, hibernate: bool): (r: Settings)
    ensures r.fetchSize == IntProperty(p, "EnumeratorLoadFetchSize", s.fetchSize)
    ensures r.chunkSize == IntProperty(p, "InitialLoadChunkSize", s.chunkSize)
    ensures r.poolSize == IntProperty(p, "InitialLoadThreadPoolSize", s.poolSize)
    ensures r.performOrderById == BoolProperty(p, "PerformOrderById", s.performOrderById)
    ensures r.useMerge == if hibernate then BoolProperty(p, "UseMerge", s.useMerge) else s.useMerge
  {
    Settings(
      IntProperty(p, "EnumeratorLoadFetchSize", s.fetchSize),
      IntProperty(p, "InitialLoadChunkSize", s.chunkSize),
      IntProperty(p, "InitialLoadThreadPoolSize", s.poolSize),
      BoolProperty(p, "PerformOrderById", s.performOrderById),
      if hibernate then BoolProperty(p, "UseMerge", s.useMerge) else s.useMerge)
  }

  /**
   * The settings after Init when the properties go through the data source's setters,
   * in the order Init reads them: the first rejected value fails Init with that
   * setter's message. The Entity Framework data source has no fetch-size setter, so
   * its fetch size is stored as it is. It accepts the properties exactly when the
   * settings the code as written stores are valid, and then stores the same settings.
   */
  function ReadSettings(s: Settings, p: Properties, hibernate: bool): (r: Result<Settings>)
    ensures r.Ok? <==> SettingsOk(ReadSettingsAsWritten(s, p, hibernate), hibernate)
    ensures r.Ok? ==> r.value == ReadSettingsAsWritten(s, p, hibernate)
    ensures r.Err? ==> r.error.ArgumentError?
    ensures !hibernate ==> r.Err? ==> r.error != ArgumentError(FetchSizeMessage)
  {
    var fetch := IntProperty(p, "EnumeratorLoadFetchSize", s.fetchSize);
    var s1 :- if hibernate then SetFetchSize(s, fetch) else Ok(s.(fetchSize := fetch));
    var s2 :- SetChunkSize(s1, IntProperty(p, "InitialLoadChunkSize", s.chunkSize));
    var s3 := s2.(performOrderById := BoolProperty(p, "PerformOrderById", s.performOrderById));
    var s4 :- SetPoolSize(s3, IntProperty(p, "InitialLoadThreadPoolSize", s.poolSize));
    Ok(if hibernate then s4.(useMerge := BoolProperty(p, "UseMerge", s.useMerge)) else s4)
  }

  /**
   * Init bypasses the setters: a property InitialLoadChunkSize of 0 is stored, although
   * the setter would reject it, and DivideToChunks' loop `from += InitialLoadChunkSize`
   * then never moves past its first offset.
   */
  lemma ReadSettingsBypassesSetters()
    ensures var p := Properties(map["InitialLoadChunkSize" := 0], map[]);
            && ReadSettingsAsWritten(HibernateDefaults, p, true).chunkSize == 0
            && !SettingsOk(ReadSettingsAsWritten(HibernateDefaults, p, true), true)
            && SetChunkSize(HibernateDefaults, 0) == Err(ArgumentError(ChunkSizeMessage))
            && ReadSettings(HibernateDefaults, p, true) == Err(ArgumentError(ChunkSizeMessage))
  {
    var p := Properties(map["InitialLoadChunkSize" := 0], map[]);
    assert "EnumeratorLoadFetchSize" !in p.ints;
    assert "InitialLoadThreadPoolSize" !in p.ints;
  }

  // ---------------------------------------------------------------------------
  // Init of the Entity Framework data source: creating the DbContext
  // ---------------------------------------------------------------------------

  const ContextTypeMessage: string :=
    "Could not initialize DbContext instance because parameter 'EntityFrameworkContextFullTypeName' is null or whitespace."
  const ConnectionStringMessage: string :=
    "Could not initialize DbContext instance because parameter 'EntityFrameworkConnectionString' is null or whitespace."
  const ResolveTypeMessage: string :=
    "Could not resolve type by name. Type name must have following format: 'GigaSpaces.ProjectNamespace.StockSbaContextClassName, AssemblyName'"

  /** The white-space characters string.IsNullOrWhiteSpace recognises in this model. */
  predicate IsWhiteSpace(c: char) {
    c == ' ' || c == '\t' || c == '\n' || c == '\r' || c == '\U{000B}' || c == '\U{000C}'
  }

  /** string.IsNullOrWhiteSpace. */
  predicate IsNullOrWhiteSpace(s: Option<string>) {
    s.None? || forall i :: 0 <= i < |s.value| ==> IsWhiteSpace(s.value[i])
  }

  /** How Init makes a DbContext: from the resolved type, with the connection string. */
  datatype Context = Context(typeName: string, connectionString: Option<string>)

  /**
   * What `(DbContext)Activator.CreateInstance(type, connectionString)` does with a
   * resolved type: the type may have no constructor taking a string, its constructor
   * may throw, or the object it builds may not be a DbContext.
   */
  datatype Construction =
    | Built                  // a DbContext whose string constructor returns
    | NoStringConstructor    // Activator throws MissingMethodException
    | ConstructorThrows      // the constructor throws; Activator wraps it in TargetInvocationException
    | NotDbContext           // the object is built, and the cast throws InvalidCastException

  /** The exception each failed construction reaches Init as. */
  function ConstructionError(c: Construction): (e: Exception)
    requires !c.Built?
    ensures c.NoStringConstructor? <==> e == MissingMethod
    ensures c.ConstructorThrows? <==> e == TargetInvocation
    ensures c.NotDbContext? <==> e == InvalidCast
  {
    match c
    case NoStringConstructor => MissingMethod
    case ConstructorThrows => TargetInvocation
    case NotDbContext => InvalidCast
  }

  /**
   * How the shipped context class is built: its one-argument constructor hands the
   * string to Entity Framework's DbContext(string), which rejects a null or
   * white-space one.
   */
  function ShippedConstruction(connectionString: Option<string>): (c: Construction)
    ensures c.Built? <==> !IsNullOrWhiteSpace(connectionString)
    ensures !c.Built? ==> c == ConstructorThrows
  {
    if IsNullOrWhiteSpace(connectionString) then ConstructorThrows else Built
  }

  /**
   * Init of the Entity Framework data source when no DbContext was injected, as
   * written: the type name must not be null or white space, the second check tests
   * the type name again instead of the connection string, and the type name must
   * resolve (`resolves`: whether Type.GetType finds it). The context is then built
   * by reflection and cast (`ctor`: what that does with the resolved type and the
   * connection string).
   */
  function CreateContextAsWritten(typeName: Option<string>, connectionString: Option<string>, resolves: bool,
                                  ctor: Construction): (r: Result<Context>)
    ensures r.Err? <==> IsNullOrWhiteSpace(typeName) || !resolves || !ctor.Built?
    ensures IsNullOrWhiteSpace(typeName) ==> r == Err(ArgumentError(ContextTypeMessage))
    ensures r.Err? ==> r.error != ArgumentError(ConnectionStringMessage)
    ensures !IsNullOrWhiteSpace(typeName) && !resolves ==> r == Err(ArgumentError(ResolveTypeMessage))
    ensures !IsNullOrWhiteSpace(typeName) && resolves && ctor.NoStringConstructor? ==> r == Err(MissingMethod)
    ensures !IsNullOrWhiteSpace(typeName) && resolves && ctor.ConstructorThrows? ==> r == Err(TargetInvocation)
    ensures !IsNullOrWhiteSpace(typeName) && resolves && ctor.NotDbContext? ==> r == Err(InvalidCast)
    ensures r.Ok? ==> r.value == Context(typeName.value, connectionString)
  {
    if IsNullOrWhiteSpace(typeName) then Err(ArgumentError(ContextTypeMessage))
    else if IsNullOrWhiteSpace(typeName) then Err(ArgumentError(ConnectionStringMessage))
    else if !resolves then Err(ArgumentError(ResolveTypeMessage))
    else if !ctor.Built? then Err(ConstructionError(ctor))
    else Ok(Context(typeName.value, connectionString))
  }

  /** Init with the connection-string check testing the connection string. */
  function CreateContext(typeName: Option<string>, connectionString: Option<string>, resolves: bool,
                         ctor: Construction): (r: Result<Context>)
    ensures r.Ok? ==> !IsNullOrWhiteSpace(r.value.connectionString) && !IsNullOrWhiteSpace(Some(r.value.typeName))
    ensures IsNullOrWhiteSpace(connectionString) ==> r.Err? && r.error.ArgumentError?
  {
    if IsNullOrWhiteSpace(typeName) then Err(ArgumentError(ContextTypeMessage))
    else if IsNullOrWhiteSpace(connectionString) then Err(ArgumentError(ConnectionStringMessage))
    else if !resolves then Err(ArgumentError(ResolveTypeMessage))
    else if !ctor.Built? then Err(ConstructionError(ctor))
    else Ok(Context(typeName.value, connectionString))
  }

  /**
   * The two differ exactly on a usable type name with a null or white-space connection
   * string: the intended code rejects it with its own message, while the code as
   * written leaves it to the type name's resolution and the context's construction.
   */
  lemma CreateContextDiffers(typeName: Option<string>, connectionString: Option<string>, resolves: bool, ctor: Construction)
    ensures CreateContextAsWritten(typeName, connectionString, resolves, ctor)
              != CreateContext(typeName, connectionString, resolves, ctor)
            <==> !IsNullOrWhiteSpace(typeName) && IsNullOrWhiteSpace(connectionString)
    ensures !IsNullOrWhiteSpace(typeName) && IsNullOrWhiteSpace(connectionString) ==>
              CreateContext(typeName, connectionString, resolves, ctor) == Err(ArgumentError(ConnectionStringMessage))
  {
  }

  /**
   * A concrete input: type name "Ctx, App", empty connection string. With the shipped
   * context class the code as written fails only in the constructor, with a
   * TargetInvocationException instead of the connection-string message; a context
   * class whose constructor takes any string is built without one.
   */
  lemma EmptyConnectionStringMisreported()
    ensures ShippedConstruction(Some("")) == ConstructorThrows
    ensures CreateContextAsWritten(Some("Ctx, App"), Some(""), true, ShippedConstruction(Some(""))) == Err(TargetInvocation)
    ensures CreateContextAsWritten(Some("Ctx, App"), Some(""), true, Built) == Ok(Context("Ctx, App", Some("")))
    ensures CreateContext(Some("Ctx, App"), Some(""), true, ShippedConstruction(Some("")))
            == Err(ArgumentError(ConnectionStringMessage))
  {
    assert Some("Ctx, App").value[0] == 'C';
  }

  // ---------------------------------------------------------------------------
  // Entries
  // ---------------------------------------------------------------------------

  /**
   * Both data sources keep an injected list of initial-load entries; only when none
   * was injected does Init compute the default (EFManager.DbEntries, or the
   * NHibernate filter below).
   */
  function InitialLoadEntries<T>(injected: Option<seq<T>>, defaults: seq<T>): (r: seq<T>)
    ensures injected.Some? ==> r == injected.value
    ensures injected.None? ==> r == defaults
  {
    if injected.Some? then injected.value else defaults
  }

  /** What the NHibernate class metadata says of an entity: its mapped superclass, if any, and whether it has a mapped class. */
  datatype ClassMetadata = ClassMetadata(mappedSuperclass: Option<string>, hasMappedClass: bool)

  /** Whether an entity's mapped superclass is itself a mapped class: such entities are loaded through the superclass. */
  predicate HasMappedSuperclass(meta: map<string, ClassMetadata>, name: string)
    requires name in meta
  {
    var sup := meta[name].mappedSuperclass;
    sup.Some? && sup.value in meta && meta[sup.value].hasMappedClass
  }

  /**
   * The NHibernate default initial-load entries: the entities, in metadata order,
   * without those whose mapped superclass has a mapped class. A mapped superclass
   * with no metadata of its own makes the dictionary lookup throw.
   */
  function DefaultInitialLoadEntries(names: seq<string>, meta: map<string, ClassMetadata>): (r: Result<seq<string>>)
    requires forall i :: 0 <= i < |names| ==> names[i] in meta
    ensures r.Err? <==> exists i :: 0 <= i < |names| && meta[names[i]].mappedSuperclass.Some? && meta[names[i]].mappedSuperclass.value !in meta
    ensures r.Err? ==> r.error == KeyNotFound
    ensures r.Ok? ==> forall n :: n in r.value <==> n in names && !HasMappedSuperclass(meta, n)
    ensures r.Ok? ==> |r.value| <= |names|
  {
    if |names| == 0 then Ok([])
    else
      var n := names[0];
      var sup := meta[n].mappedSuperclass;
      if sup.Some? && sup.value !in meta then Err(KeyNotFound)
      else
        var rest :- DefaultInitialLoadEntries(names[1..], meta);
        if HasMappedSuperclass(meta, n) then Ok(rest) else Ok([n] + rest)
  }

  /** Whether a sequence has a repeated element. */
  predicate HasDuplicate<T(==)>(xs: seq<T>) {
    exists i, j :: 0 <= i < j < |xs| && xs[i] == xs[j]
  }

  /**
   * The NHibernate ManagedEntries setter: it builds the lookup dictionary with Add,
   * which throws on a repeated name; a null list gives an empty dictionary.
   */
  function ManagedEntrySet(entries: Option<seq<string>>): (r: Result<set<string>>)
    ensures entries.None? ==> r == Ok({})
    ensures entries.Some? ==> (r.Err? <==> HasDuplicate(entries.value))
    ensures r.Err? ==> r.error == DuplicateKey
    ensures entries.Some? && r.Ok? ==> forall n :: n in r.value <==> n in entries.value
  {
    if entries.None? then Ok({}) else AddAll(entries.value, {})
  }

  /** Dictionary.Add of every name in turn, onto the names already added. */
  function AddAll(names: seq<string>, added: set<string>): (r: Result<set<string>>)
    ensures r.Err? <==> HasDuplicate(names) || exists i :: 0 <= i < |names| && names[i] in added
    ensures r.Err? ==> r.error == DuplicateKey
    ensures r.Ok? ==> forall n :: n in r.value <==> n in added || n in names
  {
    if |names| == 0 then Ok(added)
    else if names[0] in added then Err(DuplicateKey)
    else
      var r := AddAll(names[1..], added + {names[0]});
      assert HasDuplicate(names) <==> HasDuplicate(names[1..]) || names[0] in names[1..] by {
        if HasDuplicate(names) {
          var i, j :| 0 <= i < j < |names| && names[i] == names[j];
          if i > 0 {
            assert names[1..][i - 1] == names[1..][j - 1];
          } else {
            assert names[1..][j - 1] == names[0];
          }
        }
        if names[0] in names[1..] {
          var j :| 0 <= j < |names[1..]| && names[1..][j] == names[0];
          assert names[0] == names[j + 1];
        }
        if HasDuplicate(names[1..]) {
          var i, j :| 0 <= i < j < |names[1..]| && names[1..][i] == names[1..][j];
          assert names[i + 1] == names[j + 1];
        }
      }
      r
  }

  // ---------------------------------------------------------------------------
  // DivideToChunks and InitialLoad
  // ---------------------------------------------------------------------------

  /** The constructor arguments of one data enumerator: entity type, offset, maximum number of rows. */
  datatype Spec = Spec(entity: Option<string>, offset: int, chunkSize: int)

  const NoEntityMessage: string := "DivideToChunks must receive an Entity Type"

  /**
   * The loop `for (from = start; from < count; from += c)` of DivideToChunks: one
   * enumerator of `c` rows from each offset it visits.
   */
  function ChunkSpecs(entity: Option<string>, start: int, count: int, c: int): (r: seq<Spec>)
    requires 1 <= c
    ensures |r| == NumChunks(count - start, c)
    decreases count - start
  {
    if start < count then [Spec(entity, start, c)] + ChunkSpecs(entity, start + c, count, c) else []
  }

  /** The number of chunks of size `c` it takes to cover `count` rows; none for no rows. */
  function NumChunks(count: int, c: int): nat
    requires 1 <= c
    decreases count
  {
    if count <= 0 then 0 else 1 + NumChunks(count - c, c)
  }

  /** NumChunks is ⌈count / c⌉: the fewest chunks of size `c` that reach `count` rows. */
  lemma {:induction false} NumChunksIsCeiling(count: int, c: int)
    requires 1 <= c
    ensures count <= NumChunks(count, c) * c
    ensures 0 < count ==> (NumChunks(count, c) - 1) * c < count
    decreases count
  {
    if count > 0 {
      NumChunksIsCeiling(count - c, c);
      var n := NumChunks(count - c, c);
      assert (n + 1) * c == n * c + c;
      assert (n - 1) * c == n * c - c;
    }
  }

  /** The `i`-th chunk from `start` starts at `start + i * c`. */
  lemma {:induction false} ChunkSpecsValues(entity: Option<string>, start: int, count: int, c: int)
    requires 1 <= c
    ensures forall i :: 0 <= i < |ChunkSpecs(entity, start, count, c)| ==>
              ChunkSpecs(entity, start, count, c)[i] == Spec(entity, start + i * c, c)
    decreases count - start
  {
    if start < count {
      ChunkSpecsValues(entity, start + c, count, c);
      var r := ChunkSpecs(entity, start, count, c);
      forall i | 0 <= i < |r|
        ensures r[i] == Spec(entity, start + i * c, c)
      {
        if i > 0 {
          assert r[i] == ChunkSpecs(entity, start + c, count, c)[i - 1];
          assert (start + c) + (i - 1) * c == start + i * c;
        }
      }
    }
  }

  lemma MulLe(a: int, b: int, c: int)
    requires a <= b && 0 <= c
    ensures a * c <= b * c
  {
    assert b * c - a * c == (b - a) * c;
  }

  /**
   * DivideToChunks: one enumerator per chunk `[from, from + c)` of the entity's `count`
   * rows, for from = 0, c, 2c, … below count. A null entity type throws before the
   * table is counted. The chunk size is the data source's, which the setters keep
   * positive once chunking is on.
   */
  function DivideToChunks(entity: Option<string>, count: int, c: int): (r: Result<seq<Spec>>)
    requires 1 <= c
    ensures r.Err? <==> entity.None?
    ensures r.Err? ==> r.error == ArgumentError(NoEntityMessage)
  {
    if entity.None? then Err(ArgumentError(NoEntityMessage))
    else Ok(ChunkSpecs(entity, 0, count, c))
  }

  /**
   * The chunks are ⌈count / c⌉ enumerators of the entity with offsets 0, c, 2c, …
   * and chunk size c; none for an empty table.
   */
  lemma DivideToChunksShape(entity: string, count: int, c: int)
    requires 1 <= c
    ensures var r := DivideToChunks(Some(entity), count, c);
            && r.Ok?
            && |r.value| == NumChunks(count, c)
            && forall i :: 0 <= i < |r.value| ==> r.value[i] == Spec(Some(entity), i * c, c)
  {
    ChunkSpecsValues(Some(entity), 0, count, c);
    var r := ChunkSpecs(Some(entity), 0, count, c);
    forall i | 0 <= i < |r|
      ensures r[i] == Spec(Some(entity), i * c, c)
    {
      assert r[i] == Spec(Some(entity), 0 + i * c, c);
    }
  }

  /** Row `x` lies in chunk `x / c` and in no other. */
  lemma RowInChunk(c: int, x: int, i: int)
    requires 1 <= c && 0 <= x && 0 <= i
    ensures i * c <= x < i * c + c <==> i == x / c
  {
    var q := x / c;
    assert q * c <= x < q * c + c;
    if i < q {
      MulLe(i + 1, q, c);
      assert (i + 1) * c == i * c + c;
    } else if i > q {
      MulLe(q + 1, i, c);
      assert (q + 1) * c == q * c + c;
    }
  }

  /** The chunk of a row below `count` is one of the ⌈count / c⌉ chunks. */
  lemma ChunkOfRowExists(count: int, c: int, x: int)
    requires 1 <= c && 0 <= x < count
    ensures 0 <= x / c < NumChunks(count, c)
  {
    var q := x / c;
    assert q * c <= x;
    NumChunksIsCeiling(count, c);
    var n := NumChunks(count, c);
    if q >= n {
      MulLe(n, q, c);
    }
  }

  /**
   * The chunks cover the rows `[0, count)` without overlap: row `x` lies in chunk
   * `x / c`, one of the ⌈count / c⌉ chunks, and in no other.
   */
  lemma ChunksPartitionRows(count: int, c: int, x: int, i: int)
    requires 1 <= c && 0 <= x < count
    requires 0 <= i < NumChunks(count, c)
    ensures 0 <= x / c < NumChunks(count, c)
    ensures i * c <= x < i * c + c <==> i == x / c
  {
    ChunkOfRowExists(count, c, x);
    RowInChunk(c, x, i);
  }

  /** A table to load: its entity type (null when the configured list holds null) and its row count. */
  datatype Table = Table(entity: Option<string>, count: int)

  /** What InitialLoad hands the fan-in engine: the enumerators, the batch size and the pool size. */
  datatype Load = Load(enumerators: seq<Spec>, batchSize: int, poolSize: int)

  /** The enumerators for the tables, in order: the whole table each when chunking is off, its chunks otherwise. */
  function TableSpecs(tables: seq<Table>, c: int): (r: Result<seq<Spec>>)
    requires 1 <= c || c == -1
    ensures c == -1 ==> r.Ok? && |r.value| == |tables|
    ensures c == -1 ==> forall i :: 0 <= i < |tables| ==> r.value[i] == Spec(tables[i].entity, 0, Paging.Int32Max)
    ensures c != -1 ==> (r.Err? <==> exists i :: 0 <= i < |tables| && tables[i].entity.None?)
    ensures r.Err? ==> r.error == ArgumentError(NoEntityMessage)
  {
    if |tables| == 0 then Ok([])
    else
      var first :- TableChunks(tables[0], c);
      var rest :- TableSpecs(tables[1..], c);
      Ok(first + rest)
  }

  /** The number of chunks of all the tables together. */
  function ChunkTotal(tables: seq<Table>, c: int): nat
    requires 1 <= c
  {
    if |tables| == 0 then 0 else NumChunks(tables[0].count, c) + ChunkTotal(tables[1..], c)
  }

  /** Where the chunks of table `i` begin: after the chunks of the tables before it. */
  function ChunkStart(tables: seq<Table>, i: nat, c: int): (r: nat)
    requires 1 <= c && i < |tables|
    ensures r + NumChunks(tables[i].count, c) <= ChunkTotal(tables, c)
    decreases i
  {
    if i == 0 then 0 else NumChunks(tables[0].count, c) + ChunkStart(tables[1..], i - 1, c)
  }

  /**
   * With chunking on and every entry naming its type, the enumerators are the chunks
   * of the first table, then those of the second, and so on: table `i`'s chunk `k`
   * sits after all the chunks of the tables before it, with offset k·c.
   */
  lemma {:induction false} TableSpecsChunksInOrder(tables: seq<Table>, c: int)
    requires 1 <= c
    requires forall i :: 0 <= i < |tables| ==> tables[i].entity.Some?
    ensures TableSpecs(tables, c).Ok?
    ensures |TableSpecs(tables, c).value| == ChunkTotal(tables, c)
    ensures forall i, k {:trigger tables[i], NumChunks(tables[i].count, c), Spec(tables[i].entity, k * c, c)} ::
              0 <= i < |tables| && 0 <= k < NumChunks(tables[i].count, c) ==>
                TableSpecs(tables, c).value[ChunkStart(tables, i, c) + k] == Spec(tables[i].entity, k * c, c)
    decreases |tables|
  {
    if |tables| > 0 {
      var r := TableSpecs(tables, c).value;
      var first := DivideToChunks(tables[0].entity, tables[0].count, c).value;
      DivideToChunksShape(tables[0].entity.value, tables[0].count, c);
      TableSpecsChunksInOrder(tables[1..], c);
      var rest := TableSpecs(tables[1..], c).value;
      assert r == first + rest;
      forall i, k | 0 <= i < |tables| && 0 <= k < NumChunks(tables[i].count, c)
        ensures r[ChunkStart(tables, i, c) + k] == Spec(tables[i].entity, k * c, c)
      {
        if i > 0 {
          assert tables[1..][i - 1] == tables[i];
        }
      }
    }
  }

  /** The enumerators of one table: one over the whole table when chunking is off, its chunks otherwise. */
  function TableChunks(t: Table, c: int): (r: Result<seq<Spec>>)
    requires 1 <= c || c == -1
    ensures c == -1 ==> r == Ok([Spec(t.entity, 0, Paging.Int32Max)])
    ensures c != -1 ==> r == DivideToChunks(t.entity, t.count, c)
  {
    if c == -1 then Ok([Spec(t.entity, 0, Paging.Int32Max)]) else DivideToChunks(t.entity, t.count, c)
  }

  /**
   * InitialLoad of either data source: the enumerators for the initial-load entries,
   * handed to the fan-in engine with the fetch size as batch size and the configured
   * pool size.
   */
  function InitialLoad(s: Settings, tables: seq<Table>): (r: Result<Load>)
    requires 1 <= s.chunkSize || s.chunkSize == -1
    ensures r.Ok? ==> r.value.batchSize == s.fetchSize && r.value.poolSize == s.poolSize
    ensures r.Err? <==> s.chunkSize != -1 && exists i :: 0 <= i < |tables| && tables[i].entity.None?
    ensures s.chunkSize == -1 ==> r.Ok? && |r.value.enumerators| == |tables|
  {
    var specs :- TableSpecs(tables, s.chunkSize);
    Ok(Load(specs, s.fetchSize, s.poolSize))
  }

  // ---------------------------------------------------------------------------
  // What the initial load reads
  // ---------------------------------------------------------------------------

  /** The rows one enumerator reads: its window of its entity's table (none for an unknown table). */
  function SpecRows<V>(db: map<string, seq<V>>, spec: Spec): seq<V> {
    if spec.entity.Some? && spec.entity.value in db then Paging.Window(db[spec.entity.value], spec.offset, spec.chunkSize)
    else []
  }

  /** The rows the enumerators read, in enumerator order. */
  function ReadRows<V>(db: map<string, seq<V>>, specs: seq<Spec>): seq<V>
    decreases |specs|
  {
    if |specs| == 0 then [] else SpecRows(db, specs[0]) + ReadRows(db, specs[1..])
  }

  /** The tables' rows, one table after another. */
  function AllRows<V>(db: map<string, seq<V>>, names: seq<string>): seq<V>
    requires forall i :: 0 <= i < |names| ==> names[i] in db
  {
    if |names| == 0 then [] else db[names[0]] + AllRows(db, names[1..])
  }

  lemma ConcatAssoc<T>(a: seq<T>, b: seq<T>, c: seq<T>)
    ensures a + (b + c) == (a + b) + c
  {
  }

  lemma {:induction false} ReadRowsAppend<V>(db: map<string, seq<V>>, a: seq<Spec>, b: seq<Spec>)
    ensures ReadRows(db, a + b) == ReadRows(db, a) + ReadRows(db, b)
    decreases |a|
  {
    if |a| == 0 {
      assert a + b == b;
    } else {
      var ab := a + b;
      assert ab[0] == a[0];
      assert ab[1..] == a[1..] + b;
      ReadRowsAppend(db, a[1..], b);
      ConcatAssoc(SpecRows(db, a[0]), ReadRows(db, a[1..]), ReadRows(db, b));
    }
  }

  /** The windows of `c` rows from `start`, `start + c`, … up to the table's end, one after another. */
  function Tiles<V>(rows: seq<V>, start: int, c: int): seq<V>
    requires 0 <= start && 1 <= c
    decreases |rows| - start
  {
    if start < |rows| then rows[start .. Paging.Min(start + c, |rows|)] + Tiles(rows, start + c, c) else []
  }

  /** The windows from `start` on tile the table from `start` on. */
  lemma {:induction false} TilesCoverRest<V>(rows: seq<V>, start: int, c: int)
    requires 0 <= start && 1 <= c
    ensures Tiles(rows, start, c) == rows[Paging.Min(start, |rows|)..]
    decreases |rows| - start
  {
    if start < |rows| {
      TilesCoverRest(rows, start + c, c);
      var m := Paging.Min(start + c, |rows|);
      assert rows[start..] == rows[start .. m] + rows[m..];
    }
  }

  /** The chunks from offset `start` on read the windows from `start` on. */
  lemma {:induction false} ChunksReadTiles<V>(db: map<string, seq<V>>, name: string, rows: seq<V>, start: int, c: int)
    requires name in db && rows == db[name] && 1 <= c && 0 <= start
    ensures ReadRows(db, ChunkSpecs(Some(name), start, |rows|, c)) == Tiles(rows, start, c)
    decreases |rows| - start
  {
    if start < |rows| {
      ChunksReadTiles(db, name, rows, start + c, c);
      ReadRowsCons(db, Spec(Some(name), start, c), ChunkSpecs(Some(name), start + c, |rows|, c));
      ChunkRows(db, name, rows, start, c);
    }
  }

  lemma ReadRowsCons<V>(db: map<string, seq<V>>, spec: Spec, rest: seq<Spec>)
    ensures ReadRows(db, [spec] + rest) == SpecRows(db, spec) + ReadRows(db, rest)
  {
    assert ([spec] + rest)[0] == spec && ([spec] + rest)[1..] == rest;
  }

  lemma ChunkRows<V>(db: map<string, seq<V>>, name: string, rows: seq<V>, start: int, c: int)
    requires name in db && rows == db[name] && 1 <= c && 0 <= start < |rows|
    ensures SpecRows(db, Spec(Some(name), start, c)) == rows[start .. Paging.Min(start + c, |rows|)]
  {
  }

  /**
   * Over tables that exist and hold fewer than int.MaxValue rows, with a chunk size the
   * setter allows, the initial load reads every row of every entry exactly once, table after table
   * in entry order and in each table's order, whether chunking is on or off.
   */
  lemma {:induction false} InitialLoadReadsEveryRow<V>(s: Settings, db: map<string, seq<V>>, names: seq<string>)
    requires 1 <= s.chunkSize || s.chunkSize == -1
    requires forall i :: 0 <= i < |names| ==> names[i] in db && |db[names[i]]| <= Paging.Int32Max
    ensures var tables := seq(|names|, i requires 0 <= i < |names| => Table(Some(names[i]), |db[names[i]]|));
            var r := InitialLoad(s, tables);
            && r.Ok?
            && KnownEntities(db, r.value.enumerators)
            && ReadRows(db, r.value.enumerators) == AllRows(db, names)
  {
    var tables := seq(|names|, i requires 0 <= i < |names| => Table(Some(names[i]), |db[names[i]]|));
    TableSpecsRead(s.chunkSize, db, names, tables);
  }

  lemma {:induction false} TableSpecsRead<V>(c: int, db: map<string, seq<V>>, names: seq<string>, tables: seq<Table>)
    requires 1 <= c || c == -1
    requires forall i :: 0 <= i < |names| ==> names[i] in db && |db[names[i]]| <= Paging.Int32Max
    requires |tables| == |names| && forall i :: 0 <= i < |names| ==> tables[i] == Table(Some(names[i]), |db[names[i]]|)
    ensures var r := TableSpecs(tables, c);
            && r.Ok?
            && KnownEntities(db, r.value)
            && ReadRows(db, r.value) == AllRows(db, names)
    decreases |names|
  {
    if |names| > 0 {
      TableSpecsRead(c, db, names[1..], tables[1..]);
      var rest := TableSpecs(tables[1..], c).value;
      TableChunksRead(c, db, names[0]);
      var first := TableChunks(tables[0], c).value;
      KnownEntitiesAppend(db, first, rest);
      ReadRowsAppend(db, first, rest);
    }
  }

  /** Every enumerator names a table of the database. */
  predicate KnownEntities<V>(db: map<string, seq<V>>, specs: seq<Spec>) {
    forall i :: 0 <= i < |specs| ==> specs[i].entity.Some? && specs[i].entity.value in db
  }

  lemma KnownEntitiesAppend<V>(db: map<string, seq<V>>, a: seq<Spec>, b: seq<Spec>)
    requires KnownEntities(db, a) && KnownEntities(db, b)
    ensures KnownEntities(db, a + b)
  {
    assert forall i :: 0 <= i < |b| ==> (a + b)[|a| + i] == b[i];
  }

  /** The enumerators of one existing table read exactly its rows, chunked or not. */
  lemma TableChunksRead<V>(c: int, db: map<string, seq<V>>, name: string)
    requires 1 <= c || c == -1
    requires name in db && |db[name]| <= Paging.Int32Max
    ensures var r := TableChunks(Table(Some(name), |db[name]|), c);
            && r.Ok?
            && KnownEntities(db, r.value)
            && ReadRows(db, r.value) == db[name]
  {
    var rows := db[name];
    if c == -1 {
      var first := [Spec(Some(name), 0, Paging.Int32Max)];
      assert ReadRows(db, first) == rows by {
        assert Paging.Window(rows, 0, Paging.Int32Max) == rows[0 .. |rows|];
        assert rows[0 .. |rows|] == rows;
      }
    } else {
      ChunksReadTiles(db, name, rows, 0, c);
      TilesCoverRest(rows, 0, c);
      ChunkSpecsValues(Some(name), 0, |rows|, c);
      if |rows| > 0 {
        assert rows[0..] == rows;
      }
    }
  }
}

=== FILE: entity_maps.dfy ===
/**
 * The two dictionaries `EFManager` keeps between entity types and table names
 * (templates/basic-persistency-ef/src/My_App/EntityFramework/EFManager.cs).
 *
 * Entity Framework's metadata workspace is replaced by two inputs: the list of
 * conceptual entity types, each with or without its CLR-type annotation, and
 * the table of entity sets by type (`GetEntitySetByType`'s search).
 */
module EntityMaps {
  import opened Exceptions

  /** The manager's state: both dictionaries and the last successfully loaded entries. */
  datatype Mappings<T> = Mappings(tableToType: map<string, T>, typeToTable: map<T, string>, dbEntries: Option<seq<T>>)

  /** The outcome of a reload: the state it leaves behind and the exception it let escape, if any. */
  datatype Reload<T> = Reload(state: Mappings<T>, error: Option<Exception>)

  /** Both dictionaries describe the same pairs, read in opposite directions. */
  predicate MutualInverse<T>(tableToType: map<string, T>, typeToTable: map<T, string>) {
    && (forall n :: n in tableToType ==> tableToType[n] in typeToTable && typeToTable[tableToType[n]] == n)
    && (forall t :: t in typeToTable ==> typeToTable[t] in tableToType && tableToType[typeToTable[t]] == t)
  }

  /** The entity set of a type that has none in the metadata: GetEntitySetByType throws. */
  const EntityTypeNotFound := "Entity type not found in GetEntitySet"

  /**
   * GetTableNameByType: the cached table name when the type is already mapped,
   * otherwise the table of its entity set. A null type makes the dictionary
   * lookup throw.
   */
  function GetTableNameByType<T>(typeToTable: map<T, string>, entitySets: map<T, string>, t: Option<T>): (r: Result<string>)
    ensures t.None? ==> r == Err(ArgumentNull)
    ensures t.Some? && t.value in typeToTable ==> r == Ok(typeToTable[t.value])
    ensures t.Some? && t.value !in typeToTable ==>
              (r.Ok? <==> t.value in entitySets) && (r.Ok? ==> r.value == entitySets[t.value])
    ensures r.Err? ==> r.error in {ArgumentNull, ArgumentError(EntityTypeNotFound)}
  {
    match t
    case None => Err(ArgumentNull)
    case Some(ty) =>
      if ty in typeToTable then Ok(typeToTable[ty])
      else if ty in entitySets then Ok(entitySets[ty])
      else Err(ArgumentError(EntityTypeNotFound))
  }

  /** GetTypeByTableName: the mapped type, or null when the name is not a key. */
  function GetTypeByTableName<T>(tableToType: map<string, T>, name: string): (r: Option<T>)
    ensures r.Some? <==> name in tableToType
    ensures r.Some? ==> r.value == tableToType[name]
  {
    if name in tableToType then Some(tableToType[name]) else None
  }

  /**
   * The loop of ReloadDbEntries over the collected types: each type's table name is
   * looked up, then added to both dictionaries; `Dictionary.Add` throws on a key
   * already present, leaving the entries added so far in place.
   */
  function AddEntries<T>(tableToType: map<string, T>, typeToTable: map<T, string>, entitySets: map<T, string>,
                         types: seq<Option<T>>): (r: (map<string, T>, map<T, string>, Option<Exception>))
    decreases |types|
  {
    if |types| == 0 then (tableToType, typeToTable, None)
    else
      match GetTableNameByType(typeToTable, entitySets, types[0])
      case Err(e) => (tableToType, typeToTable, Some(e))
      case Ok(name) =>
        if name in tableToType then (tableToType, typeToTable, Some(DuplicateKey))
        else
          var t := types[0].value;
          var tableToType' := tableToType[name := t];
          if t in typeToTable then (tableToType', typeToTable, Some(DuplicateKey))
          else AddEntries(tableToType', typeToTable[t := name], entitySets, types[1..])
  }

  /**
   * ReloadDbEntries: clears both dictionaries, fills them from the annotated types
   * (slot x holds the type of the x-th conceptual entity, null when its CLR-type
   * annotation is missing), and records the types as DbEntries only when every
   * entry was added.
   */
  function ReloadDbEntries<T>(m: Mappings<T>, annotations: seq<Option<T>>, entitySets: map<T, string>): (r: Reload<T>)
    ensures r.error.None? ==> r.state.dbEntries.Some? && |r.state.dbEntries.value| == |annotations|
    ensures r.error.Some? ==> r.state.dbEntries == m.dbEntries
    ensures r.error.None? ==> MutualInverse(r.state.tableToType, r.state.typeToTable)
  {
    var types := annotations;
    var (tableToType, typeToTable, error) := AddEntries(map[], map[], entitySets, types);
    AddEntriesKeepsInverse(map[], map[], entitySets, types);
    if error.Some? then Reload(Mappings(tableToType, typeToTable, m.dbEntries), error)
    else
      AddEntriesAllPresent(map[], map[], entitySets, types);
      Reload(Mappings(tableToType, typeToTable, Some(seq(|types|, x requires 0 <= x < |types| => types[x].value))), None)
  }

  // ---------------------------------------------------------------------------
  // Properties of the loop
  // ---------------------------------------------------------------------------

  /** The loop keeps the dictionaries mutually inverse, whether or not it stops early. */
  lemma {:induction false} AddEntriesKeepsInverse<T>(tt: map<string, T>, ty: map<T, string>, es: map<T, string>, types: seq<Option<T>>)
    requires MutualInverse(tt, ty)
    ensures var (tt', ty', e) := AddEntries(tt, ty, es, types);
            e.None? ==> MutualInverse(tt', ty')
    decreases |types|
  {
    if |types| > 0 {
      match GetTableNameByType(ty, es, types[0])
      case Err(_) =>
      case Ok(name) =>
        if name !in tt && types[0].value !in ty {
          var t := types[0].value;
          assert MutualInverse(tt[name := t], ty[t := name]);
          AddEntriesKeepsInverse(tt[name := t], ty[t := name], es, types[1..]);
        }
    }
  }

  /** A loop that runs to the end saw no null slot. */
  lemma {:induction false} AddEntriesAllPresent<T>(tt: map<string, T>, ty: map<T, string>, es: map<T, string>, types: seq<Option<T>>)
    ensures AddEntries(tt, ty, es, types).2.None? ==> forall x :: 0 <= x < |types| ==> types[x].Some?
    decreases |types|
  {
    if |types| > 0 {
      AddEntriesAllPresent(tt, ty, es, types[1..]);
      match GetTableNameByType(ty, es, types[0])
      case Err(_) =>
      case Ok(name) =>
        if name !in tt && types[0].value !in ty {
          var t := types[0].value;
          AddEntriesAllPresent(tt[name := t], ty[t := name], es, types[1..]);
        }
    }
  }

  /** Pairwise distinct elements. */
  predicate Distinct<U(==)>(s: seq<U>) {
    forall i, j :: 0 <= i < j < |s| ==> s[i] != s[j]
  }

  /** The table names the entity sets give to a list of present types. */
  function Tables<T>(es: map<T, string>, ts: seq<T>): (r: seq<string>)
    requires forall x :: 0 <= x < |ts| ==> ts[x] in es
    ensures |r| == |ts| && forall x :: 0 <= x < |ts| ==> r[x] == es[ts[x]]
  {
    seq(|ts|, x requires 0 <= x < |ts| => es[ts[x]])
  }

  /**
   * With every type annotated and known to the metadata, the loop starting from
   * empty dictionaries succeeds exactly when neither a type nor a table name repeats;
   * otherwise it stops with DuplicateKey.
   */
  lemma ReloadSucceedsIffDistinct<T>(m: Mappings<T>, ts: seq<T>, es: map<T, string>)
    requires forall x :: 0 <= x < |ts| ==> ts[x] in es
    ensures var r := ReloadDbEntries(m, seq(|ts|, x requires 0 <= x < |ts| => Some(ts[x])), es);
            && (r.error.None? <==> Distinct(ts) && Distinct(Tables(es, ts)))
            && (r.error.Some? ==> r.error == Some(DuplicateKey))
            && (r.error.None? ==> r.state.dbEntries == Some(ts))
  {
    var types := seq(|ts|, x requires 0 <= x < |ts| => Some(ts[x]));
    AddEntriesDistinct(map[], map[], es, ts, types);
    var r := ReloadDbEntries(m, types, es);
    if r.error.None? {
      assert r.state.dbEntries.value == ts;
    }
  }

  /**
   * The loop, from dictionaries holding the pairs of types already seen, succeeds
   * exactly when the remaining types and their tables are new and distinct.
   */
  lemma {:induction false} AddEntriesDistinct<T>(tt: map<string, T>, ty: map<T, string>, es: map<T, string>,
                                                 ts: seq<T>, types: seq<Option<T>>)
    requires |types| == |ts| && forall x :: 0 <= x < |ts| ==> types[x] == Some(ts[x]) && ts[x] in es
    requires MutualInverse(tt, ty)
    requires forall t :: t in ty ==> t in es && ty[t] == es[t]
    ensures var e := AddEntries(tt, ty, es, types).2;
            && (e.None? <==> Distinct(ts) && Distinct(Tables(es, ts))
                             && (forall x :: 0 <= x < |ts| ==> ts[x] !in ty && es[ts[x]] !in tt))
            && (e.Some? ==> e == Some(DuplicateKey))
    decreases |ts|
  {
    if |ts| > 0 {
      var t, name := ts[0], es[ts[0]];
      assert GetTableNameByType(ty, es, types[0]) == Ok(name);
      if name in tt {
        assert !(es[ts[0]] !in tt);
      } else {
        assert t !in ty;
        var tt', ty' := tt[name := t], ty[t := name];
        assert MutualInverse(tt', ty');
        assert types[1..] == seq(|ts| - 1, x requires 0 <= x < |ts| - 1 => Some(ts[1..][x]));
        AddEntriesDistinct(tt', ty', es, ts[1..], types[1..]);
        var e := AddEntries(tt, ty, es, types).2;
        assert e == AddEntries(tt', ty', es, types[1..]).2;
        var tables := Tables(es, ts);
        assert Tables(es, ts[1..]) == tables[1..];
        if e.None? {
          forall i, j | 0 <= i < j < |ts| ensures ts[i] != ts[j] {
            if i == 0 {
              assert ts[j] == ts[1..][j - 1];
            } else {
              assert ts[i] == ts[1..][i - 1] && ts[j] == ts[1..][j - 1];
            }
          }
          forall i, j | 0 <= i < j < |ts| ensures tables[i] != tables[j] {
            if i == 0 {
              assert tables[j] == tables[1..][j - 1];
            } else {
              assert tables[i] == tables[1..][i - 1] && tables[j] == tables[1..][j - 1];
            }
          }
          forall x | 0 <= x < |ts| ensures ts[x] !in ty && es[ts[x]] !in tt {
            if x > 0 {
              assert ts[x] == ts[1..][x - 1];
            }
          }
        }
      }
    }
  }

  /**
   * Round trip of the two lookups after a successful reload: a loaded type's table
   * name leads back to the type, and a known table name's type leads back to the name.
   */
  lemma LookupsRoundTrip<T>(m: Mappings<T>, annotations: seq<Option<T>>, es: map<T, string>, name: string, t: T)
    requires ReloadDbEntries(m, annotations, es).error.None?
    ensures var s := ReloadDbEntries(m, annotations, es).state;
            && (t in s.typeToTable ==>
                  GetTableNameByType(s.typeToTable, es, Some(t)).Ok?
                  && GetTypeByTableName(s.tableToType, GetTableNameByType(s.typeToTable, es, Some(t)).value) == Some(t))
            && (GetTypeByTableName(s.tableToType, name).Some? ==>
                  GetTableNameByType(s.typeToTable, es, GetTypeByTableName(s.tableToType, name)) == Ok(name))
  {
  }
}

=== FILE: exceptions.dfy ===
/**
 * Failure-carrying datatypes shared by every module of the model.
 *
 * The C# code signals failure by throwing; the model returns an `Err` that
 * names the exception class the code would throw (and, where the code builds
 * its own message, that message).
 */
module Exceptions {

  datatype Option<+T> = None | Some(value: T)

  /** The exception classes the modelled code throws or lets escape. */
  datatype Exception =
    | ArgumentError(message: string)    // System.ArgumentException
    | ArgumentOutOfRange                // System.ArgumentOutOfRangeException
    | ArgumentNull                      // System.ArgumentNullException
    | NullReference                     // dereference of a null reference
    | NotImplemented                    // System.NotImplementedException
    | NotSupported                      // System.NotSupportedException
    | InvalidOperation                  // System.InvalidOperationException
    | TargetInvocation                  // a constructor called through reflection threw
    | MissingMethod                     // reflection found no constructor for the arguments
    | InvalidCast                       // a cast to a type the object does not have
    | DuplicateKey                      // Dictionary.Add with a key already present
    | KeyNotFound                       // Dictionary indexer with a missing key
    | Overflow                          // array allocated with a negative length
    | Wrapped(message: string, inner: ExceptionCause)  // new Exception(message, inner)
    | ProducerFailure(producer: nat)    // whatever a producer threw; tagged by its index
    | OrmFailure(hibernate: bool)       // an ORM call failed; `hibernate` for HibernateException

  /** The inner exception of a wrapped one, kept shallow so that the datatype stays simple. */
  datatype ExceptionCause = Cause(kind: string)

  datatype Result<+T> = Ok(value: T) | Err(error: Exception) {
    predicate IsFailure() { Err? }

    function PropagateFailure<U>(): Result<U>
      requires Err?
    {
      Err(error)
    }

    function Extract(): T
      requires Ok?
    {
      value
    }
  }
}

=== FILE: fan_in.dfy ===
/**
 * The fan-in initial-load engine (ConcurrentMultiDataEnumerator with its shared
 * state, enumerate tasks, worker threads and blocking cursor; the Entity Framework
 * and NHibernate templates hold the same engine).
 *
 * Threads are not modelled; every region the code runs under the shared lock (or as
 * one interlocked operation) is one atomic step of a state machine. A step is taken
 * either by a worker thread (`WorkerStep`) or by the consumer (`MoveNext`,
 * `Dispose`). A consumer call that would block (`Monitor.Wait`, `Thread.Join`)
 * returns `Pending`/`JoinPending`: the call has not returned yet and continues on the
 * consumer's next step, so other threads' steps can interleave with it.
 *
 * The accumulated linked list is a sequence here; appending a batch is the
 * concatenation `AppentList` is proved to perform in module LinkableList.
 */
module FanIn {
  import opened Exceptions

  /**
   * A producer (one of the wrapped data enumerators): the items its MoveNext yields,
   * whether its MoveNext throws once the items are exhausted (instead of returning
   * false), and whether its Dispose throws.
   */
  datatype Producer<V> = Producer(items: seq<V>, failsOnPull: bool, failsOnDispose: bool)

  /**
   * Where an enumerate task is in ExecuteTask: still in the queue, at the pull loop's
   * test of `disposed`, past that test and about to pull from its producer, past the
   * loop with a batch to flush, flushed and about to count itself done, done, or
   * stopped by an exception.
   */
  datatype Phase = Queued | Running | Pulling | Ending | Flushed | Finished | Failed

  /** A task: its phase, how many items it pulled, and its local batch not yet published. */
  datatype Task<V> = Task(phase: Phase, pos: nat, batch: seq<V>)

  /** A worker thread: about to test `disposed`, about to dequeue, running a task, or ended. */
  datatype Worker = Idle | Ready | Executing(task: nat) | Exited

  /**
   * The consumer's view: polling not started, inside the blocking cursor's
   * constructor, the cursor at a position (with or without its current node), or the
   * start that threw.
   */
  datatype Cursor = NotStarted | Constructing | Open(pos: nat, hasNode: bool) | Broken(error: Exception)

  /**
   * An element of the accumulated list. The list itself holds only the value; the
   * index of the producer that supplied it is kept so that per-producer order can
   * be stated.
   */
  datatype Entry<V> = Entry(producer: nat, value: V)

  datatype State<V> = State(
    producers: seq<Producer<V>>,
    batchSize: int,           // the enumerator load fetch size every task batches by
    poolSize: int,            // the configured thread pool size
    tasks: seq<Task<V>>,      // one per producer, in list order
    queue: seq<nat>,          // indices of the tasks not yet dequeued
    poolAllocated: bool,      // whether the thread array exists
    workers: seq<Worker>,
    published: seq<Entry<V>>, // the accumulated list
    size: int,                // currentEnumeratedObjectListSize
    doneCount: int,           // enumeratorsDoneCount
    allDone: bool,            // allEnumeratorsDone
    error: Option<Exception>, // exceptionOccured
    disposed: bool,
    cursor: Cursor,
    pollStarts: nat,          // how many times StartPollingObjects was entered
    joining: bool,            // Dispose is waiting for the workers
    disposeLog: seq<nat>)     // the producers Dispose was called on, in call order

  /** What a consumer MoveNext step produced. */
  datatype Outcome<V> = Yield(value: V) | Pending | False | Raise(error: Exception)

  /** What a consumer Dispose step produced. */
  datatype DisposeOutcome = JoinPending | Disposed(error: Option<Exception>)

  function Min(a: int, b: int): int {
    if a <= b then a else b
  }

  /** The integers from `lo` up to, but not including, `hi`. */
  function Range(lo: int, hi: int): (r: seq<int>)
    requires lo <= hi
    ensures |r| == hi - lo && forall k :: 0 <= k < |r| ==> r[k] == lo + k
  {
    seq(hi - lo, k requires 0 <= k < hi - lo => lo + k)
  }

  /** A task that a worker is carrying out. */
  predicate Active(p: Phase) {
    p == Running || p == Pulling || p == Ending || p == Flushed
  }

  /** The shape every step relies on: indices in range, the size field in step with the list. */
  predicate WellFormed<V>(s: State<V>) {
    && |s.tasks| == |s.producers|
    && s.size == |s.published|
    && (forall j :: 0 <= j < |s.queue| ==> s.queue[j] < |s.tasks|)
    && (forall w :: 0 <= w < |s.workers| && s.workers[w].Executing? ==>
          s.workers[w].task < |s.tasks| && Active(s.tasks[s.workers[w].task].phase))
    && (s.cursor.Open? ==> s.cursor.pos <= s.size)
  }

  /**
   * A new engine over `producers` (the constructor and a fresh shared state): one
   * queued task per producer, nothing published, nothing done, no exception, not
   * disposed, polling not started.
   */
  function Init<V>(producers: seq<Producer<V>>, batchSize: int, poolSize: int): (r: State<V>)
    ensures WellFormed(r)
  {
    State(producers, batchSize, poolSize, seq(|producers|, _ => Task(Queued, 0, [])), [], false, [],
          [], 0, 0, false, None, false, NotStarted, 0, false, [])
  }

  /**
   * StartPollingObjects: zero producers mark the load done at once; the queue gets one
   * task per producer in list order; min(pool size, producers) new threads start. A
   * negative thread count makes the array allocation throw. Threads of an earlier
   * start, if any, keep running.
   */
  function StartPolling<V>(s: State<V>): (r: (State<V>, Option<Exception>))
    ensures r.0.pollStarts == s.pollStarts + 1
    ensures |s.producers| == 0 ==> r.0.allDone
    ensures r.0.allDone <==> s.allDone || |s.producers| == 0
    ensures r.1.None? <==> 0 <= s.poolSize
    ensures r.1.Some? ==> r.1 == Some(Overflow) && r.0.workers == s.workers && r.0.queue == s.queue
                          && r.0.poolAllocated == s.poolAllocated && r.0.cursor == s.cursor
    ensures r.1.None? ==> && r.0.poolAllocated && r.0.cursor == Constructing
                          && |r.0.workers| == |s.workers| + Min(s.poolSize, |s.producers|)
                          && r.0.workers[..|s.workers|] == s.workers
                          && (|s.producers| == 0 ==> r.0.workers == s.workers)
                          && (forall w :: |s.workers| <= w < |r.0.workers| ==> r.0.workers[w] == Idle)
                          && |r.0.queue| == |s.producers|
                          && (forall j :: 0 <= j < |r.0.queue| ==> r.0.queue[j] == j)
    ensures r.0.tasks == s.tasks && r.0.published == s.published && r.0.error == s.error
  {
    var n := |s.producers|;
    var s1 := s.(allDone := s.allDone || n == 0, pollStarts := s.pollStarts + 1);
    var pool := Min(s.poolSize, n);
    if pool < 0 then (s1, Some(Overflow))
    else (s1.(queue := Range(0, n), poolAllocated := true, workers := s.workers + seq(pool, _ => Idle), cursor := Constructing), None)
  }

  /** The list entries of a batch published by task `t`. */
  function Tag<V>(t: nat, batch: seq<V>): (r: seq<Entry<V>>)
    ensures |r| == |batch| && forall k :: 0 <= k < |r| ==> r[k] == Entry(t, batch[k])
  {
    seq(|batch|, k requires 0 <= k < |batch| => Entry(t, batch[k]))
  }

  /**
   * AppendListToAccumulatedList: the batch is spliced onto the accumulated list and the
   * published size is read back from the list's count.
   */
  function Publish<V>(s: State<V>, t: nat, batch: seq<V>): (r: State<V>)
    ensures r.published == s.published + Tag(t, batch) && r.size == |r.published|
    ensures r == s.(published := r.published, size := r.size)
  {
    s.(published := s.published + Tag(t, batch), size := |s.published| + |batch|)
  }

  /**
   * One atomic step of worker `w`. An idle worker ends if it sees `disposed`; a ready
   * one dequeues the next task, or ends on an empty queue. A running task tests
   * `disposed` and leaves its loop when it is set; otherwise it then pulls the next
   * item, a step of its own, so that a dispose can come between the test and the
   * pull. When the batch reaches the batch size it is published and restarted. When
   * the producer is exhausted the loop ends, or, if the producer throws, the task
   * records its exception (replacing any earlier one) and the worker is free again. A
   * task past its loop publishes a non-empty batch, then counts itself done; the task
   * whose count reaches the number of tasks sets allDone.
   */
  function WorkerStep<V>(s: State<V>, w: nat): (r: State<V>)
    requires WellFormed(s) && w < |s.workers| && !s.workers[w].Exited?
    ensures s.published <= r.published
    ensures r.producers == s.producers && r.batchSize == s.batchSize && r.disposed == s.disposed
    ensures r.cursor == s.cursor && r.pollStarts == s.pollStarts && r.poolAllocated == s.poolAllocated
    ensures |r.tasks| == |s.tasks| && |r.workers| == |s.workers|
    ensures r.doneCount == s.doneCount || r.doneCount == s.doneCount + 1
    ensures s.allDone ==> r.allDone
    ensures r.error == s.error || (r.error.Some? && r.error.value.ProducerFailure?)
    ensures forall i :: 0 <= i < |s.tasks| ==> s.tasks[i].pos <= r.tasks[i].pos
    ensures s.disposed ==> forall i :: 0 <= i < |s.tasks| && s.tasks[i].phase != Pulling ==> r.tasks[i].pos == s.tasks[i].pos
  {
    match s.workers[w]
    case Idle => s.(workers := s.workers[w := if s.disposed then Exited else Ready])
    case Ready =>
      if |s.queue| == 0 then s.(workers := s.workers[w := Exited])
      else
        var t := s.queue[0];
        s.(queue := s.queue[1..], workers := s.workers[w := Executing(t)],
           tasks := s.tasks[t := s.tasks[t].(phase := Running)])
    case Executing(t) => TaskStep(s, w, t)
  }

  /**
   * One step of the task that worker `w` carries out; see WorkerStep. Only the task,
   * the worker, the list and the shared counters and flags change, and of the tasks
   * and workers only this one.
   */
  function TaskStep<V>(s: State<V>, w: nat, t: nat): (r: State<V>)
    requires WellFormed(s) && w < |s.workers| && s.workers[w] == Executing(t)
    ensures s.published <= r.published
    ensures r == s.(tasks := r.tasks, workers := r.workers, published := r.published, size := r.size,
                    doneCount := r.doneCount, allDone := r.allDone, error := r.error)
    ensures |r.tasks| == |s.tasks| && forall i :: 0 <= i < |s.tasks| && i != t ==> r.tasks[i] == s.tasks[i]
    ensures |r.workers| == |s.workers| && forall v :: 0 <= v < |s.workers| && v != w ==> r.workers[v] == s.workers[v]
    ensures s.tasks[t].pos <= r.tasks[t].pos <= s.tasks[t].pos + 1
    ensures s.tasks[t].phase != Pulling ==> r.tasks[t].pos == s.tasks[t].pos
    ensures s.tasks[t].phase == Running ==> (r.tasks[t].phase == Ending <==> s.disposed)
    ensures r.doneCount == s.doneCount || (r.doneCount == s.doneCount + 1 && r.tasks[t].phase == Finished)
    ensures s.allDone ==> r.allDone
    ensures r.error == s.error || r.error == Some(ProducerFailure(t))
  {
    match s.tasks[t].phase
    case Running => LoopTest(s, t)
    case Pulling => PullStep(s, w, t)
    case Ending => FlushStep(s, t)
    case Flushed => CompleteStep(s, w, t)
  }

  /** After the pull loop: a non-empty batch is published; see WorkerStep. */
  function FlushStep<V>(s: State<V>, t: nat): (r: State<V>)
    requires WellFormed(s) && t < |s.tasks|
    ensures r == s.(tasks := s.tasks[t := Task(Flushed, s.tasks[t].pos, [])], published := r.published, size := r.size)
    ensures r.published == s.published + Tag(t, s.tasks[t].batch) && r.size == |s.published| + |s.tasks[t].batch|
  {
    var task := s.tasks[t];
    var s1 := s.(tasks := s.tasks[t := Task(Flushed, task.pos, [])]);
    if |task.batch| > 0 then Publish(s1, t, task.batch)
    else assert s.published + Tag(t, task.batch) == s.published; s1
  }

  /** The task counts itself done and frees its worker; see WorkerStep. */
  function CompleteStep<V>(s: State<V>, w: nat, t: nat): (r: State<V>)
    requires w < |s.workers| && t < |s.tasks|
    ensures r.doneCount == s.doneCount + 1 && (r.allDone <==> s.allDone || r.doneCount == |s.producers|)
    ensures r == s.(tasks := s.tasks[t := s.tasks[t].(phase := Finished)], workers := s.workers[w := Idle],
                    doneCount := r.doneCount, allDone := r.allDone)
  {
    var done := s.doneCount + 1;
    s.(tasks := s.tasks[t := s.tasks[t].(phase := Finished)], workers := s.workers[w := Idle],
       doneCount := done, allDone := s.allDone || done == |s.producers|)
  }

  /** The pull loop's test of `disposed`: the task leaves the loop exactly when it is set; see WorkerStep. */
  function LoopTest<V>(s: State<V>, t: nat): (r: State<V>)
    requires t < |s.tasks| && s.tasks[t].phase == Running
    ensures |r.tasks| == |s.tasks|
    ensures r.tasks[t].phase == Ending <==> s.disposed
    ensures r.tasks[t].phase == Pulling <==> !s.disposed
    ensures r.tasks[t].pos == s.tasks[t].pos && r.tasks[t].batch == s.tasks[t].batch
    ensures r == s.(tasks := s.tasks[t := r.tasks[t]])
  {
    s.(tasks := s.tasks[t := s.tasks[t].(phase := if s.disposed then Ending else Pulling)])
  }

  /**
   * The pull after the loop's test: the producer yields its next item, or is
   * exhausted, or throws. It does not look at `disposed`; see WorkerStep.
   */
  function PullStep<V>(s: State<V>, w: nat, t: nat): (r: State<V>)
    requires WellFormed(s) && w < |s.workers| && s.workers[w] == Executing(t) && s.tasks[t].phase == Pulling
    ensures s.published <= r.published
    ensures r == s.(tasks := r.tasks, workers := r.workers, published := r.published, size := r.size, error := r.error)
    ensures |r.tasks| == |s.tasks| && forall i :: 0 <= i < |s.tasks| && i != t ==> r.tasks[i] == s.tasks[i]
    ensures |r.workers| == |s.workers| && forall v :: 0 <= v < |s.workers| && v != w ==> r.workers[v] == s.workers[v]
    ensures r.tasks[t].pos == s.tasks[t].pos + 1 <==> s.tasks[t].pos < |s.producers[t].items|
    ensures s.tasks[t].pos <= r.tasks[t].pos <= s.tasks[t].pos + 1
    ensures r.tasks[t].phase == Failed <==> s.tasks[t].pos >= |s.producers[t].items| && s.producers[t].failsOnPull
    ensures r.error == s.error || r.error == Some(ProducerFailure(t))
  {
    var task := s.tasks[t];
    var items := s.producers[t].items;
    if task.pos < |items| then
      var batch := task.batch + [items[task.pos]];
      if |batch| == s.batchSize then
        Publish(s.(tasks := s.tasks[t := Task(Running, task.pos + 1, [])]), t, batch)
      else
        s.(tasks := s.tasks[t := Task(Running, task.pos + 1, batch)])
    else if s.producers[t].failsOnPull then
      s.(tasks := s.tasks[t := task.(phase := Failed)], workers := s.workers[w := Idle],
         error := Some(ProducerFailure(t)))
    else
      s.(tasks := s.tasks[t := task.(phase := Ending)])
  }

  /**
   * The blocking cursor's MoveNext at the end of the published list: a stored
   * exception is thrown first, then done or disposed ends the enumeration, otherwise
   * the call blocks.
   */
  function AtEnd<V>(s: State<V>): (r: Outcome<V>)
    ensures r.Raise? <==> s.error.Some?
    ensures r.Raise? ==> r.error == s.error.value
    ensures r.False? <==> s.error.None? && (s.allDone || s.disposed)
    ensures r.Pending? <==> s.error.None? && !s.allDone && !s.disposed
  {
    if s.error.Some? then Raise(s.error.value)
    else if s.allDone || s.disposed then False
    else Pending
  }

  /**
   * One consumer step of the orchestrator's MoveNext. The first call starts polling;
   * later steps run the cursor's constructor loop (throw a stored exception, take the
   * list's first node once there is one, give up without a node when done or
   * disposed, otherwise wait), then the cursor's MoveNext (advance while the position
   * is behind the published size, otherwise as AtEnd).
   *
   * This is the corrected orchestrator: an exception escaping the start is kept and
   * thrown again by every later call, instead of starting polling a second time; and
   * a cursor without a node moves to the list's first element, instead of
   * dereferencing the missing node (see MoveNextAsWritten and CursorStepAsWritten).
   * A cursor is Broken only by the exception its start threw, and it rethrows that one,
   * not whatever exception the shared state holds later.
   */
  function MoveNext<V>(s: State<V>): (r: (State<V>, Outcome<V>))
    requires WellFormed(s)
    ensures r.1.Yield? <==> s.cursor.Open? && s.cursor.pos < s.size
    ensures r.1.Yield? ==> r.0.cursor == Open(s.cursor.pos + 1, true) && r.1.value == s.published[s.cursor.pos].value
    ensures s.cursor.Open? && s.cursor.pos == s.size ==> r == (s, AtEnd(s))
    ensures s.cursor.Constructing? && s.error.Some? ==> r.1 == Raise(s.error.value)
    ensures s.cursor.Constructing? && s.error.None? ==>
              r.1 == Pending
              && (|s.published| > 0 ==> r.0.cursor == Open(0, true))
              && (|s.published| == 0 && (s.allDone || s.disposed) ==> r.0.cursor == Open(0, false))
              && (|s.published| == 0 && !s.allDone && !s.disposed ==> r.0 == s)
    ensures s.cursor.Broken? ==> r == (s, Raise(s.cursor.error))
    ensures r.0.pollStarts == s.pollStarts + (if s.cursor.NotStarted? then 1 else 0)
    ensures r.0.published == s.published && r.0.tasks == s.tasks && r.0.error == s.error
    ensures r.0.disposed == s.disposed && r.0.doneCount == s.doneCount
  {
    match s.cursor
    case NotStarted =>
      var (s1, e) := StartPolling(s);
      if e.Some? then (s1.(cursor := Broken(e.value)), Raise(e.value)) else (s1, Pending)
    case Constructing =>
      if s.error.Some? then (s.(cursor := Broken(s.error.value)), Raise(s.error.value))
      else if |s.published| > 0 then (s.(cursor := Open(0, true)), Pending)
      else if s.allDone || s.disposed then (s.(cursor := Open(0, false)), Pending)
      else (s, Pending)
    case Open(pos, _) =>
      if pos == s.size then (s, AtEnd(s))
      else (s.(cursor := Open(pos + 1, true)), Yield(s.published[pos].value))
    case Broken(e) => (s, Raise(e))
  }

  /**
   * The cursor's MoveNext as written: past the end test it follows the current node's
   * successor, which throws when the constructor gave up without a node.
   */
  function CursorStepAsWritten<V>(s: State<V>): (r: (State<V>, Outcome<V>))
    requires WellFormed(s) && s.cursor.Open?
    ensures s.cursor.pos < s.size && !s.cursor.hasNode ==> r.1 == Raise(NullReference)
    ensures s.cursor.pos < s.size && s.cursor.hasNode ==> r == MoveNext(s)
    ensures s.cursor.pos == s.size ==> r == MoveNext(s)
  {
    if s.cursor.pos == s.size then (s, AtEnd(s))
    else if !s.cursor.hasNode then (s, Raise(NullReference))
    else (s.(cursor := Open(s.cursor.pos + 1, true)), Yield(s.published[s.cursor.pos].value))
  }

  /**
   * The `Current` property: the value of the node the cursor stands on; before the
   * first successful MoveNext that is the sentinel's null. Without a cursor or a node
   * it dereferences null.
   */
  function Current<V>(s: State<V>): (r: Result<Option<V>>)
    requires WellFormed(s)
    ensures r.Ok? <==> s.cursor.Open? && s.cursor.hasNode
    ensures r.Ok? && s.cursor.pos == 0 ==> r.value == None
    ensures r.Ok? && s.cursor.pos > 0 ==> r.value == Some(s.published[s.cursor.pos - 1].value)
    ensures r.Err? ==> r.error == NullReference
  {
    match s.cursor
    case Open(pos, hasNode) =>
      if !hasNode then Err(NullReference)
      else if pos == 0 then Ok(None)
      else Ok(Some(s.published[pos - 1].value))
    case _ => Err(NullReference)
  }

  /**
   * Reset of the orchestrator (NotSupportedException in the NHibernate template,
   * NotImplementedException in the Entity Framework one) and of the cursor
   * (NotImplementedException): it always throws and changes nothing.
   */
  function Reset<V>(s: State<V>, hibernateOrchestrator: bool): (r: (State<V>, Exception))
    ensures r.0 == s
    ensures r.1 == NotSupported <==> hibernateOrchestrator
    ensures r.1 == NotSupported || r.1 == NotImplemented
  {
    (s, if hibernateOrchestrator then NotSupported else NotImplemented)
  }

  /**
   * The loop over the producers at the end of Dispose: each one is disposed in list
   * order; an exception from one is not caught, so it ends the loop.
   */
  function DisposeProducers<V>(ps: seq<Producer<V>>, from: nat): (r: (seq<nat>, Option<Exception>))
    requires from <= |ps|
    ensures r.1.None? <==> forall i :: from <= i < |ps| ==> !ps[i].failsOnDispose
    ensures r.1.None? ==> r.0 == Range(from, |ps|)
    ensures r.1.Some? ==> && 0 < |r.0| && from + |r.0| <= |ps|
                          && r.0 == Range(from, from + |r.0|)
                          && ps[from + |r.0| - 1].failsOnDispose
                          && r.1 == Some(ProducerFailure(from + |r.0| - 1))
                          && forall i :: from <= i < from + |r.0| - 1 ==> !ps[i].failsOnDispose
    decreases |ps| - from
  {
    if from == |ps| then ([], None)
    else if ps[from].failsOnDispose then ([from], Some(ProducerFailure(from)))
    else
      var (log, e) := DisposeProducers(ps, from + 1);
      assert [from] + Range(from + 1, from + 1 + |log|) == Range(from, from + 1 + |log|);
      ([from] + log, e)
  }

  /**
   * One consumer step of Dispose. The first step sets `disposed` (it is never
   * cleared); when polling never allocated its threads, joining them dereferences
   * null. Otherwise Dispose waits until every worker has ended, then disposes the
   * producers in order.
   */
  function Dispose<V>(s: State<V>): (r: (State<V>, DisposeOutcome))
    requires WellFormed(s)
    ensures r.0.disposed
    ensures !s.joining && !s.poolAllocated ==> r.1 == Disposed(Some(NullReference)) && r.0.disposeLog == s.disposeLog
    ensures r.1.Disposed? && s.poolAllocated ==>
              s.joining && (forall w :: 0 <= w < |s.workers| ==> s.workers[w] == Exited)
              && r.0.disposeLog == s.disposeLog + DisposeProducers(s.producers, 0).0
              && r.1.error == DisposeProducers(s.producers, 0).1
    ensures r.0 == s.(disposed := true, joining := r.0.joining, disposeLog := r.0.disposeLog)
  {
    if !s.joining then
      var s1 := s.(disposed := true);
      if !s.poolAllocated then (s1, Disposed(Some(NullReference)))
      else (s1.(joining := true), JoinPending)
    else if forall w :: 0 <= w < |s.workers| ==> s.workers[w] == Exited then
      var (log, e) := DisposeProducers(s.producers, 0);
      (s.(disposed := true, joining := false, disposeLog := s.disposeLog + log), Disposed(e))
    else (s.(disposed := true), JoinPending)
  }

  /** A step of the whole system: a worker thread's, or one of the consumer's calls. */
  datatype Step = Work(w: nat) | Consume | Close

  predicate Enabled<V>(s: State<V>, step: Step) {
    && WellFormed(s)
    && (step.Work? ==> step.w < |s.workers| && !s.workers[step.w].Exited?)
  }

  function Next<V>(s: State<V>, step: Step): State<V>
    requires Enabled(s, step)
  {
    match step
    case Work(w) => WorkerStep(s, w)
    case Consume => MoveNext(s).0
    case Close => Dispose(s).0
  }

  // ---------------------------------------------------------------------------
  // The orchestrator as written
  // ---------------------------------------------------------------------------

  /**
   * The orchestrator's MoveNext as written. Its start flag is set only after
   * StartPollingObjects returns, and that includes the cursor's constructor: when the
   * allocation throws, or the constructor throws a stored exception, the flag stays
   * clear and the next call starts polling again, over the same producers and the same
   * shared state. Past the start the cursor steps as CursorStepAsWritten.
   */
  function MoveNextAsWritten<V>(s: State<V>): (r: (State<V>, Outcome<V>))
    requires WellFormed(s)
    ensures s.cursor.NotStarted? && s.poolSize < 0 ==> r.1 == MoveNext(s).1 && r.0.cursor == NotStarted
    ensures s.cursor.NotStarted? && 0 <= s.poolSize ==> r == MoveNext(s)
    ensures s.cursor.Constructing? && s.error.Some? ==> r.1 == MoveNext(s).1 && r.0 == s.(cursor := NotStarted)
    ensures s.cursor.Constructing? && s.error.None? ==> r == MoveNext(s)
    ensures s.cursor.Open? ==> r == CursorStepAsWritten(s)
    ensures r.0.pollStarts == s.pollStarts + (if s.cursor.NotStarted? then 1 else 0)
  {
    match s.cursor
    case NotStarted =>
      var (s1, e) := StartPolling(s);
      if e.Some? then (s1, Raise(e.value)) else (s1, Pending)
    case Constructing =>
      if s.error.Some? then (s.(cursor := NotStarted), Raise(s.error.value)) else MoveNext(s)
    case Open(_, _) => CursorStepAsWritten(s)
    case Broken(e) => (s, Raise(e))
  }

  /** A step of the system with the orchestrator as written. */
  function NextAsWritten<V>(s: State<V>, step: Step): State<V>
    requires Enabled(s, step)
  {
    match step
    case Work(w) => WorkerStep(s, w)
    case Consume => MoveNextAsWritten(s).0
    case Close => Dispose(s).0
  }
}

=== FILE: fan_in_proofs.dfy ===
/**
 * Safety invariants of the fan-in engine (module FanIn) and their proofs: every step
 * of every worker and of the consumer keeps them, so they hold in every state the
 * engine can reach from `Init`.
 */
module FanInProofs {
  import opened Exceptions
  import opened FanIn

  // ---------------------------------------------------------------------------
  // Views of the state
  // ---------------------------------------------------------------------------

  /** The values producer `i` contributed to a list, in list order. */
  function Values<V>(es: seq<Entry<V>>, i: nat): (r: seq<V>)
    ensures |r| <= |es|
  {
    if |es| == 0 then []
    else Values(es[..|es| - 1], i) + (if es[|es| - 1].producer == i then [es[|es| - 1].value] else [])
  }

  /** The number of tasks in phase `p`. */
  function CountPhase<V>(ts: seq<Task<V>>, p: Phase): (r: nat)
    ensures r <= |ts|
  {
    if |ts| == 0 then 0
    else CountPhase(ts[..|ts| - 1], p) + (if ts[|ts| - 1].phase == p then 1 else 0)
  }

  /**
   * What a task has done with its producer: it pulled the first `pos` items; its local
   * batch holds the last of them, the rest are exactly what the list holds from this
   * producer (`vals`). A batch stays below the batch size while the task pulls; a task
   * past its loop without `disposed` exhausted its producer, and a failed one did too
   * before its producer threw.
   */
  ghost predicate TaskOk<V>(p: Producer<V>, t: Task<V>, batchSize: int, disposed: bool, vals: seq<V>) {
    && t.pos <= |p.items|
    && |t.batch| <= t.pos
    && t.batch == p.items[t.pos - |t.batch| .. t.pos]
    && vals == p.items[.. t.pos - |t.batch|]
    && (t.phase == Queued ==> t.pos == 0)
    && (t.phase == Flushed || t.phase == Finished ==> t.batch == [])
    && (1 <= batchSize && (t.phase == Running || t.phase == Pulling || t.phase == Ending) ==> |t.batch| < batchSize)
    && (!disposed && (t.phase == Ending || t.phase == Flushed || t.phase == Finished) ==> t.pos == |p.items|)
    && (t.phase == Failed ==> t.pos == |p.items| && p.failsOnPull)
  }

  ghost predicate TasksOk<V>(s: State<V>)
    requires |s.tasks| == |s.producers|
  {
    && (forall i :: 0 <= i < |s.tasks| ==> TaskOk(s.producers[i], s.tasks[i], s.batchSize, s.disposed, Values(s.published, i)))
    && (forall k :: 0 <= k < |s.published| ==> s.published[k].producer < |s.tasks|)
  }

  /** The done-count counts the finished tasks; allDone says all of them are; an exception has a failed task behind it. */
  ghost predicate CountsOk<V>(s: State<V>) {
    && s.doneCount == CountPhase(s.tasks, Finished)
    && (s.allDone <==> 0 < s.pollStarts && s.doneCount == |s.tasks|)
    && (s.error.Some? ==> 0 < CountPhase(s.tasks, Failed))
  }

  /** Queued tasks are in the queue once each; no two workers carry out the same task. */
  ghost predicate QueueOk<V>(s: State<V>)
    requires WellFormed(s)
  {
    && (forall j :: 0 <= j < |s.queue| ==> s.tasks[s.queue[j]].phase == Queued)
    && (forall j, k :: 0 <= j < k < |s.queue| ==> s.queue[j] != s.queue[k])
    && (forall v, w :: 0 <= v < w < |s.workers| && s.workers[v].Executing? && s.workers[w].Executing? ==>
          s.workers[v].task != s.workers[w].task)
  }

  /** Polling starts at most once; before it, no thread, no queue and no task has moved. */
  ghost predicate StartOk<V>(s: State<V>) {
    && s.pollStarts <= 1
    && (s.cursor.NotStarted? <==> s.pollStarts == 0)
    && (s.pollStarts == 0 ==> forall i :: 0 <= i < |s.tasks| ==> s.tasks[i].phase == Queued)
    && (!s.poolAllocated ==> s.workers == [] && s.queue == [])
    && (s.poolAllocated ==> 0 < s.pollStarts && |s.workers| == Min(s.poolSize, |s.tasks|))
  }

  ghost predicate Inv<V>(s: State<V>) {
    && WellFormed(s)
    && TasksOk(s)
    && CountsOk(s)
    && QueueOk(s)
    && StartOk(s)
  }

  // ---------------------------------------------------------------------------
  // Lemmas about the views
  // ---------------------------------------------------------------------------

  lemma {:induction false} ValuesAppend<V>(a: seq<Entry<V>>, b: seq<Entry<V>>, i: nat)
    ensures Values(a + b, i) == Values(a, i) + Values(b, i)
    decreases |b|
  {
    if |b| == 0 {
      assert a + b == a;
    } else {
      var b' := b[..|b| - 1];
      assert (a + b)[..|a + b| - 1] == a + b';
      ValuesAppend(a, b', i);
    }
  }

  lemma {:induction false} ValuesTag<V>(t: nat, batch: seq<V>, i: nat)
    ensures Values(Tag(t, batch), i) == if t == i then batch else []
    decreases |batch|
  {
    if |batch| > 0 {
      var es := Tag(t, batch);
      var b' := batch[..|batch| - 1];
      assert es[..|es| - 1] == Tag(t, b');
      assert es[|es| - 1] == Entry(t, batch[|batch| - 1]);
      ValuesTag(t, b', i);
      assert Values(es, i) == Values(Tag(t, b'), i) + (if t == i then [batch[|batch| - 1]] else []);
      assert b' + [batch[|batch| - 1]] == batch;
    }
  }

  /** Publishing a batch of task `t` adds the batch to `t`'s values and nothing to anyone else's. */
  lemma PublishValues<V>(es: seq<Entry<V>>, t: nat, batch: seq<V>, i: nat)
    ensures Values(es + Tag(t, batch), i) == Values(es, i) + (if t == i then batch else [])
  {
    ValuesAppend(es, Tag(t, batch), i);
    ValuesTag(t, batch, i);
  }

  lemma {:induction false} CountPhaseUpdate<V>(ts: seq<Task<V>>, t: nat, x: Task<V>, p: Phase)
    requires t < |ts|
    ensures CountPhase(ts[t := x], p)
            == CountPhase(ts, p) - (if ts[t].phase == p then 1 else 0) + (if x.phase == p then 1 else 0)
    decreases |ts|
  {
    var ts' := ts[t := x];
    var n := |ts| - 1;
    assert CountPhase(ts', p) == CountPhase(ts'[..n], p) + (if ts'[n].phase == p then 1 else 0);
    assert CountPhase(ts, p) == CountPhase(ts[..n], p) + (if ts[n].phase == p then 1 else 0);
    if t == n {
      assert ts'[..n] == ts[..n];
    } else {
      assert ts'[..n] == ts[..n][t := x];
      CountPhaseUpdate(ts[..n], t, x, p);
    }
  }

  /** Changing the phase of one task that is in neither phase leaves both counts alone. */
  lemma CountPhaseKeep<V>(ts: seq<Task<V>>, t: nat, x: Task<V>)
    requires t < |ts|
    requires ts[t].phase != Finished && ts[t].phase != Failed && x.phase != Finished && x.phase != Failed
    ensures CountPhase(ts[t := x], Finished) == CountPhase(ts, Finished)
    ensures CountPhase(ts[t := x], Failed) == CountPhase(ts, Failed)
  {
    CountPhaseUpdate(ts, t, x, Finished);
    CountPhaseUpdate(ts, t, x, Failed);
  }

  lemma {:induction false} CountTwoPhases<V>(ts: seq<Task<V>>, p: Phase, q: Phase)
    requires p != q
    ensures CountPhase(ts, p) + CountPhase(ts, q) <= |ts|
    decreases |ts|
  {
    if |ts| > 0 {
      CountTwoPhases(ts[..|ts| - 1], p, q);
    }
  }

  /** A task outside phase `p` keeps the count of `p` below the number of tasks. */
  lemma {:induction false} CountBelow<V>(ts: seq<Task<V>>, p: Phase, t: nat)
    requires t < |ts| && ts[t].phase != p
    ensures CountPhase(ts, p) < |ts|
    decreases |ts|
  {
    if t < |ts| - 1 {
      CountBelow(ts[..|ts| - 1], p, t);
    } else {
      assert CountPhase(ts[..|ts| - 1], p) <= |ts| - 1;
    }
  }

  lemma {:induction false} CountNone<V>(ts: seq<Task<V>>, p: Phase)
    requires forall i :: 0 <= i < |ts| ==> ts[i].phase != p
    ensures CountPhase(ts, p) == 0
    decreases |ts|
  {
    if |ts| > 0 {
      CountNone(ts[..|ts| - 1], p);
    }
  }

  /** When every task is in phase `p`, none is in another. */
  lemma AllInPhase<V>(ts: seq<Task<V>>, p: Phase, t: nat)
    requires CountPhase(ts, p) == |ts| && t < |ts|
    ensures ts[t].phase == p
  {
    if ts[t].phase != p {
      CountBelow(ts, p, t);
    }
  }

  lemma PrefixSplit<V>(items: seq<V>, a: int, b: int)
    requires 0 <= a <= b <= |items|
    ensures items[..a] + items[a..b] == items[..b]
  {
  }

  // ---------------------------------------------------------------------------
  // One task, step by step (no state: just the task and its producer)
  // ---------------------------------------------------------------------------

  /** A pull appends the next item to the batch; a full batch is published and restarted. */
  lemma PullTaskOk<V>(p: Producer<V>, t: Task<V>, batchSize: int, disposed: bool, vals: seq<V>)
    requires TaskOk(p, t, batchSize, disposed, vals) && t.phase == Pulling && t.pos < |p.items|
    ensures var batch := t.batch + [p.items[t.pos]];
            && (|batch| == batchSize ==> TaskOk(p, Task(Running, t.pos + 1, []), batchSize, disposed, vals + batch))
            && (|batch| != batchSize ==> TaskOk(p, Task(Running, t.pos + 1, batch), batchSize, disposed, vals + []))
  {
    var batch := t.batch + [p.items[t.pos]];
    assert batch == p.items[t.pos - |t.batch| .. t.pos + 1];
    PrefixSplit(p.items, t.pos - |t.batch|, t.pos + 1);
    assert vals + [] == vals;
  }

  /** The pull loop ends: by `disposed`, or because the producer has nothing more. */
  lemma StopTaskOk<V>(p: Producer<V>, t: Task<V>, batchSize: int, disposed: bool, vals: seq<V>)
    requires TaskOk(p, t, batchSize, disposed, vals) && (t.phase == Running || t.phase == Pulling)
    requires disposed || t.pos == |p.items|
    ensures TaskOk(p, t.(phase := Ending), batchSize, disposed, vals + [])
  {
    assert vals + [] == vals;
  }

  /** The batch left after the loop is published (when it is not empty). */
  lemma FlushTaskOk<V>(p: Producer<V>, t: Task<V>, batchSize: int, disposed: bool, vals: seq<V>)
    requires TaskOk(p, t, batchSize, disposed, vals) && t.phase == Ending
    ensures TaskOk(p, Task(Flushed, t.pos, []), batchSize, disposed, vals + t.batch)
  {
    PrefixSplit(p.items, t.pos - |t.batch|, t.pos);
  }

  lemma TaskOkDisposed<V>(p: Producer<V>, t: Task<V>, batchSize: int, disposed: bool, vals: seq<V>)
    requires TaskOk(p, t, batchSize, disposed, vals)
    ensures TaskOk(p, t, batchSize, true, vals)
  {
  }

  // ---------------------------------------------------------------------------
  // A task step that keeps its worker
  // ---------------------------------------------------------------------------

  /** Task `t` moves between active phases to `x`, and the batch `b` (maybe empty) is published. */
  ghost predicate ActiveUpdate<V>(s: State<V>, t: nat, x: Task<V>, b: seq<V>, s': State<V>) {
    && t < |s.tasks|
    && Active(s.tasks[t].phase) && Active(x.phase)
    && s' == s.(tasks := s.tasks[t := x], published := s.published + Tag(t, b), size := |s.published| + |b|)
  }

  lemma ActiveUpdateWellFormed<V>(s: State<V>, t: nat, x: Task<V>, b: seq<V>, s': State<V>)
    requires WellFormed(s) && ActiveUpdate(s, t, x, b, s')
    ensures WellFormed(s')
  {
    forall v | 0 <= v < |s'.workers| && s'.workers[v].Executing?
      ensures s'.workers[v].task < |s'.tasks| && Active(s'.tasks[s'.workers[v].task].phase)
    {
      assert s'.workers[v] == s.workers[v];
    }
  }

  lemma ActiveUpdateTasksOk<V>(s: State<V>, t: nat, x: Task<V>, b: seq<V>, s': State<V>)
    requires WellFormed(s) && TasksOk(s) && ActiveUpdate(s, t, x, b, s')
    requires TaskOk(s.producers[t], x, s.batchSize, s.disposed, Values(s.published, t) + b)
    ensures TasksOk(s')
  {
    forall i | 0 <= i < |s'.tasks|
      ensures TaskOk(s'.producers[i], s'.tasks[i], s'.batchSize, s'.disposed, Values(s'.published, i))
    {
      PublishValues(s.published, t, b, i);
      if i != t {
        assert s'.tasks[i] == s.tasks[i];
        assert Values(s'.published, i) == Values(s.published, i) + [];
        assert Values(s.published, i) + [] == Values(s.published, i);
      }
    }
    forall k | 0 <= k < |s'.published| ensures s'.published[k].producer < |s'.tasks| {
      if k >= |s.published| {
        assert s'.published[k] == Tag(t, b)[k - |s.published|];
      }
    }
  }

  lemma ActiveUpdateRest<V>(s: State<V>, t: nat, x: Task<V>, b: seq<V>, s': State<V>)
    requires WellFormed(s) && CountsOk(s) && QueueOk(s) && StartOk(s) && ActiveUpdate(s, t, x, b, s')
    ensures WellFormed(s') && CountsOk(s') && QueueOk(s') && StartOk(s')
  {
    ActiveUpdateWellFormed(s, t, x, b, s');
    CountPhaseKeep(s.tasks, t, x);
    forall j | 0 <= j < |s'.queue| ensures s'.tasks[s'.queue[j]].phase == Queued {
      assert s.queue[j] != t;
    }
    assert s.pollStarts != 0;
  }

  lemma ActiveUpdateKeepsInv<V>(s: State<V>, t: nat, x: Task<V>, b: seq<V>, s': State<V>)
    requires Inv(s) && ActiveUpdate(s, t, x, b, s')
    requires TaskOk(s.producers[t], x, s.batchSize, s.disposed, Values(s.published, t) + b)
    ensures Inv(s')
  {
    ActiveUpdateRest(s, t, x, b, s');
    ActiveUpdateTasksOk(s, t, x, b, s');
  }

  // ---------------------------------------------------------------------------
  // A task step that ends the task and frees its worker
  // ---------------------------------------------------------------------------

  /** Task `t`, carried out by worker `w`, ends in `x`; the worker is free again. */
  ghost predicate Release<V>(s: State<V>, w: nat, t: nat, x: Task<V>, s': State<V>) {
    && w < |s.workers| && s.workers[w] == Executing(t) && t < |s.tasks|
    && Active(s.tasks[t].phase) && (x.phase == Finished || x.phase == Failed)
    && s' == s.(tasks := s.tasks[t := x], workers := s.workers[w := Idle],
                doneCount := s'.doneCount, allDone := s'.allDone, error := s'.error)
  }

  lemma ReleaseShape<V>(s: State<V>, w: nat, t: nat, x: Task<V>, s': State<V>)
    requires WellFormed(s) && QueueOk(s) && StartOk(s) && Release(s, w, t, x, s')
    ensures WellFormed(s') && QueueOk(s') && StartOk(s')
  {
    forall v | 0 <= v < |s'.workers| && s'.workers[v].Executing?
      ensures s'.workers[v].task < |s'.tasks| && Active(s'.tasks[s'.workers[v].task].phase)
    {
      assert v != w && s'.workers[v] == s.workers[v];
      assert s.workers[v].task != t;
    }
    forall j | 0 <= j < |s'.queue| ensures s'.tasks[s'.queue[j]].phase == Queued {
      assert s.queue[j] != t;
    }
    assert s.pollStarts != 0;
  }

  lemma ReleaseTasksOk<V>(s: State<V>, w: nat, t: nat, x: Task<V>, s': State<V>)
    requires WellFormed(s) && TasksOk(s) && Release(s, w, t, x, s')
    requires TaskOk(s.producers[t], x, s.batchSize, s.disposed, Values(s.published, t))
    ensures TasksOk(s')
  {
  }

  /** The producer threw: the task fails, its exception replaces the stored one, the count stays. */
  lemma FailCounts<V>(s: State<V>, w: nat, t: nat, s': State<V>)
    requires CountsOk(s) && t < |s.tasks| && Release(s, w, t, s.tasks[t].(phase := Failed), s')
    requires s'.doneCount == s.doneCount && s'.allDone == s.allDone && s'.error.Some?
    ensures CountsOk(s')
  {
    var x := s.tasks[t].(phase := Failed);
    CountPhaseUpdate(s.tasks, t, x, Finished);
    CountPhaseUpdate(s.tasks, t, x, Failed);
  }

  lemma FailKeepsInv<V>(s: State<V>, w: nat, t: nat, s': State<V>)
    requires Inv(s) && t < |s.tasks| && Release(s, w, t, s.tasks[t].(phase := Failed), s')
    requires s'.doneCount == s.doneCount && s'.allDone == s.allDone && s'.error.Some?
    requires s.tasks[t].pos == |s.producers[t].items| && s.producers[t].failsOnPull
    ensures Inv(s')
  {
    var x := s.tasks[t].(phase := Failed);
    ReleaseShape(s, w, t, x, s');
    ReleaseTasksOk(s, w, t, x, s');
    FailCounts(s, w, t, s');
  }

  /** The task counts itself done; the count reaching the number of tasks sets allDone. */
  lemma CompleteCounts<V>(s: State<V>, w: nat, t: nat, s': State<V>)
    requires CountsOk(s) && StartOk(s) && t < |s.tasks| && s.tasks[t].phase == Flushed
    requires Release(s, w, t, s.tasks[t].(phase := Finished), s')
    requires s'.doneCount == s.doneCount + 1 && s'.error == s.error
    requires s'.allDone == (s.allDone || s'.doneCount == |s.producers|)
    requires |s.tasks| == |s.producers|
    ensures CountsOk(s')
  {
    var x := s.tasks[t].(phase := Finished);
    CountPhaseUpdate(s.tasks, t, x, Finished);
    CountPhaseUpdate(s.tasks, t, x, Failed);
    CountBelow(s.tasks, Finished, t);
    assert s.pollStarts != 0;
  }

  lemma CompleteKeepsInv<V>(s: State<V>, w: nat, t: nat, s': State<V>)
    requires Inv(s) && t < |s.tasks| && s.tasks[t].phase == Flushed && Release(s, w, t, s.tasks[t].(phase := Finished), s')
    requires s'.doneCount == s.doneCount + 1 && s'.error == s.error
    requires s'.allDone == (s.allDone || s'.doneCount == |s.producers|)
    ensures Inv(s')
  {
    var x := s.tasks[t].(phase := Finished);
    ReleaseShape(s, w, t, x, s');
    ReleaseTasksOk(s, w, t, x, s');
    CompleteCounts(s, w, t, s');
  }

  // ---------------------------------------------------------------------------
  // Worker steps outside tasks
  // ---------------------------------------------------------------------------

  /** An idle or ready worker changes state without taking a task. */
  lemma WorkerStateKeepsInv<V>(s: State<V>, w: nat, k: Worker, s': State<V>)
    requires Inv(s) && w < |s.workers| && !s.workers[w].Executing? && !k.Executing?
    requires s' == s.(workers := s.workers[w := k])
    ensures Inv(s')
  {
  }

  /** A ready worker dequeues the first queued task and starts it. */
  ghost predicate Dequeue<V>(s: State<V>, w: nat, s': State<V>) {
    && w < |s.workers| && s.workers[w] == Ready && 0 < |s.queue| && s.queue[0] < |s.tasks|
    && s' == s.(queue := s.queue[1..], workers := s.workers[w := Executing(s.queue[0])],
                tasks := s.tasks[s.queue[0] := s.tasks[s.queue[0]].(phase := Running)])
  }

  lemma DequeueShape<V>(s: State<V>, w: nat, s': State<V>)
    requires WellFormed(s) && QueueOk(s) && Dequeue(s, w, s')
    ensures WellFormed(s') && QueueOk(s')
  {
    var t := s.queue[0];
    forall j | 0 <= j < |s'.queue| ensures s'.tasks[s'.queue[j]].phase == Queued {
      assert s'.queue[j] == s.queue[j + 1] != t;
    }
    forall v | 0 <= v < |s'.workers| && s'.workers[v].Executing?
      ensures s'.workers[v].task < |s'.tasks| && Active(s'.tasks[s'.workers[v].task].phase)
    {
      if v != w {
        assert s.workers[v].task != t;
      }
    }
    forall v, u | 0 <= v < u < |s'.workers| && s'.workers[v].Executing? && s'.workers[u].Executing?
      ensures s'.workers[v].task != s'.workers[u].task
    {
      if v != w && u != w {
        assert s'.workers[v] == s.workers[v] && s'.workers[u] == s.workers[u];
      }
    }
  }

  lemma DequeueTasksOk<V>(s: State<V>, w: nat, s': State<V>)
    requires WellFormed(s) && QueueOk(s) && TasksOk(s) && Dequeue(s, w, s')
    ensures TasksOk(s')
  {
    forall i | 0 <= i < |s'.tasks|
      ensures TaskOk(s'.producers[i], s'.tasks[i], s'.batchSize, s'.disposed, Values(s'.published, i))
    {
      assert TaskOk(s.producers[i], s.tasks[i], s.batchSize, s.disposed, Values(s.published, i));
    }
  }

  lemma DequeueRest<V>(s: State<V>, w: nat, s': State<V>)
    requires WellFormed(s) && QueueOk(s) && CountsOk(s) && StartOk(s) && Dequeue(s, w, s')
    ensures CountsOk(s') && StartOk(s')
  {
    CountPhaseKeep(s.tasks, s.queue[0], s.tasks[s.queue[0]].(phase := Running));
  }

  lemma DequeueKeepsInv<V>(s: State<V>, w: nat, s': State<V>)
    requires Inv(s) && Dequeue(s, w, s')
    ensures Inv(s')
  {
    DequeueShape(s, w, s');
    DequeueTasksOk(s, w, s');
    DequeueRest(s, w, s');
  }

  // ---------------------------------------------------------------------------
  // Dispatch over the worker's and the task's state
  // ---------------------------------------------------------------------------

  /** The loop's test: the task goes on to pull, or leaves the loop when `disposed` is set. */
  lemma LoopTestKeepsInv<V>(s: State<V>, w: nat, t: nat)
    requires Inv(s) && w < |s.workers| && s.workers[w] == Executing(t) && s.tasks[t].phase == Running
    ensures Inv(LoopTest(s, t))
  {
    var task := s.tasks[t];
    assert TaskOk(s.producers[t], task, s.batchSize, s.disposed, Values(s.published, t));
    if s.disposed {
      StopTaskOk(s.producers[t], task, s.batchSize, s.disposed, Values(s.published, t));
    }
    assert Tag<V>(t, []) == [] && s.published + [] == s.published;
    assert Values(s.published, t) + [] == Values(s.published, t);
    ActiveUpdateKeepsInv(s, t, LoopTest(s, t).tasks[t], [], LoopTest(s, t));
  }

  /** A task past the test pulls one item; a full batch is published. */
  lemma PullStepKeepsInv<V>(s: State<V>, w: nat, t: nat)
    requires Inv(s) && w < |s.workers| && s.workers[w] == Executing(t)
    requires s.tasks[t].phase == Pulling && s.tasks[t].pos < |s.producers[t].items|
    ensures Inv(PullStep(s, w, t))
  {
    var task := s.tasks[t];
    var p := s.producers[t];
    var vals := Values(s.published, t);
    assert TaskOk(p, task, s.batchSize, s.disposed, vals);
    PullTaskOk(p, task, s.batchSize, s.disposed, vals);
    var batch := task.batch + [p.items[task.pos]];
    if |batch| == s.batchSize {
      ActiveUpdateKeepsInv(s, t, Task(Running, task.pos + 1, []), batch, PullStep(s, w, t));
    } else {
      assert Tag<V>(t, []) == [] && s.published + [] == s.published;
      ActiveUpdateKeepsInv(s, t, Task(Running, task.pos + 1, batch), [], PullStep(s, w, t));
    }
  }

  /** The producer is exhausted: the task leaves its loop. */
  lemma StopStepKeepsInv<V>(s: State<V>, w: nat, t: nat)
    requires Inv(s) && w < |s.workers| && s.workers[w] == Executing(t) && s.tasks[t].phase == Pulling
    requires s.tasks[t].pos >= |s.producers[t].items| && !s.producers[t].failsOnPull
    ensures Inv(PullStep(s, w, t))
  {
    var task := s.tasks[t];
    assert TaskOk(s.producers[t], task, s.batchSize, s.disposed, Values(s.published, t));
    StopTaskOk(s.producers[t], task, s.batchSize, s.disposed, Values(s.published, t));
    assert Tag<V>(t, []) == [] && s.published + [] == s.published;
    ActiveUpdateKeepsInv(s, t, task.(phase := Ending), [], PullStep(s, w, t));
  }

  /** The exhausted producer throws instead of ending. */
  lemma FailStepKeepsInv<V>(s: State<V>, w: nat, t: nat)
    requires Inv(s) && w < |s.workers| && s.workers[w] == Executing(t) && s.tasks[t].phase == Pulling
    requires s.tasks[t].pos >= |s.producers[t].items| && s.producers[t].failsOnPull
    ensures Inv(PullStep(s, w, t))
  {
    assert TaskOk(s.producers[t], s.tasks[t], s.batchSize, s.disposed, Values(s.published, t));
    FailKeepsInv(s, w, t, PullStep(s, w, t));
  }

  /** An ending task publishes what is left in its batch. */
  lemma FlushStepKeepsInv<V>(s: State<V>, w: nat, t: nat)
    requires Inv(s) && w < |s.workers| && s.workers[w] == Executing(t) && s.tasks[t].phase == Ending
    ensures Inv(FlushStep(s, t))
  {
    var task := s.tasks[t];
    assert TaskOk(s.producers[t], task, s.batchSize, s.disposed, Values(s.published, t));
    FlushTaskOk(s.producers[t], task, s.batchSize, s.disposed, Values(s.published, t));
    if |task.batch| == 0 {
      assert Tag(t, task.batch) == [] && s.published + [] == s.published;
    }
    ActiveUpdateKeepsInv(s, t, Task(Flushed, task.pos, []), task.batch, FlushStep(s, t));
  }

  lemma TaskStepKeepsInv<V>(s: State<V>, w: nat, t: nat)
    requires Inv(s) && w < |s.workers| && s.workers[w] == Executing(t)
    ensures Inv(WorkerStep(s, w))
  {
    assert WorkerStep(s, w) == TaskStep(s, w, t);
    var task := s.tasks[t];
    var p := s.producers[t];
    match task.phase
    case Running =>
      assert TaskStep(s, w, t) == LoopTest(s, t);
      LoopTestKeepsInv(s, w, t);
    case Pulling =>
      assert TaskStep(s, w, t) == PullStep(s, w, t);
      if task.pos < |p.items| {
        PullStepKeepsInv(s, w, t);
      } else if p.failsOnPull {
        FailStepKeepsInv(s, w, t);
      } else {
        StopStepKeepsInv(s, w, t);
      }
    case Ending =>
      assert TaskStep(s, w, t) == FlushStep(s, t);
      FlushStepKeepsInv(s, w, t);
    case Flushed =>
      assert TaskStep(s, w, t) == CompleteStep(s, w, t);
      CompleteKeepsInv(s, w, t, CompleteStep(s, w, t));
  }

  lemma WorkerStepKeepsInv<V>(s: State<V>, w: nat)
    requires Inv(s) && w < |s.workers| && !s.workers[w].Exited?
    ensures Inv(WorkerStep(s, w))
  {
    match s.workers[w]
    case Idle => WorkerStateKeepsInv(s, w, if s.disposed then Exited else Ready, WorkerStep(s, w));
    case Ready =>
      if |s.queue| == 0 {
        WorkerStateKeepsInv(s, w, Exited, WorkerStep(s, w));
      } else {
        DequeueKeepsInv(s, w, WorkerStep(s, w));
      }
    case Executing(t) => TaskStepKeepsInv(s, w, t);
  }

  // ---------------------------------------------------------------------------
  // Initial state and consumer steps
  // ---------------------------------------------------------------------------

  /** A new engine satisfies the invariant: the shared state's initial values fit together. */
  lemma InitEstablishesInv<V>(producers: seq<Producer<V>>, batchSize: int, poolSize: int)
    ensures Inv(Init(producers, batchSize, poolSize))
  {
    var s := Init(producers, batchSize, poolSize);
    CountNone(s.tasks, Finished);
    CountNone(s.tasks, Failed);
  }

  /** The state StartPollingObjects leaves when the thread array can be allocated. */
  function Started<V>(s: State<V>): State<V>
    requires 0 <= s.poolSize
  {
    var n := |s.producers|;
    s.(allDone := s.allDone || n == 0, pollStarts := s.pollStarts + 1, queue := Range(0, n),
       poolAllocated := true, workers := s.workers + seq(Min(s.poolSize, n), _ => Idle), cursor := Constructing)
  }

  lemma StartShape<V>(s: State<V>)
    requires WellFormed(s) && s.cursor.NotStarted?
    ensures 0 <= s.poolSize ==> MoveNext(s).0 == Started(s)
    ensures s.poolSize < 0 ==> MoveNext(s).0 == s.(allDone := s.allDone || |s.producers| == 0,
                                                    pollStarts := s.pollStarts + 1, cursor := Broken(Overflow))
  {
  }

  lemma StartedShape<V>(s: State<V>)
    requires WellFormed(s) && StartOk(s) && s.cursor.NotStarted? && 0 <= s.poolSize
    ensures WellFormed(Started(s)) && QueueOk(Started(s)) && StartOk(Started(s))
  {
    var s' := Started(s);
    assert forall w :: 0 <= w < |s'.workers| ==> s'.workers[w] == Idle;
    assert forall j :: 0 <= j < |s'.queue| ==> s'.queue[j] == j;
  }

  lemma StartedRest<V>(s: State<V>)
    requires WellFormed(s) && TasksOk(s) && CountsOk(s) && StartOk(s) && s.cursor.NotStarted? && 0 <= s.poolSize
    ensures TasksOk(Started(s)) && CountsOk(Started(s))
  {
    CountNone(s.tasks, Finished);
    CountNone(s.tasks, Failed);
    var s' := Started(s);
    assert s'.tasks == s.tasks && s'.published == s.published && s'.disposed == s.disposed;
  }

  lemma StartedKeepsInv<V>(s: State<V>)
    requires Inv(s) && s.cursor.NotStarted? && 0 <= s.poolSize
    ensures Inv(Started(s))
  {
    StartedShape(s);
    StartedRest(s);
  }

  lemma StartFailedKeepsInv<V>(s: State<V>, s': State<V>)
    requires Inv(s) && s.cursor.NotStarted?
    requires s' == s.(allDone := s.allDone || |s.producers| == 0, pollStarts := s.pollStarts + 1, cursor := Broken(Overflow))
    ensures Inv(s')
  {
    CountNone(s.tasks, Finished);
    CountNone(s.tasks, Failed);
  }

  /** A later MoveNext step moves only the cursor, and never back to NotStarted. */
  lemma CursorShape<V>(s: State<V>)
    requires WellFormed(s) && !s.cursor.NotStarted?
    ensures var s' := MoveNext(s).0;
            && s' == s.(cursor := s'.cursor) && !s'.cursor.NotStarted?
            && (s'.cursor.Open? ==> s'.cursor.pos <= s.size)
  {
  }

  lemma CursorKeepsInv<V>(s: State<V>, c: Cursor, s': State<V>)
    requires Inv(s) && !s.cursor.NotStarted? && !c.NotStarted? && (c.Open? ==> c.pos <= s.size)
    requires s' == s.(cursor := c)
    ensures Inv(s')
  {
  }

  lemma MoveNextKeepsInv<V>(s: State<V>)
    requires Inv(s)
    ensures Inv(MoveNext(s).0)
  {
    if s.cursor.NotStarted? {
      StartShape(s);
      if 0 <= s.poolSize {
        StartedKeepsInv(s);
      } else {
        StartFailedKeepsInv(s, MoveNext(s).0);
      }
    } else {
      CursorShape(s);
      CursorKeepsInv(s, MoveNext(s).0.cursor, MoveNext(s).0);
    }
  }

  lemma DisposeKeepsInv<V>(s: State<V>)
    requires Inv(s)
    ensures Inv(Dispose(s).0)
  {
    var s' := Dispose(s).0;
    forall i | 0 <= i < |s'.tasks|
      ensures TaskOk(s'.producers[i], s'.tasks[i], s'.batchSize, s'.disposed, Values(s'.published, i))
    {
      TaskOkDisposed(s.producers[i], s.tasks[i], s.batchSize, s.disposed, Values(s.published, i));
    }
  }

  /** The invariant is inductive: every enabled step of the system keeps it. */
  lemma NextKeepsInv<V>(s: State<V>, step: Step)
    requires Inv(s) && Enabled(s, step)
    ensures Inv(Next(s, step))
  {
    match step
    case Work(w) => WorkerStepKeepsInv(s, w);
    case Consume => MoveNextKeepsInv(s);
    case Close => DisposeKeepsInv(s);
  }
}

=== FILE: fan_in_properties.dfy ===
/**
 * What the fan-in engine guarantees, stated on the runs of its state machine: the
 * invariant of module FanInProofs holds in every reachable state, and from it the
 * delivery, ordering and termination properties of the initial load follow.
 */
module FanInProperties {
  import opened Exceptions
  import opened FanIn
  import opened FanInProofs

  // ---------------------------------------------------------------------------
  // Runs
  // ---------------------------------------------------------------------------

  /** The state after taking `steps` in order, or None when one of them is not enabled. */
  function Run<V>(s: State<V>, steps: seq<Step>): Option<State<V>>
    decreases |steps|
  {
    if |steps| == 0 then Some(s)
    else if !Enabled(s, steps[0]) then None
    else Run(Next(s, steps[0]), steps[1..])
  }

  lemma {:induction false} RunKeepsInv<V>(s: State<V>, steps: seq<Step>)
    requires Inv(s)
    ensures Run(s, steps).Some? ==> Inv(Run(s, steps).value)
    decreases |steps|
  {
    if |steps| > 0 && Enabled(s, steps[0]) {
      NextKeepsInv(s, steps[0]);
      RunKeepsInv(Next(s, steps[0]), steps[1..]);
    }
  }

  /** Every state reachable from a new engine satisfies the invariant. */
  lemma ReachableInv<V>(producers: seq<Producer<V>>, batchSize: int, poolSize: int, steps: seq<Step>)
    ensures Run(Init(producers, batchSize, poolSize), steps).Some? ==>
              Inv(Run(Init(producers, batchSize, poolSize), steps).value)
  {
    InitEstablishesInv(producers, batchSize, poolSize);
    RunKeepsInv(Init(producers, batchSize, poolSize), steps);
  }

  /** Polling is started at most once in any run, whatever the consumer's calls throw. */
  lemma StartsAtMostOnce<V>(producers: seq<Producer<V>>, batchSize: int, poolSize: int, steps: seq<Step>)
    ensures Run(Init(producers, batchSize, poolSize), steps).Some? ==>
              Run(Init(producers, batchSize, poolSize), steps).value.pollStarts <= 1
  {
    ReachableInv(producers, batchSize, poolSize, steps);
  }

  /**
   * The one start of the corrected engine is a first start: no thread runs yet, so the
   * new threads are the only ones, they take only the new queue, and every task it
   * queues is fresh, with an empty batch and nothing pulled.
   */
  lemma FirstStartIsFresh<V>(s: State<V>)
    requires Inv(s) && s.cursor.NotStarted?
    ensures s.workers == [] && s.queue == [] && !s.poolAllocated
    ensures var r := StartPolling(s).0;
            && (forall i :: 0 <= i < |r.tasks| ==> r.tasks[i] == Task(Queued, 0, []))
            && (0 <= s.poolSize ==> r.workers == seq(Min(s.poolSize, |s.producers|), _ => Idle))
  {
    forall i | 0 <= i < |s.tasks|
      ensures s.tasks[i] == Task(Queued, 0, [])
    {
      assert TaskOk(s.producers[i], s.tasks[i], s.batchSize, s.disposed, Values(s.published, i));
    }
  }

  // ---------------------------------------------------------------------------
  // Delivery
  // ---------------------------------------------------------------------------

  /** The number of items all producers hold together. */
  function TotalItems<V>(ps: seq<Producer<V>>): nat {
    if |ps| == 0 then 0 else TotalItems(ps[..|ps| - 1]) + |ps[|ps| - 1].items|
  }

  /** How many list entries come from producers 0 to n - 1. */
  function SumValues<V>(es: seq<Entry<V>>, n: nat): nat {
    if n == 0 then 0 else SumValues(es, n - 1) + |Values(es, n - 1)|
  }

  lemma {:induction false} SumValuesSnoc<V>(es: seq<Entry<V>>, n: nat)
    requires 0 < |es|
    ensures SumValues(es, n) == SumValues(es[..|es| - 1], n) + (if es[|es| - 1].producer < n then 1 else 0)
    decreases n
  {
    if n > 0 {
      SumValuesSnoc(es, n - 1);
    }
  }

  /** When every entry comes from one of n producers, the producers' shares add up to the list. */
  lemma {:induction false} SumValuesAll<V>(es: seq<Entry<V>>, n: nat)
    requires forall k :: 0 <= k < |es| ==> es[k].producer < n
    ensures SumValues(es, n) == |es|
    decreases |es|
  {
    if |es| == 0 {
      SumValuesZero(es, n);
    } else {
      SumValuesSnoc(es, n);
      SumValuesAll(es[..|es| - 1], n);
    }
  }

  lemma {:induction false} SumValuesZero<V>(es: seq<Entry<V>>, n: nat)
    requires |es| == 0
    ensures SumValues(es, n) == 0
    decreases n
  {
    if n > 0 {
      SumValuesZero(es, n - 1);
    }
  }

  lemma {:induction false} SumValuesItems<V>(es: seq<Entry<V>>, ps: seq<Producer<V>>, n: nat)
    requires n <= |ps| && forall i :: 0 <= i < n ==> Values(es, i) == ps[i].items
    ensures SumValues(es, n) == TotalItems(ps[..n])
    decreases n
  {
    if n > 0 {
      assert ps[..n][..n - 1] == ps[..n - 1];
      SumValuesItems(es, ps, n - 1);
    }
  }

  /**
   * A task that finished without `disposed` has put every item of its producer on the
   * list, in the producer's order.
   */
  lemma FinishedTaskDelivered<V>(s: State<V>, i: nat)
    requires Inv(s) && !s.disposed && i < |s.tasks| && s.tasks[i].phase == Finished
    ensures Values(s.published, i) == s.producers[i].items
  {
    assert TaskOk(s.producers[i], s.tasks[i], s.batchSize, s.disposed, Values(s.published, i));
  }

  /**
   * Once all enumerators are done (and nothing was disposed) no exception is stored and
   * the list holds exactly the producers' items: each producer's in its own order, and
   * nothing else.
   */
  lemma AllDoneDelivered<V>(s: State<V>)
    requires Inv(s) && s.allDone && !s.disposed
    ensures s.error.None?
    ensures forall i :: 0 <= i < |s.producers| ==> Values(s.published, i) == s.producers[i].items
    ensures s.size == TotalItems(s.producers)
  {
    AllDoneNoError(s);
    forall i | 0 <= i < |s.producers| ensures Values(s.published, i) == s.producers[i].items {
      AllInPhase(s.tasks, Finished, i);
      FinishedTaskDelivered(s, i);
    }
    SumValuesAll(s.published, |s.producers|);
    SumValuesItems(s.published, s.producers, |s.producers|);
    assert s.producers[..|s.producers|] == s.producers;
  }

  /** allDone means every task finished, so none failed and no exception is stored. */
  lemma AllDoneNoError<V>(s: State<V>)
    requires Inv(s) && s.allDone
    ensures s.error.None?
    ensures forall i :: 0 <= i < |s.tasks| ==> s.tasks[i].phase == Finished
  {
    CountTwoPhases(s.tasks, Finished, Failed);
    forall i | 0 <= i < |s.tasks| ensures s.tasks[i].phase == Finished {
      AllInPhase(s.tasks, Finished, i);
    }
  }

  /** A cursor at the end of the list of a completed load ends the enumeration. */
  lemma DoneCursorEnds<V>(s: State<V>)
    requires Inv(s) && s.allDone && s.cursor.Open? && s.cursor.pos == s.size
    ensures MoveNext(s) == (s, False)
  {
    AllDoneNoError(s);
  }

  /**
   * Once all enumerators are done nothing changes any more but the consumer's cursor
   * and the dispose bookkeeping: no worker has a task left to run or to dequeue.
   */
  lemma AllDoneFreezes<V>(s: State<V>, step: Step)
    requires Inv(s) && s.allDone && Enabled(s, step)
    ensures Next(s, step).published == s.published && Next(s, step).error == s.error
    ensures Next(s, step).tasks == s.tasks && Next(s, step).allDone
  {
    AllDoneNoError(s);
    AllDoneIdle(s);
  }

  /** allDone leaves no task in the queue and none with a worker. */
  lemma AllDoneIdle<V>(s: State<V>)
    requires Inv(s) && s.allDone
    ensures |s.queue| == 0
    ensures forall v :: 0 <= v < |s.workers| ==> !s.workers[v].Executing?
  {
    if 0 < |s.queue| {
      AllInPhase(s.tasks, Finished, s.queue[0]);
    }
    forall v | 0 <= v < |s.workers| ensures !s.workers[v].Executing? {
      if s.workers[v].Executing? {
        AllInPhase(s.tasks, Finished, s.workers[v].task);
      }
    }
  }

  // ---------------------------------------------------------------------------
  // What one step publishes
  // ---------------------------------------------------------------------------

  /**
   * A worker step appends to the list only entries of its own task: a full batch of
   * exactly `batchSize` items while pulling, or the non-empty rest of the batch (below
   * the batch size when that is positive) after the loop.
   */
  lemma StepPublishes<V>(s: State<V>, w: nat)
    requires Inv(s) && w < |s.workers| && !s.workers[w].Exited?
    ensures var r := WorkerStep(s, w);
            var k := |r.published| - |s.published|;
            && (k > 0 ==> s.workers[w].Executing?)
            && (forall j :: |s.published| <= j < |r.published| ==> r.published[j].producer == s.workers[w].task)
            && (k > 0 ==> (s.tasks[s.workers[w].task].phase == Pulling && k == s.batchSize)
                          || (s.tasks[s.workers[w].task].phase == Ending && (1 <= s.batchSize ==> k < s.batchSize)))
  {
    if s.workers[w].Executing? {
      var t := s.workers[w].task;
      assert TaskOk(s.producers[t], s.tasks[t], s.batchSize, s.disposed, Values(s.published, t));
      match s.tasks[t].phase
      case Running =>
      case Pulling =>
        PullPublishes(s, w, t);
      case Ending =>
        FlushPublishes(s, t);
      case Flushed =>
    }
  }

  /** A pull publishes nothing or a batch of exactly the batch size. */
  lemma PullPublishes<V>(s: State<V>, w: nat, t: nat)
    requires WellFormed(s) && w < |s.workers| && s.workers[w] == Executing(t) && s.tasks[t].phase == Pulling
    ensures var r := PullStep(s, w, t);
            && (forall j :: |s.published| <= j < |r.published| ==> r.published[j].producer == t)
            && (|r.published| > |s.published| ==> |r.published| - |s.published| == s.batchSize)
  {
  }

  /** The flush after the loop publishes the rest of the batch, below the batch size. */
  lemma FlushPublishes<V>(s: State<V>, t: nat)
    requires WellFormed(s) && t < |s.tasks|
    requires 1 <= s.batchSize ==> |s.tasks[t].batch| < s.batchSize
    ensures var r := FlushStep(s, t);
            && (forall j :: |s.published| <= j < |r.published| ==> r.published[j].producer == t)
            && (1 <= s.batchSize ==> |r.published| - |s.published| < s.batchSize)
  {
  }

  /**
   * The pull does not depend on `disposed`: a task that passed the loop's test before
   * Dispose began still takes its next item, and publishes it when its batch is full.
   */
  lemma PullIgnoresDisposed<V>(s: State<V>, w: nat, t: nat)
    requires WellFormed(s) && w < |s.workers| && s.workers[w] == Executing(t) && s.tasks[t].phase == Pulling
    ensures PullStep(s.(disposed := true), w, t) == PullStep(s, w, t).(disposed := true)
  {
  }

  // ---------------------------------------------------------------------------
  // Monotonic state
  // ---------------------------------------------------------------------------

  /**
   * The list only grows; `disposed`, a stored exception and allDone are never taken
   * back, and a task's position never moves backwards.
   */
  lemma StepMonotonic<V>(s: State<V>, step: Step)
    requires Enabled(s, step)
    ensures var r := Next(s, step);
            && s.published <= r.published
            && (s.disposed ==> r.disposed)
            && (s.error.Some? ==> r.error.Some?)
            && (s.allDone ==> r.allDone)
            && |r.tasks| == |s.tasks|
            && forall i :: 0 <= i < |s.tasks| ==> s.tasks[i].pos <= r.tasks[i].pos
  {
    var r := Next(s, step);
    if step.Work? && s.workers[step.w].Executing? {
      var t := s.workers[step.w].task;
      assert r == TaskStep(s, step.w, t);
      forall i | 0 <= i < |s.tasks| ensures s.tasks[i].pos <= r.tasks[i].pos {
        if i != t {
          assert r.tasks[i] == s.tasks[i];
        }
      }
    }
  }

  /** After a MoveNext that yields, Current is the value it yielded. */
  lemma YieldThenCurrent<V>(s: State<V>)
    requires WellFormed(s) && MoveNext(s).1.Yield?
    ensures Current(MoveNext(s).0) == Ok(Some(MoveNext(s).1.value))
  {
    assert MoveNext(s).0.published == s.published;
  }

  // ---------------------------------------------------------------------------
  // The two defects of the orchestrator as written
  // ---------------------------------------------------------------------------

  /** A run follows any chain of states in which each step is enabled and leads to the next one. */
  lemma {:induction false} RunFollows<V>(states: seq<State<V>>, steps: seq<Step>)
    requires |states| == |steps| + 1
    requires forall k :: 0 <= k < |steps| ==> Enabled(states[k], steps[k]) && Next(states[k], steps[k]) == states[k + 1]
    ensures Run(states[0], steps) == Some(states[|steps|])
    decreases |steps|
  {
    if |steps| > 0 {
      RunFollows(states[1..], steps[1..]);
    }
  }

  /** The state after taking `steps` in order with the orchestrator as written. */
  function RunAsWritten<V>(s: State<V>, steps: seq<Step>): Option<State<V>>
    decreases |steps|
  {
    if |steps| == 0 then Some(s)
    else if !Enabled(s, steps[0]) then None
    else RunAsWritten(NextAsWritten(s, steps[0]), steps[1..])
  }

  lemma {:induction false} RunAsWrittenFollows<V>(states: seq<State<V>>, steps: seq<Step>)
    requires |states| == |steps| + 1
    requires forall k :: 0 <= k < |steps| ==> Enabled(states[k], steps[k]) && NextAsWritten(states[k], steps[k]) == states[k + 1]
    ensures RunAsWritten(states[0], steps) == Some(states[|steps|])
    decreases |steps|
  {
    if |steps| > 0 {
      RunAsWrittenFollows(states[1..], steps[1..]);
    }
  }

  // The states of a run with one producer that holds nothing and throws when asked for
  // more; the batch size is 1 and the pool has one thread.
  const Failing: Producer<int> := Producer([], true, false)

  function Restart0(): State<int> { Init([Failing], 1, 1) }
  function RestartState(task: Task<int>, queue: seq<nat>, workers: seq<Worker>, error: Option<Exception>,
                        cursor: Cursor, pollStarts: nat): State<int> {
    State([Failing], 1, 1, [task], queue, true, workers, [], 0, 0, false, error, false, cursor, pollStarts, false, [])
  }
  function Restart1(): State<int> { RestartState(Task(Queued, 0, []), [0], [Idle], None, Constructing, 1) }
  function Restart2(): State<int> { RestartState(Task(Queued, 0, []), [0], [Ready], None, Constructing, 1) }
  function Restart3(): State<int> { RestartState(Task(Running, 0, []), [], [Executing(0)], None, Constructing, 1) }
  function Restart4(): State<int> { RestartState(Task(Pulling, 0, []), [], [Executing(0)], None, Constructing, 1) }
  function Restart5(): State<int> {
    RestartState(Task(Failed, 0, []), [], [Idle], Some(ProducerFailure(0)), Constructing, 1)
  }
  /** As written: the start's exception escapes and the start flag stays clear. */
  function Restart6(): State<int> {
    RestartState(Task(Failed, 0, []), [], [Idle], Some(ProducerFailure(0)), NotStarted, 1)
  }
  /** As written: the second start queues the failed producer again and starts another thread. */
  function Restart7(): State<int> {
    RestartState(Task(Failed, 0, []), [0], [Idle, Idle], Some(ProducerFailure(0)), Constructing, 2)
  }
  /** Corrected: the start's exception is kept in the cursor. */
  function Restart6Corrected(): State<int> {
    RestartState(Task(Failed, 0, []), [], [Idle], Some(ProducerFailure(0)), Broken(ProducerFailure(0)), 1)
  }

  /** Polling starts: one queued task and one idle thread, as written and corrected. */
  lemma RestartStarts()
    ensures Enabled(Restart0(), Consume) && Next(Restart0(), Consume) == Restart1()
    ensures NextAsWritten(Restart0(), Consume) == Restart1()
  {
    assert Restart0().tasks == [Task(Queued, 0, [])];
    assert Range(0, 1) == [0];
    assert [] + [Idle] == [Idle];
    assert MoveNextAsWritten(Restart0()) == MoveNext(Restart0());
  }

  /** The worker takes the task. */
  lemma RestartTake()
    ensures Enabled(Restart1(), Work(0)) && Next(Restart1(), Work(0)) == Restart2()
    ensures NextAsWritten(Restart1(), Work(0)) == Restart2()
    ensures Enabled(Restart2(), Work(0)) && Next(Restart2(), Work(0)) == Restart3()
    ensures NextAsWritten(Restart2(), Work(0)) == Restart3()
  {
  }

  /** The task passes the loop's test. */
  lemma RestartTest()
    ensures Enabled(Restart3(), Work(0)) && Next(Restart3(), Work(0)) == Restart4()
    ensures NextAsWritten(Restart3(), Work(0)) == Restart4()
  {
    assert Next(Restart3(), Work(0)) == LoopTest(Restart3(), 0);
  }

  /** The producer throws. */
  lemma RestartFail()
    ensures Enabled(Restart4(), Work(0)) && Next(Restart4(), Work(0)) == Restart5()
    ensures NextAsWritten(Restart4(), Work(0)) == Restart5()
  {
    assert Next(Restart4(), Work(0)) == PullStep(Restart4(), 0, 0);
  }

  /** The first five steps, as written and corrected alike. */
  lemma RestartWork(k: nat)
    requires k < 5
    ensures var states := [Restart0(), Restart1(), Restart2(), Restart3(), Restart4(), Restart5()];
            && Enabled(states[k], RestartSteps[k]) && Next(states[k], RestartSteps[k]) == states[k + 1]
            && NextAsWritten(states[k], RestartSteps[k]) == states[k + 1]
  {
    if k == 0 {
      RestartStarts();
    } else if k <= 2 {
      RestartTake();
    } else if k == 3 {
      RestartTest();
    } else {
      RestartFail();
    }
  }

  /** The consumer's next two steps: as written, and corrected. */
  lemma RestartConsume()
    ensures Enabled(Restart5(), Consume) && NextAsWritten(Restart5(), Consume) == Restart6()
    ensures Enabled(Restart6(), Consume) && NextAsWritten(Restart6(), Consume) == Restart7()
    ensures Next(Restart5(), Consume) == Restart6Corrected()
    ensures Enabled(Restart6Corrected(), Consume) && Next(Restart6Corrected(), Consume) == Restart6Corrected()
  {
    assert Range(0, 1) == [0];
    assert [Idle] + [Idle] == [Idle, Idle];
  }

  const RestartSteps: seq<Step> := [Consume, Work(0), Work(0), Work(0), Work(0), Consume, Consume]

  /**
   * As written, a producer that throws before the cursor's constructor has a node
   * makes the first MoveNext throw and the second start polling again: the second
   * start re-queues the producer whose task failed and starts another thread, and the
   * engine's invariant no longer holds.
   */
  lemma RestartAsWritten()
    ensures RunAsWritten(Restart0(), RestartSteps) == Some(Restart7())
    ensures Restart7().pollStarts == 2 && Restart7().queue == [0] && Restart7().tasks[0].phase == Failed
    ensures |Restart7().workers| == 2
    ensures !Inv(Restart7())
  {
    RestartAsWrittenRun();
    assert !StartOk(Restart7());
  }

  lemma RestartAsWrittenRun()
    ensures RunAsWritten(Restart0(), RestartSteps) == Some(Restart7())
  {
    var states := [Restart0(), Restart1(), Restart2(), Restart3(), Restart4(), Restart5(), Restart6(), Restart7()];
    forall k | 0 <= k < |RestartSteps|
      ensures Enabled(states[k], RestartSteps[k]) && NextAsWritten(states[k], RestartSteps[k]) == states[k + 1]
    {
      if k < 5 {
        RestartWork(k);
      } else {
        RestartConsume();
      }
    }
    RunAsWrittenFollows(states, RestartSteps);
  }

  /**
   * The corrected orchestrator on the same steps: polling starts once, and every call
   * after the failure throws the producer's exception again.
   */
  lemma RestartCorrected()
    ensures Run(Restart0(), RestartSteps) == Some(Restart6Corrected())
    ensures Restart6Corrected().pollStarts == 1
    ensures MoveNext(Restart6Corrected()).1 == Raise(ProducerFailure(0))
  {
    var states := [Restart0(), Restart1(), Restart2(), Restart3(), Restart4(), Restart5(), Restart6Corrected(),
                   Restart6Corrected()];
    forall k | 0 <= k < |RestartSteps|
      ensures Enabled(states[k], RestartSteps[k]) && Next(states[k], RestartSteps[k]) == states[k + 1]
    {
      if k < 5 {
        RestartWork(k);
      } else {
        RestartConsume();
      }
    }
    RunFollows(states, RestartSteps);
  }

  // The states of the run below, one per step: producer 0 holds the one item x, the batch
  // size is 2 and the pool has one thread.
  function Race0<V>(x: V): State<V> { Init([Producer([x], false, false)], 2, 1) }
  function RaceState<V>(x: V, task: Task<V>, queue: seq<nat>, worker: Worker, published: seq<Entry<V>>,
                        disposed: bool, cursor: Cursor): State<V> {
    State([Producer([x], false, false)], 2, 1, [task], queue, true, [worker], published, |published|,
          0, false, None, disposed, cursor, 1, disposed, [])
  }
  function Race1<V>(x: V): State<V> { RaceState(x, Task(Queued, 0, []), [0], Idle, [], false, Constructing) }
  function Race2<V>(x: V): State<V> { RaceState(x, Task(Queued, 0, []), [0], Ready, [], false, Constructing) }
  function Race3<V>(x: V): State<V> { RaceState(x, Task(Running, 0, []), [], Executing(0), [], false, Constructing) }
  function Race4<V>(x: V): State<V> { RaceState(x, Task(Pulling, 0, []), [], Executing(0), [], false, Constructing) }
  function Race5<V>(x: V): State<V> { RaceState(x, Task(Running, 1, [x]), [], Executing(0), [], false, Constructing) }
  function Race6<V>(x: V): State<V> { RaceState(x, Task(Running, 1, [x]), [], Executing(0), [], true, Constructing) }
  function Race7<V>(x: V): State<V> { RaceState(x, Task(Running, 1, [x]), [], Executing(0), [], true, Open(0, false)) }
  function Race8<V>(x: V): State<V> { RaceState(x, Task(Ending, 1, [x]), [], Executing(0), [], true, Open(0, false)) }
  function Race9<V>(x: V): State<V> {
    RaceState(x, Task(Flushed, 1, []), [], Executing(0), [Entry(0, x)], true, Open(0, false))
  }

  /** MoveNext starts polling: one queued task, one idle thread, the cursor's constructor next. */
  lemma RaceStart<V>(x: V)
    ensures Enabled(Race0(x), Consume) && Next(Race0(x), Consume) == Race1(x)
  {
    assert Race0(x).tasks == [Task(Queued, 0, [])];
    assert Range(0, 1) == [0];
    assert [] + [Idle] == [Idle];
  }

  /** The thread sees no dispose, takes the task, passes the loop's test and pulls the only item into its batch. */
  lemma RaceTake<V>(x: V)
    ensures Enabled(Race1(x), Work(0)) && Next(Race1(x), Work(0)) == Race2(x)
    ensures Enabled(Race2(x), Work(0)) && Next(Race2(x), Work(0)) == Race3(x)
    ensures Enabled(Race3(x), Work(0)) && Next(Race3(x), Work(0)) == Race4(x)
  {
    assert Next(Race3(x), Work(0)) == LoopTest(Race3(x), 0);
  }

  lemma RacePull<V>(x: V)
    ensures Enabled(Race4(x), Work(0)) && Next(Race4(x), Work(0)) == Race5(x)
  {
    var s := Race4(x);
    assert s.tasks[0].batch + [x] == [x];
    assert Next(s, Work(0)) == PullStep(s, 0, 0);
  }

  /** Dispose begins; the cursor's constructor sees an empty list and `disposed`, and gives up. */
  lemma RaceDispose<V>(x: V)
    ensures Enabled(Race5(x), Close) && Next(Race5(x), Close) == Race6(x)
    ensures Enabled(Race6(x), Consume) && Next(Race6(x), Consume) == Race7(x)
  {
  }

  /** The thread sees `disposed`, leaves its loop and flushes the batch it holds. */
  lemma RaceStop<V>(x: V)
    ensures Enabled(Race7(x), Work(0)) && Next(Race7(x), Work(0)) == Race8(x)
  {
    assert Next(Race7(x), Work(0)) == LoopTest(Race7(x), 0);
  }

  lemma RaceFlush<V>(x: V)
    ensures Enabled(Race8(x), Work(0)) && Next(Race8(x), Work(0)) == Race9(x)
  {
    assert Tag(0, [x]) == [Entry(0, x)];
    assert Next(Race8(x), Work(0)) == FlushStep(Race8(x), 0);
  }

  const RaceSteps: seq<Step> := [Consume, Work(0), Work(0), Work(0), Work(0), Close, Consume, Work(0), Work(0)]

  /** The run reaches Race9 from a new engine. */
  lemma RaceRun<V>(x: V)
    ensures Run(Race0(x), RaceSteps) == Some(Race9(x))
  {
    var states := [Race0(x), Race1(x), Race2(x), Race3(x), Race4(x), Race5(x), Race6(x), Race7(x), Race8(x), Race9(x)];
    forall k | 0 <= k < |RaceSteps|
      ensures Enabled(states[k], RaceSteps[k]) && Next(states[k], RaceSteps[k]) == states[k + 1]
    {
      if k == 0 {
        RaceStart(x);
      } else if k <= 3 {
        RaceTake(x);
      } else if k == 4 {
        RacePull(x);
      } else if k <= 6 {
        RaceDispose(x);
      } else if k == 7 {
        RaceStop(x);
      } else {
        RaceFlush(x);
      }
    }
    RunFollows(states, RaceSteps);
  }

  /**
   * A run in which the consumer's cursor gives up without a node (the list is still
   * empty and Dispose has begun on another thread), after which the worker flushes its
   * last batch. The cursor's MoveNext as written then dereferences the missing node;
   * the corrected one yields the flushed item.
   */
  lemma NullNodeRace<V>(x: V)
    ensures Race0(x) == Init([Producer([x], false, false)], 2, 1)
    ensures Run(Race0(x), RaceSteps) == Some(Race9(x))
    ensures WellFormed(Race9(x)) && Race9(x).cursor == Open(0, false) && Race9(x).size == 1
    ensures CursorStepAsWritten(Race9(x)).1 == Raise(NullReference)
    ensures MoveNext(Race9(x)).1 == Yield(x)
  {
    RaceRun(x);
    RaceEndWellFormed(x);
    RaceEndAsWritten(x);
    RaceEndCorrected(x);
  }

  lemma RaceEndWellFormed<V>(x: V)
    ensures WellFormed(Race9(x)) && Race9(x).cursor == Open(0, false) && Race9(x).size == 1
  {
  }

  lemma RaceEndAsWritten<V>(x: V)
    requires WellFormed(Race9(x))
    ensures CursorStepAsWritten(Race9(x)).1 == Raise(NullReference)
  {
  }

  lemma RaceEndCorrected<V>(x: V)
    requires WellFormed(Race9(x))
    ensures MoveNext(Race9(x)).1 == Yield(x)
  {
  }
}

=== FILE: linkable_list.dfy ===
/**
 * The append-only singly linked list the initial-load engine accumulates items in
 * (LinkableLinkedList and LinkableLinkedListNode; the NHibernate template nests an
 * identical copy in ConcurrentMultiDataEnumerator).
 *
 * Two lists can be spliced in O(1): the receiving list links its last node to the
 * donor's first node and adopts the donor's nodes without copying them.
 */
module LinkableList {

  /** A node: its value is fixed at construction, its successor can be set. */
  class Node<V> {
    const value: V
    var next: Node?<V>

    constructor(v: V)
      ensures value == v && next == null
    {
      value := v;
      next := null;
    }
  }

  class List<V> {
    var first: Node?<V>
    var last: Node?<V>
    var count: int

    /** The values in list order, and the nodes that hold them. */
    ghost var contents: seq<V>
    ghost var nodes: seq<Node<V>>
    ghost var Repr: set<object>

    /**
     * The nodes form a chain from `first` to `last`, each linked to the next,
     * the last one unlinked, none repeated; `count` is their number.
     */
    ghost predicate Valid()
      reads this, Repr
    {
      && this in Repr
      && (forall i :: 0 <= i < |nodes| ==> nodes[i] in Repr)
      && |contents| == |nodes| == count
      && (forall i :: 0 <= i < |nodes| ==> nodes[i].value == contents[i])
      && (forall i :: 0 <= i < |nodes| - 1 ==> nodes[i].next == nodes[i + 1])
      && (forall i, j :: 0 <= i < j < |nodes| ==> nodes[i] != nodes[j])
      && (|nodes| == 0 ==> first == null && last == null)
      && (|nodes| > 0 ==> first == nodes[0] && last == nodes[|nodes| - 1] && last.next == null)
    }

    constructor()
      ensures Valid() && fresh(Repr)
      ensures contents == [] && first == null && last == null && count == 0
    {
      first := null;
      last := null;
      count := 0;
      contents := [];
      nodes := [];
      Repr := {this};
    }

    /** First is null exactly when the list is empty. */
    lemma FirstNullIffEmpty()
      requires Valid()
      ensures first == null <==> count == 0
    {
    }

    /**
     * AppendValue: a new node holding `v` becomes the last one. Only the old last
     * node's successor is written; a non-null First is kept.
     */
    method AppendValue(v: V)
      requires Valid()
      modifies this, if last == null then {} else {last}
      ensures Valid() && fresh(Repr - old(Repr))
      ensures contents == old(contents) + [v] && count == old(count) + 1
      ensures nodes[..|old(nodes)|] == old(nodes)
      ensures last != null && last.value == v && last !in old(Repr)
      ensures old(first) != null ==> first == old(first)
    {
      var n := new Node(v);
      if first == null {
        first := n;
        last := first;
        count := 1;
      } else {
        last.next := n;
        last := last.next;
        count := count + 1;
      }
      ghost var oldNodes := nodes;
      contents := contents + [v];
      nodes := nodes + [n];
      Repr := Repr + {n};
      assert nodes[..|oldNodes|] == oldNodes;
    }

    /**
     * AppentList: links the donor's nodes after this list's last node, without copying.
     * The donor must not share nodes with this list; afterwards its nodes belong to
     * this list too, so the donor must not be appended to again.
     */
    method AppentList(donor: List<V>)
      requires Valid() && donor.Valid()
      requires Repr !! donor.Repr
      modifies this, if last == null then {} else {last}
      ensures Valid()
      ensures contents == old(contents) + old(donor.contents)
      ensures count == old(count) + old(donor.count)
      ensures nodes == old(nodes) + old(donor.nodes)
      ensures Repr == old(Repr) + old(donor.Repr) - {donor}
      ensures old(first) != null ==> first == old(first)
      ensures old(donor.count) == 0 ==> last == old(last)
      ensures old(count) == 0 ==> first == old(donor.first) && last == old(donor.last)
    {
      if first == null {
        first := donor.first;
        last := donor.last;
        count := donor.count;
      } else {
        last.next := donor.first;
        if donor.last != null {
          last := donor.last;
        }
        count := count + donor.count;
      }
      contents := contents + donor.contents;
      ghost var oldNodes := nodes;
      nodes := nodes + donor.nodes;
      Repr := Repr + donor.Repr - {donor};
      forall i | 0 <= i < |nodes| - 1 ensures nodes[i].next == nodes[i + 1] {
        if i < |oldNodes| - 1 {
          assert nodes[i] == oldNodes[i] && nodes[i + 1] == oldNodes[i + 1];
        }
      }
    }
  }
}

=== FILE: paging.dfy ===
/**
 * The paginated data enumerators (NHibernateDataEnumerator, EntityFrameworkDataEnumerator):
 * one enumerator reads one chunk `offset .. offset + chunkSize` of a table, a page of
 * at most `fetchSize` rows at a time.
 *
 * The table, as the ORM query sees it (filtered and ordered), is a sequence of rows;
 * fetching a page is `Skip(first).Take(count)` over it. Sessions, transactions,
 * criteria and LINQ expressions are not modelled.
 */
module Paging {
  import opened Exceptions

  /** int.MaxValue: the chunk size of an enumerator over a whole table. */
  const Int32Max: int := 0x7fff_ffff

  const ConstructionError: Exception :=
    Wrapped("Error while constructing an enumerator", Cause("NHibernateDataEnumerator must receive an Entity Type or a Query"))

  function Min(a: int, b: int): int {
    if a <= b then a else b
  }

  function Max(a: int, b: int): int {
    if a <= b then b else a
  }

  /**
   * `rows.Skip(first).Take(count)`: a negative `first` skips nothing and a count that
   * is not positive takes nothing.
   */
  function Window<V>(rows: seq<V>, first: int, count: int): (r: seq<V>)
    ensures |r| == if count <= 0 || first >= |rows| then 0 else Min(count, |rows| - Max(first, 0))
    ensures forall k :: 0 <= k < |r| ==> r[k] == rows[Max(first, 0) + k]
  {
    if count <= 0 || first >= |rows| then []
    else rows[Max(first, 0) .. Min(Max(first, 0) + count, |rows|)]
  }

  /**
   * `p * f`, written as `p` additions of `f` so that proofs about consecutive pages
   * take one page at a time.
   */
  function Mul(p: nat, f: int): int
    decreases p
  {
    if p == 0 then 0 else Mul(p - 1, f) + f
  }

  lemma {:induction false} MulIsProduct(p: nat, f: int)
    ensures Mul(p, f) == p * f
    decreases p
  {
    if p > 0 {
      MulIsProduct(p - 1, f);
    }
  }

  /** The enumerator over one fetched page, after `index` successful MoveNext calls. */
  datatype PageCursor<V> = PageCursor(items: seq<V>, index: nat)

  /**
   * An enumerator's state. `hibernate` selects the NHibernate one, which builds its
   * query on the first MoveNext (`initialized`); the Entity Framework one builds it in
   * its constructor. `hasSource` says whether it was given an entity type or a query.
   * `fetchPos` counts the pages fetched, `total` the rows yielded.
   */
  datatype Pager<V> = Pager(
    hibernate: bool,
    hasSource: bool,
    initialized: bool,
    offset: int,
    chunkSize: int,
    fetchSize: int,
    fetchPos: nat,
    total: int,
    exhausted: bool,
    page: Option<PageCursor<V>>,
    current: Option<V>)

  /** The constructor with an explicit chunk: nothing fetched, nothing yielded, no current row. */
  function NewPager<V>(hibernate: bool, hasSource: bool, fetchSize: int, offset: int, chunkSize: int): (r: Pager<V>)
    ensures r.offset == offset && r.chunkSize == chunkSize && r.fetchSize == fetchSize
    ensures r.fetchPos == 0 && r.total == 0 && !r.exhausted && r.page.None? && r.current.None?
    ensures r.initialized <==> !hibernate
  {
    Pager(hibernate, hasSource, !hibernate, offset, chunkSize, fetchSize, 0, 0, false, None, None)
  }

  /** The constructors over a whole table or a query: offset 0 and chunk size int.MaxValue. */
  function NewWholePager<V>(hibernate: bool, hasSource: bool, fetchSize: int): (r: Pager<V>)
    ensures r.offset == 0 && r.chunkSize == Int32Max && r.fetchSize == fetchSize
    ensures r.fetchPos == 0 && r.total == 0 && !r.exhausted && r.page.None? && r.current.None?
  {
    NewPager(hibernate, hasSource, fetchSize, 0, Int32Max)
  }

  /**
   * MoveNext (AssignNextElement in the NHibernate enumerator). The NHibernate one
   * first builds its query, which fails without an entity type or a query; the
   * session is kept, so the next call goes on without one. Then: having yielded
   * `chunkSize` rows makes the enumerator exhausted, and an exhausted one returns
   * false. Otherwise the current page gives its next row; when there is no page or it
   * is drained, page number `fetchPos` is fetched from `offset + fetchPos * fetchSize`
   * with at most min(fetchSize, chunkSize) rows (without a query that dereferences
   * null). An empty page clears Current and exhausts the enumerator.
   */
  function MoveNext<V>(e: Pager<V>, rows: seq<V>): (r: (Pager<V>, Result<bool>))
    ensures r.1 == Err(ConstructionError) <==> !e.initialized && !e.hasSource
    ensures r.1 == Err(NullReference) ==> !e.hasSource && e.initialized
    ensures r.1.Err? ==> r.1 == Err(ConstructionError) || r.1 == Err(NullReference)
    ensures r.0.initialized && r.0.hasSource == e.hasSource
    ensures r.0.offset == e.offset && r.0.chunkSize == e.chunkSize && r.0.fetchSize == e.fetchSize
    ensures e.initialized && (e.exhausted || e.total == e.chunkSize) ==> r.0 == e.(exhausted := true) && r.1 == Ok(false)
    ensures r.1 == Ok(true) ==> r.0.total == e.total + 1 && r.0.current.Some? && !r.0.exhausted
    ensures r.1 == Ok(false) ==> r.0.exhausted
    ensures r.0.fetchPos == e.fetchPos || r.0.fetchPos == e.fetchPos + 1
    ensures r.0.fetchPos == e.fetchPos + 1 ==>
              && (e.page.None? || e.page.value.index >= |e.page.value.items|)
              && r.0.page.Some?
              && r.0.page.value.items == Window(rows, e.offset + Mul(e.fetchPos, e.fetchSize), Min(e.fetchSize, e.chunkSize))
  {
    if !e.initialized && !e.hasSource then
      (e.(initialized := true), Err(ConstructionError))
    else
      var e1 := e.(initialized := true);
      var e2 := if e1.total == e1.chunkSize then e1.(exhausted := true) else e1;
      if e2.exhausted then (e2, Ok(false))
      else if e2.page.Some? && e2.page.value.index < |e2.page.value.items| then
        var c := e2.page.value;
        (e2.(page := Some(c.(index := c.index + 1)), total := e2.total + 1, current := Some(c.items[c.index])), Ok(true))
      else if !e2.hasSource then (e2, Err(NullReference))
      else
        var items := Window(rows, e2.offset + Mul(e2.fetchPos, e2.fetchSize), Min(e2.fetchSize, e2.chunkSize));
        var e3 := e2.(fetchPos := e2.fetchPos + 1);
        if |items| == 0 then (e3.(page := Some(PageCursor(items, 0)), current := None, exhausted := true), Ok(false))
        else (e3.(page := Some(PageCursor(items, 1)), total := e3.total + 1, current := Some(items[0])), Ok(true))
  }

  /** Reset of both enumerators: it always throws and changes nothing. */
  function Reset<V>(e: Pager<V>): (r: (Pager<V>, Exception))
    ensures r == (e, NotImplemented)
  {
    (e, NotImplemented)
  }

  // ---------------------------------------------------------------------------
  // Ordering of the Entity Framework query
  // ---------------------------------------------------------------------------

  /**
   * SetOrderBy / SetOrderingWithoutPrimaryKey: the member the query is ordered by.
   * With `performOrderById` the first primary key, if the type has one; otherwise the
   * first non-navigation member, if any; otherwise the query stays unordered.
   */
  function OrderKey(performOrderById: bool, primaryKeys: seq<string>, members: seq<string>): (r: Option<string>)
    ensures performOrderById && |primaryKeys| > 0 ==> r == Some(primaryKeys[0])
    ensures !(performOrderById && |primaryKeys| > 0) && |members| > 0 ==> r == Some(members[0])
    ensures r.None? <==> !(performOrderById && |primaryKeys| > 0) && |members| == 0
  {
    if performOrderById && |primaryKeys| > 0 then Some(primaryKeys[0])
    else if |members| > 0 then Some(members[0])
    else None
  }

  /** The NHibernate criteria are ordered by the identifier property, when asked and when there is one. */
  function HibernateOrderKey(performOrderById: bool, idProperty: Option<string>): (r: Option<string>)
    ensures r.Some? <==> performOrderById && idProperty.Some?
    ensures r.Some? ==> r == idProperty
  {
    if performOrderById then idProperty else None
  }

  // ---------------------------------------------------------------------------
  // What an enumerator yields
  // ---------------------------------------------------------------------------

  /** The rows the enumerator is meant to yield: its chunk of the table. */
  function Chunk<V>(e: Pager<V>, rows: seq<V>): seq<V> {
    Window(rows, e.offset, e.chunkSize)
  }

  /**
   * The enumerator has yielded the first `total` rows of its chunk. While it is not
   * exhausted, its page is the window fetched for page number `fetchPos - 1`, and the
   * page's next row is the chunk's next row; a second page is only ever fetched when
   * pages are not cut short by the chunk size.
   */
  ghost predicate PagerOk<V>(e: Pager<V>, rows: seq<V>) {
    && e.hasSource && 0 <= e.offset && 1 <= e.fetchSize
    && 0 <= e.total <= |Chunk(e, rows)|
    && (e.exhausted ==> e.total == |Chunk(e, rows)|)
    && (!e.exhausted && e.page.None? ==> e.fetchPos == 0 && e.total == 0)
    && (!e.exhausted && e.page.Some? ==>
          && 1 <= e.fetchPos
          && var c := e.page.value;
          var start := e.offset + Mul(e.fetchPos - 1, e.fetchSize);
          && c.items == Window(rows, start, Min(e.fetchSize, e.chunkSize))
          && c.index <= |c.items|
          && start + c.index == e.offset + e.total
          && (e.chunkSize < e.fetchSize ==> e.fetchPos == 1))
  }

  lemma {:induction false} NextStart(offset: int, p: nat, f: int)
    requires 1 <= p && 1 <= f
    ensures offset + Mul(p, f) == offset + Mul(p - 1, f) + f
    ensures offset <= offset + Mul(p - 1, f)
    decreases p
  {
    if p > 1 {
      NextStart(offset, p - 1, f);
    }
  }

  /** With the page used up before the end of the chunk, the next page starts at the chunk's next row. */
  lemma NextPageRow<V>(e: Pager<V>, rows: seq<V>)
    requires PagerOk(e, rows) && !e.exhausted && e.total < |Chunk(e, rows)|
    requires !(e.page.Some? && e.page.value.index < |e.page.value.items|)
    ensures 0 < |Window(rows, e.offset + Mul(e.fetchPos, e.fetchSize), Min(e.fetchSize, e.chunkSize))|
    ensures Window(rows, e.offset + Mul(e.fetchPos, e.fetchSize), Min(e.fetchSize, e.chunkSize))[0] == rows[e.offset + e.total]
    ensures Mul(e.fetchPos, e.fetchSize) == e.total
    ensures e.chunkSize < e.fetchSize ==> e.fetchPos == 0
  {
    if e.page.Some? {
      NextStart(e.offset, e.fetchPos, e.fetchSize);
      FullPageBefore(rows, e.page.value.items, e.offset + Mul(e.fetchPos - 1, e.fetchSize), e.offset, e.total,
                     e.fetchSize, e.chunkSize, e.fetchPos);
    } else {
      FirstPageRow(rows, e.offset, e.fetchSize, e.chunkSize);
    }
  }

  /** A page used up before the end of the chunk was full, and the next page starts at the chunk's next row. */
  lemma FullPageBefore<V>(rows: seq<V>, items: seq<V>, start: int, offset: int, total: int, fetch: int, chunkSize: int, p: nat)
    requires 0 <= offset && 1 <= fetch && 1 <= p
    requires start == offset + Mul(p - 1, fetch) && offset + Mul(p, fetch) == start + fetch && offset <= start
    requires items == Window(rows, start, Min(fetch, chunkSize)) && start + |items| == offset + total
    requires 0 <= total < |Window(rows, offset, chunkSize)|
    requires chunkSize < fetch ==> p == 1
    ensures var next := Window(rows, offset + Mul(p, fetch), Min(fetch, chunkSize));
            && 0 < |next| && next[0] == rows[offset + total]
            && Mul(p, fetch) == total
            && fetch <= chunkSize
  {
    assert offset + total < |rows| && start < |rows|;
    assert |items| == Min(fetch, chunkSize);
  }

  lemma FirstPageRow<V>(rows: seq<V>, offset: int, fetch: int, chunkSize: int)
    requires 0 <= offset && 1 <= fetch && 0 < |Window(rows, offset, chunkSize)|
    ensures var next := Window(rows, offset + Mul(0, fetch), Min(fetch, chunkSize));
            && 0 < |next| && next[0] == rows[offset]
            && Mul(0, fetch) == 0
  {
  }

  /** At the end of the chunk no page has a row left, and the next page is empty. */
  lemma NoRowLeft<V>(e: Pager<V>, rows: seq<V>)
    requires PagerOk(e, rows) && !e.exhausted && e.total == |Chunk(e, rows)| && e.total != e.chunkSize
    ensures !(e.page.Some? && e.page.value.index < |e.page.value.items|)
    ensures |Window(rows, e.offset + Mul(e.fetchPos, e.fetchSize), Min(e.fetchSize, e.chunkSize))| == 0
  {
    var next := e.offset + Mul(e.fetchPos, e.fetchSize);
    if e.page.Some? {
      var c := e.page.value;
      var start := e.offset + Mul(e.fetchPos - 1, e.fetchSize);
      NextStart(e.offset, e.fetchPos, e.fetchSize);
      assert next == start + e.fetchSize;
    } else {
      assert next == e.offset;
    }
  }

  /** The chunk is never longer than the chunk size. */
  lemma ChunkBound<V>(e: Pager<V>, rows: seq<V>)
    ensures |Chunk(e, rows)| <= Max(e.chunkSize, 0)
  {
  }

  /** MoveNext of an exhausted enumerator, or of one that has yielded its chunk size. */
  lemma MoveNextAtEnd<V>(e: Pager<V>, rows: seq<V>)
    requires PagerOk(e, rows) && (e.exhausted || e.total == e.chunkSize)
    ensures PagerOk(MoveNext(e, rows).0, rows)
    ensures e.total == |Chunk(e, rows)| && MoveNext(e, rows).1 == Ok(false)
  {
    ChunkBound(e, rows);
    assert MoveNext(e, rows).0 == e.(initialized := true, exhausted := true);
  }

  /** The state after taking the current page's next row. */
  function TakeRow<V>(e: Pager<V>): Pager<V>
    requires e.page.Some? && e.page.value.index < |e.page.value.items|
  {
    var c := e.page.value;
    e.(initialized := true, page := Some(c.(index := c.index + 1)), total := e.total + 1, current := Some(c.items[c.index]))
  }

  /** The state after fetching `items` as the next page. */
  function Fetched<V>(e: Pager<V>, items: seq<V>): Pager<V> {
    var e3 := e.(initialized := true, fetchPos := e.fetchPos + 1);
    if |items| == 0 then e3.(page := Some(PageCursor(items, 0)), current := None, exhausted := true)
    else e3.(page := Some(PageCursor(items, 1)), total := e3.total + 1, current := Some(items[0]))
  }

  lemma InPageShape<V>(e: Pager<V>, rows: seq<V>)
    requires e.hasSource && !e.exhausted && e.total != e.chunkSize
    requires e.page.Some? && e.page.value.index < |e.page.value.items|
    ensures MoveNext(e, rows) == (TakeRow(e), Ok(true))
  {
  }

  lemma FetchShape<V>(e: Pager<V>, rows: seq<V>)
    requires e.hasSource && !e.exhausted && e.total != e.chunkSize
    requires !(e.page.Some? && e.page.value.index < |e.page.value.items|)
    ensures var items := Window(rows, e.offset + Mul(e.fetchPos, e.fetchSize), Min(e.fetchSize, e.chunkSize));
            MoveNext(e, rows) == (Fetched(e, items), Ok(|items| != 0))
  {
  }

  /** A row of a page that lies inside the chunk is that row of the chunk. */
  lemma PageRow<V>(rows: seq<V>, items: seq<V>, start: int, index: int, offset: int, total: int, fetch: int, chunkSize: int)
    requires 0 <= offset <= start && 0 <= total < chunkSize && 0 <= index < |items|
    requires items == Window(rows, start, Min(fetch, chunkSize)) && start + index == offset + total
    ensures total < |Window(rows, offset, chunkSize)|
    ensures items[index] == Window(rows, offset, chunkSize)[total]
  {
    assert items[index] == rows[start + index];
  }

  /** The page's next row is the chunk's next row. */
  lemma InPageRow<V>(e: Pager<V>, rows: seq<V>)
    requires PagerOk(e, rows) && !e.exhausted && e.total != e.chunkSize
    requires e.page.Some? && e.page.value.index < |e.page.value.items|
    ensures e.total < |Chunk(e, rows)|
    ensures e.page.value.items[e.page.value.index] == Chunk(e, rows)[e.total]
  {
    var c := e.page.value;
    NextStart(e.offset, e.fetchPos, e.fetchSize);
    ChunkBound(e, rows);
    PageRow(rows, c.items, e.offset + Mul(e.fetchPos - 1, e.fetchSize), c.index, e.offset, e.total, e.fetchSize, e.chunkSize);
  }

  lemma InPageOk<V>(e: Pager<V>, rows: seq<V>)
    requires PagerOk(e, rows) && !e.exhausted && e.total != e.chunkSize
    requires e.page.Some? && e.page.value.index < |e.page.value.items|
    ensures PagerOk(TakeRow(e), rows)
    ensures e.total < |Chunk(e, rows)|
    ensures TakeRow(e).current == Some(Chunk(e, rows)[e.total])
  {
    InPageRow(e, rows);
    var c := e.page.value;
    var e' := TakeRow(e);
    assert e'.page.value == PageCursor(c.items, c.index + 1);
    assert e'.total == e.total + 1 && e'.fetchPos == e.fetchPos && !e'.exhausted;
    assert Chunk(e', rows) == Chunk(e, rows);
  }

  /** MoveNext that takes the current page's next row. */
  lemma MoveNextInPage<V>(e: Pager<V>, rows: seq<V>)
    requires PagerOk(e, rows) && !e.exhausted && e.total != e.chunkSize
    requires e.page.Some? && e.page.value.index < |e.page.value.items|
    ensures PagerOk(MoveNext(e, rows).0, rows)
    ensures e.total < |Chunk(e, rows)| && MoveNext(e, rows).1 == Ok(true)
    ensures MoveNext(e, rows).0.current == Some(Chunk(e, rows)[e.total])
  {
    InPageShape(e, rows);
    InPageOk(e, rows);
  }

  /** A row `first` of the table past the offset but before the end of its page is a row of the chunk. */
  lemma ChunkFacts<V>(e: Pager<V>, rows: seq<V>, first: int)
    requires 0 <= e.offset && e.offset <= first < |rows| && first - e.offset < e.chunkSize
    ensures first - e.offset < |Chunk(e, rows)|
    ensures Chunk(e, rows)[first - e.offset] == rows[first]
  {
  }

  /** Fetching a page that starts at the chunk's next row. */
  lemma FetchRowOk<V>(e: Pager<V>, rows: seq<V>, items: seq<V>)
    requires e.hasSource && !e.exhausted && 0 <= e.offset && 1 <= e.fetchSize
    requires 0 <= e.total < |Chunk(e, rows)|
    requires Mul(e.fetchPos, e.fetchSize) == e.total
    requires e.chunkSize < e.fetchSize ==> e.fetchPos == 0
    requires items == Window(rows, e.offset + e.total, Min(e.fetchSize, e.chunkSize))
    requires 0 < |items| && items[0] == rows[e.offset + e.total]
    ensures PagerOk(Fetched(e, items), rows)
    ensures Fetched(e, items).current == Some(Chunk(e, rows)[e.total])
  {
    var e' := Fetched(e, items);
    assert Mul(e'.fetchPos - 1, e'.fetchSize) == Mul(e.fetchPos, e.fetchSize);
    ChunkFacts(e, rows, e.offset + e.total);
  }

  lemma FetchOk<V>(e: Pager<V>, rows: seq<V>)
    requires PagerOk(e, rows) && !e.exhausted && e.total != e.chunkSize
    requires !(e.page.Some? && e.page.value.index < |e.page.value.items|)
    ensures var items := Window(rows, e.offset + Mul(e.fetchPos, e.fetchSize), Min(e.fetchSize, e.chunkSize));
            && PagerOk(Fetched(e, items), rows)
            && (|items| != 0 <==> e.total < |Chunk(e, rows)|)
            && (|items| != 0 ==> Fetched(e, items).current == Some(Chunk(e, rows)[e.total]))
  {
    var items := Window(rows, e.offset + Mul(e.fetchPos, e.fetchSize), Min(e.fetchSize, e.chunkSize));
    if e.total < |Chunk(e, rows)| {
      NextPageRow(e, rows);
      FetchRowOk(e, rows, items);
    } else {
      NoRowLeft(e, rows);
    }
  }

  /** MoveNext that fetches the next page. */
  lemma MoveNextFetch<V>(e: Pager<V>, rows: seq<V>)
    requires PagerOk(e, rows) && !e.exhausted && e.total != e.chunkSize
    requires !(e.page.Some? && e.page.value.index < |e.page.value.items|)
    ensures PagerOk(MoveNext(e, rows).0, rows)
    ensures e.total < |Chunk(e, rows)| ==>
              && MoveNext(e, rows).1 == Ok(true)
              && MoveNext(e, rows).0.current == Some(Chunk(e, rows)[e.total])
    ensures e.total == |Chunk(e, rows)| ==> MoveNext(e, rows).1 == Ok(false)
  {
    FetchShape(e, rows);
    FetchOk(e, rows);
  }

  /**
   * One MoveNext keeps PagerOk. Before the end of the chunk it returns true and yields
   * the chunk's next row; at the end it returns false and the enumerator is exhausted.
   */
  lemma MoveNextKeepsPagerOk<V>(e: Pager<V>, rows: seq<V>)
    requires PagerOk(e, rows)
    ensures PagerOk(MoveNext(e, rows).0, rows)
    ensures e.total < |Chunk(e, rows)| ==>
              && MoveNext(e, rows).1 == Ok(true)
              && MoveNext(e, rows).0.current == Some(Chunk(e, rows)[e.total])
    ensures e.total == |Chunk(e, rows)| ==> MoveNext(e, rows).1 == Ok(false)
  {
    if e.exhausted || e.total == e.chunkSize {
      MoveNextAtEnd(e, rows);
    } else if e.page.Some? && e.page.value.index < |e.page.value.items| {
      MoveNextInPage(e, rows);
    } else {
      MoveNextFetch(e, rows);
    }
  }

  /** The enumerator after `j` MoveNext calls, whatever they returned. */
  function Iterate<V>(e: Pager<V>, rows: seq<V>, j: nat): Pager<V>
    decreases j
  {
    if j == 0 then e else Iterate(MoveNext(e, rows).0, rows, j - 1)
  }

  /** One call from an enumerator in PagerOk that has yielded `t` rows of its chunk `w`. */
  lemma NextFacts<V>(x: Pager<V>, rows: seq<V>, w: seq<V>, t: int)
    requires PagerOk(x, rows) && w == Chunk(x, rows) && t == x.total
    ensures PagerOk(MoveNext(x, rows).0, rows) && Chunk(MoveNext(x, rows).0, rows) == w
    ensures t < |w| ==> && MoveNext(x, rows).1 == Ok(true)
                        && MoveNext(x, rows).0.total == t + 1
                        && MoveNext(x, rows).0.current == Some(w[t])
    ensures t == |w| ==> MoveNext(x, rows).1 == Ok(false)
  {
    MoveNextKeepsPagerOk(x, rows);
  }

  /** While the chunk lasts, every call keeps PagerOk and yields one more row. */
  lemma {:induction false} IterateOk<V>(e: Pager<V>, rows: seq<V>, j: nat, w: seq<V>, t: int)
    requires PagerOk(e, rows) && w == Chunk(e, rows) && t == e.total + j && t <= |w|
    ensures PagerOk(Iterate(e, rows, j), rows)
    ensures Chunk(Iterate(e, rows, j), rows) == w
    ensures Iterate(e, rows, j).total == t
    decreases j
  {
    if j > 0 {
      NextFacts(e, rows, w, e.total);
      IterateOk(MoveNext(e, rows).0, rows, j - 1, w, t);
    }
  }

  /** The call after `j` calls: the chunk's row number `total + j`, or false at its end. */
  lemma CallAfter<V>(e: Pager<V>, rows: seq<V>, j: nat, w: seq<V>, t: int)
    requires PagerOk(e, rows) && w == Chunk(e, rows) && t == e.total + j && t <= |w|
    ensures t < |w| ==> && MoveNext(Iterate(e, rows, j), rows).1 == Ok(true)
                        && MoveNext(Iterate(e, rows, j), rows).0.current == Some(w[t])
    ensures t == |w| ==> MoveNext(Iterate(e, rows, j), rows).1 == Ok(false)
  {
    IterateOk(e, rows, j, w, t);
    NextFacts(Iterate(e, rows, j), rows, w, t);
  }

  /**
   * An enumerator over a table yields exactly its chunk, `rows[offset .. offset +
   * chunkSize]` cut at the table's end, in order, one row per MoveNext; the next call
   * returns false. This holds for either template's enumerator, for every chunk size,
   * once the offset is not negative and the fetch size is positive.
   */
  lemma EnumeratorYieldsChunk<V>(hibernate: bool, fetchSize: int, offset: int, chunkSize: int, rows: seq<V>)
    requires 0 <= offset && 1 <= fetchSize
    ensures var e := NewPager<V>(hibernate, true, fetchSize, offset, chunkSize);
            var w := Window(rows, offset, chunkSize);
            && (forall j: nat :: j < |w| ==>
                  && MoveNext(Iterate(e, rows, j), rows).1 == Ok(true)
                  && MoveNext(Iterate(e, rows, j), rows).0.current == Some(w[j]))
            && MoveNext(Iterate(e, rows, |w|), rows).1 == Ok(false)
  {
    var e := NewPager<V>(hibernate, true, fetchSize, offset, chunkSize);
    var w := Window(rows, offset, chunkSize);
    forall j: nat | j < |w|
      ensures MoveNext(Iterate(e, rows, j), rows).1 == Ok(true)
      ensures MoveNext(Iterate(e, rows, j), rows).0.current == Some(w[j])
    {
      CallAfter(e, rows, j, w, j);
    }
    CallAfter(e, rows, |w|, w, |w|);
  }

  /**
   * The enumerator over a whole table or query yields its rows in order, one per
   * MoveNext, up to int.MaxValue of them; the next call returns false.
   */
  lemma WholePagerYieldsTable<V>(hibernate: bool, fetchSize: int, rows: seq<V>)
    requires 1 <= fetchSize
    ensures var e := NewWholePager<V>(hibernate, true, fetchSize);
            var n := Min(|rows|, Int32Max);
            && (forall j: nat :: j < n ==>
                  && MoveNext(Iterate(e, rows, j), rows).1 == Ok(true)
                  && MoveNext(Iterate(e, rows, j), rows).0.current == Some(rows[j]))
            && MoveNext(Iterate(e, rows, n), rows).1 == Ok(false)
  {
    EnumeratorYieldsChunk<V>(hibernate, fetchSize, 0, Int32Max, rows);
    var w := Window(rows, 0, Int32Max);
    assert |w| == Min(|rows|, Int32Max);
  }

  /**
   * Ordered by identifier, the two templates order by the same member when the type
   * has a key: its first one. Otherwise the NHibernate criteria stay unordered, while
   * the Entity Framework query is still ordered by the type's first member, if any.
   */
  lemma OrderKeysAgree(id: string, rest: seq<string>, members: seq<string>, idProperty: Option<string>)
    ensures HibernateOrderKey(true, Some(id)) == OrderKey(true, [id] + rest, members) == Some(id)
    ensures HibernateOrderKey(false, idProperty).None?
    ensures OrderKey(false, [id] + rest, members).Some? <==> |members| > 0
    ensures OrderKey(true, [], members) == OrderKey(false, [id] + rest, members)
  {
  }

  /** Once exhausted, an enumerator returns false to every later MoveNext and stays as it is. */
  lemma {:induction false} ExhaustedIsSticky<V>(e: Pager<V>, rows: seq<V>, j: nat)
    requires e.initialized && e.exhausted
    ensures Iterate(e, rows, j) == e
    ensures MoveNext(Iterate(e, rows, j), rows) == (e, Ok(false))
    decreases j
  {
    if j > 0 {
      assert MoveNext(e, rows).0 == e;
      ExhaustedIsSticky(e, rows, j - 1);
    }
  }

  /** A fetch size that is not positive fetches empty pages: the enumerator yields nothing. */
  lemma NonPositiveFetchYieldsNothing<V>(hibernate: bool, fetchSize: int, offset: int, chunkSize: int, rows: seq<V>)
    requires fetchSize <= 0
    ensures MoveNext(NewPager<V>(hibernate, true, fetchSize, offset, chunkSize), rows).1 == Ok(false)
  {
  }

  /**
   * Without an entity type or a query, the NHibernate enumerator's first MoveNext
   * throws the construction error and the next one dereferences the missing criteria;
   * the Entity Framework one dereferences its missing query at once.
   */
  lemma NoSourceFails<V>(hibernate: bool, fetchSize: int, offset: int, chunkSize: int, rows: seq<V>)
    requires chunkSize != 0
    ensures var (e1, r1) := MoveNext(NewPager<V>(hibernate, false, fetchSize, offset, chunkSize), rows);
            && r1 == (if hibernate then Err(ConstructionError) else Err(NullReference))
            && (hibernate ==> MoveNext(e1, rows).1 == Err(NullReference))
  {
  }
}

=== FILE: sql_rewrite.dfy ===
/**
 * The string rewriting `EFManager` applies to a GigaSpaces SQL query before it is
 * handed to Entity Framework (templates/basic-persistency-ef/src/My_App/EntityFramework/EFManager.cs).
 *
 * GigaSpaces passes queries such as "FROM EFEdsTest.Model.Entities.Student WHERE Id = ?":
 * positional `?` parameters and a fully qualified class name after the last `From `.
 * The rewriting numbers the parameters `{0}`, `{1}`, ..., finds the table token,
 * replaces it with the real table name and makes the text a `select *` query.
 */
module SqlRewrite {
  import opened Exceptions

  /** A GigaSpaces query: its positional parameters and its text. */
  datatype Query<P> = Query(parameters: seq<P>, sql: string)

  // ---------------------------------------------------------------------------
  // Ordinal, case-insensitive comparison (ASCII letters fold to upper case)
  // ---------------------------------------------------------------------------

  function Fold(c: char): char {
    if 'a' <= c <= 'z' then (c as int - 32) as char else c
  }

  /** `pat` occurs in `s` at index `j`, ignoring the case of ASCII letters. */
  predicate MatchAt(s: string, j: int, pat: string) {
    0 <= j && j + |pat| <= |s| && forall k :: 0 <= k < |pat| ==> Fold(s[j + k]) == Fold(pat[k])
  }

  /** The largest `j <= n` at which `pat` matches, or -1. */
  function LastMatchAtOrBefore(s: string, pat: string, n: int): (r: int)
    decreases n + 1
    ensures -1 <= r && (0 <= n ==> r <= n) && (n < 0 ==> r == -1)
    ensures 0 <= r ==> MatchAt(s, r, pat)
    ensures forall j :: r < j <= n ==> !MatchAt(s, j, pat)
  {
    if n < 0 then -1 else if MatchAt(s, n, pat) then n else LastMatchAtOrBefore(s, pat, n - 1)
  }

  /** String.LastIndexOf(pat, StringComparison.OrdinalIgnoreCase). */
  function LastIndexOfIgnoreCase(s: string, pat: string): (r: int)
    ensures -1 <= r <= |s|
    ensures 0 <= r ==> MatchAt(s, r, pat)
    ensures forall j :: r < j ==> !MatchAt(s, j, pat)
  {
    LastMatchAtOrBefore(s, pat, |s|)
  }

  /** String.IndexOf(c, start): ArgumentOutOfRange unless `0 <= start <= |s|`, -1 when absent. */
  function IndexOfChar(s: string, c: char, start: int): (r: Result<int>)
    decreases |s| - start
    ensures r.Err? <==> start < 0 || |s| < start
    ensures r.Err? ==> r.error == ArgumentOutOfRange
    ensures r.Ok? && 0 <= r.value ==> start <= r.value < |s| && s[r.value] == c
    ensures r.Ok? ==> r.value == -1 || 0 <= r.value
    ensures r.Ok? ==> forall k :: start <= k < |s| && (r.value < 0 || k < r.value) ==> s[k] != c
  {
    if start < 0 || |s| < start then Err(ArgumentOutOfRange)
    else if start == |s| then Ok(-1)
    else if s[start] == c then Ok(start)
    else IndexOfChar(s, c, start + 1)
  }

  /** String.Substring(start, length). */
  function Substring(s: string, start: int, length: int): (r: Result<string>)
    ensures r.Ok? <==> 0 <= start && 0 <= length && start + length <= |s|
    ensures r.Ok? ==> r.value == s[start..start + length]
    ensures r.Err? ==> r.error == ArgumentOutOfRange
  {
    if 0 <= start && 0 <= length && start + length <= |s| then Ok(s[start..start + length])
    else Err(ArgumentOutOfRange)
  }

  /** String.LastIndexOf(c) for a character known to occur. */
  function LastIndexOfChar(s: string, c: char): (r: nat)
    requires c in s
    ensures r < |s| && s[r] == c && c !in s[r + 1..]
  {
    if s[|s| - 1] == c then |s| - 1
    else
      assert c in s[..|s| - 1] by {
        var k :| 0 <= k < |s| && s[k] == c;
        assert s[..|s| - 1][k] == c;
      }
      LastIndexOfChar(s[..|s| - 1], c)
  }

  // ---------------------------------------------------------------------------
  // Table name extraction (EFManager.ParseTableNameFromSql, GetPossibleTableRealNames)
  // ---------------------------------------------------------------------------

  /** The part of a qualified name after its last '.'; the whole name when it has none. */
  function AfterLastDot(t: string): (r: string)
    ensures '.' !in r
    ensures |r| <= |t| && r == t[|t| - |r|..]
    ensures '.' in t ==> t[|t| - |r| - 1] == '.'
    ensures '.' !in t ==> r == t
  {
    if '.' in t then t[LastIndexOfChar(t, '.') + 1..] else t
  }

  /**
   * The table token of a query: it starts 5 characters after the last
   * case-insensitive "From " (at index 4 when there is none) and runs to the
   * next space. Without such a space `Substring` gets a negative length and throws.
   */
  function TableToken(sql: string): (r: Result<string>)
    ensures r.Ok? ==> '.' !in r.value && ' ' !in r.value
    ensures r.Err? ==> r.error == ArgumentOutOfRange
  {
    TokenAt(sql, LastIndexOfIgnoreCase(sql, FromKeyword) + 5)
  }

  const FromKeyword := "From "

  /** The text from `start` up to the next space, reduced to its part after the last '.'. */
  function TokenAt(sql: string, start: int): (r: Result<string>)
    ensures r.Ok? ==> '.' !in r.value && ' ' !in r.value
    ensures r.Err? ==> r.error == ArgumentOutOfRange
  {
    var end :- IndexOfChar(sql, ' ', start);
    var token :- Substring(sql, start, end - start);
    SliceLacks(sql, start, end, ' ');
    var r := AfterLastDot(token);
    SuffixLacks(token, r, ' ');
    Ok(r)
  }

  lemma SliceLacks(s: string, a: int, b: int, c: char)
    requires 0 <= a <= b <= |s|
    requires forall k :: a <= k < |s| && k < b ==> s[k] != c
    ensures c !in s[a..b]
  {
    forall k | 0 <= k < b - a ensures s[a..b][k] != c {
      assert s[a..b][k] == s[a + k];
    }
  }

  lemma SuffixLacks(t: string, r: string, c: char)
    requires c !in t && |r| <= |t| && r == t[|t| - |r|..]
    ensures c !in r
  {
    forall k | 0 <= k < |r| ensures r[k] != c {
      assert r[k] == t[|t| - |r| + k];
    }
  }

  predicate EndsWithS(name: string) {
    |name| > 0 && name[|name| - 1] == 's'
  }

  /** The two names a table may have: the token itself, then its singular or plural. */
  function CandidateNames(name: string): (r: seq<string>)
    ensures |r| == 2 && r[0] == name
  {
    [name, if EndsWithS(name) then name[..|name| - 1] else name + "s"]
  }

  function ParseTableNameFromSql(sql: string): (r: Result<seq<string>>)
    ensures r.Ok? <==> TableToken(sql).Ok?
    ensures r.Ok? ==> r.value == CandidateNames(TableToken(sql).value)
  {
    var token :- TableToken(sql);
    Ok(CandidateNames(token))
  }

  /** The two candidates differ by exactly one trailing 's', in one direction or the other. */
  lemma CandidatesDifferByTrailingS(name: string)
    ensures var r := CandidateNames(name);
      (r[0] == r[1] + "s" && EndsWithS(name)) || (r[1] == r[0] + "s" && !EndsWithS(name))
  {
  }

  /** The mapped value of the first name present in `m`, if any (EFManager.GetEntityTypeFromSqlQuery's loop). */
  function FirstMapped<T>(names: seq<string>, m: map<string, T>): (r: Option<T>)
    ensures r.None? <==> forall i :: 0 <= i < |names| ==> names[i] !in m
    ensures r.Some? ==> exists i :: 0 <= i < |names| && names[i] in m && m[names[i]] == r.value
                                     && forall j :: 0 <= j < i ==> names[j] !in m
  {
    if |names| == 0 then None
    else if names[0] in m then Some(m[names[0]])
    else
      var r := FirstMapped(names[1..], m);
      if r.Some? then
        ghost var i :| 0 <= i < |names[1..]| && names[1..][i] in m && m[names[1..][i]] == r.value
                       && forall j :: 0 <= j < i ==> names[1..][j] !in m;
        assert names[i + 1] in m && m[names[i + 1]] == r.value;
        r
      else r
  }

  function GetEntityTypeFromSqlQuery<T>(sql: string, tableToType: map<string, T>): (r: Result<Option<T>>)
    ensures r.Ok? <==> TableToken(sql).Ok?
    ensures r.Ok? ==> r.value == FirstMapped(CandidateNames(TableToken(sql).value), tableToType)
  {
    var names :- ParseTableNameFromSql(sql);
    Ok(FirstMapped(names, tableToType))
  }

  // ---------------------------------------------------------------------------
  // Parameter stubs (EFManager.UpdateSqlQueryParameterStubs)
  // ---------------------------------------------------------------------------

  function DigitChar(d: nat): char
    requires d < 10
  {
    ('0' as int + d) as char
  }

  /** Int32.ToString() of a non-negative number. */
  function Decimal(n: nat): (r: string)
    ensures |r| >= 1
    ensures forall k :: 0 <= k < |r| ==> '0' <= r[k] <= '9'
  {
    if n < 10 then [DigitChar(n)] else Decimal(n / 10) + [DigitChar(n % 10)]
  }

  function ParseDecimal(s: string): nat
    requires forall k :: 0 <= k < |s| ==> '0' <= s[k] <= '9'
  {
    if |s| == 0 then 0 else 10 * ParseDecimal(s[..|s| - 1]) + (s[|s| - 1] as int - '0' as int)
  }

  /** The number written into a placeholder reads back as the same number. */
  lemma {:induction false} DecimalRoundTrip(n: nat)
    ensures ParseDecimal(Decimal(n)) == n
  {
    if n >= 10 {
      DecimalRoundTrip(n / 10);
      var d := Decimal(n);
      assert d[..|d| - 1] == Decimal(n / 10);
    }
  }

  function Placeholder(k: nat): string {
    "{" + Decimal(k) + "}"
  }

  function CountChar(s: string, c: char): nat {
    if |s| == 0 then 0 else (if s[0] == c then 1 else 0) + CountChar(s[1..], c)
  }

  /** The reference definition: the k-th '?' from the left becomes `{k}`, everything else is kept. */
  function StubsFrom(q: string, k: nat): string {
    if |q| == 0 then ""
    else if q[0] == '?' then Placeholder(k) + StubsFrom(q[1..], k + 1)
    else [q[0]] + StubsFrom(q[1..], k)
  }

  lemma {:induction false} StubsFromHasNoQuestionMark(q: string, k: nat)
    ensures '?' !in StubsFrom(q, k)
  {
    if |q| > 0 {
      StubsFromHasNoQuestionMark(q[1..], if q[0] == '?' then k + 1 else k);
      if q[0] == '?' {
        assert '?' !in Placeholder(k);
      }
    }
  }

  lemma CountCharAppend(a: string, b: string, c: char)
    ensures CountChar(a + b, c) == CountChar(a, c) + CountChar(b, c)
  {
    if |a| > 0 {
      assert (a + b)[0] == a[0];
      assert (a + b)[1..] == a[1..] + b;
      CountCharAppend(a[1..], b, c);
    } else {
      assert a + b == b;
    }
  }

  lemma CountCharDigits(s: string, c: char)
    requires forall k :: 0 <= k < |s| ==> '0' <= s[k] <= '9'
    requires !('0' <= c <= '9')
    ensures CountChar(s, c) == 0
  {
    if |s| > 0 {
      CountCharDigits(s[1..], c);
    }
  }

  /** Every '?' opens exactly one placeholder: the '{' count grows by the '?' count, and '}' likewise. */
  lemma {:induction false} StubsFromCountsPlaceholders(q: string, k: nat)
    ensures CountChar(StubsFrom(q, k), '{') == CountChar(q, '{') + CountChar(q, '?')
    ensures CountChar(StubsFrom(q, k), '}') == CountChar(q, '}') + CountChar(q, '?')
  {
    if |q| > 0 {
      var k' := if q[0] == '?' then k + 1 else k;
      StubsFromCountsPlaceholders(q[1..], k');
      var head := if q[0] == '?' then Placeholder(k) else [q[0]];
      assert StubsFrom(q, k) == head + StubsFrom(q[1..], k');
      CountCharAppend(head, StubsFrom(q[1..], k'), '{');
      CountCharAppend(head, StubsFrom(q[1..], k'), '}');
      if q[0] == '?' {
        CountCharDigits(Decimal(k), '{');
        CountCharDigits(Decimal(k), '}');
        CountCharAppend("{", Decimal(k), '{');
        CountCharAppend("{" + Decimal(k), "}", '{');
        CountCharAppend("{", Decimal(k), '}');
        CountCharAppend("{" + Decimal(k), "}", '}');
      }
    }
  }

  /** Stubbing a concatenation: the numbering of the second part continues from the first part's '?' count. */
  lemma {:induction false} StubsFromAppend(a: string, b: string, k: nat)
    ensures StubsFrom(a + b, k) == StubsFrom(a, k) + StubsFrom(b, k + CountChar(a, '?'))
  {
    if |a| > 0 {
      var k' := if a[0] == '?' then k + 1 else k;
      assert (a + b)[0] == a[0];
      assert (a + b)[1..] == a[1..] + b;
      StubsFromAppend(a[1..], b, k');
      assert CountChar(a, '?') == (if a[0] == '?' then 1 else 0) + CountChar(a[1..], '?');
      var head := if a[0] == '?' then Placeholder(k) else [a[0]];
      assert StubsFrom(a + b, k) == head + StubsFrom(a[1..] + b, k');
      assert StubsFrom(a, k) == head + StubsFrom(a[1..], k');
    } else {
      assert a + b == b;
    }
  }

  /** The k-th '?' of the query (0-based, left to right) is replaced by `{k}`. */
  lemma KthQuestionMarkBecomesPlaceholder(a: string, b: string)
    ensures StubsFrom(a + "?" + b, 0)
         == StubsFrom(a, 0) + Placeholder(CountChar(a, '?')) + StubsFrom(b, CountChar(a, '?') + 1)
  {
    StubsFromAppend(a, "?" + b, 0);
    assert ("?" + b)[1..] == b;
    assert a + "?" + b == a + ("?" + b);
  }

  /** The text after the first occurrence of `c`, if `c` occurs. */
  function AfterFirst(s: string, c: char): (r: Option<string>)
    ensures r.None? <==> c !in s
    ensures r.Some? ==> |r.value| < |s|
  {
    if |s| == 0 then None
    else if s[0] == c then Some(s[1..])
    else
      var r := AfterFirst(s[1..], c);
      assert r.None? <==> c !in s[1..];
      assert c !in s[1..] <==> c !in s;
      r
  }

  lemma {:induction false} AfterFirstPastPrefix(d: string, c: char, rest: string)
    requires c !in d
    ensures AfterFirst(d + [c] + rest, c) == Some(rest)
  {
    if |d| > 0 {
      assert (d + [c] + rest)[1..] == d[1..] + [c] + rest;
      AfterFirstPastPrefix(d[1..], c, rest);
    }
  }

  /** Undo the stubs: every `{...}` group becomes '?' again. */
  function RestoreStubs(s: string): string
    decreases |s|
  {
    if |s| == 0 then ""
    else if s[0] == '{' then
      match AfterFirst(s[1..], '}')
      case None => s
      case Some(t) => "?" + RestoreStubs(t)
    else [s[0]] + RestoreStubs(s[1..])
  }

  lemma RestorePlaceholder(k: nat, rest: string)
    ensures RestoreStubs(Placeholder(k) + rest) == "?" + RestoreStubs(rest)
  {
    var d := Decimal(k);
    var s := Placeholder(k) + rest;
    assert s[0] == '{';
    assert s[1..] == d + ['}'] + rest;
    assert '}' !in d;
    AfterFirstPastPrefix(d, '}', rest);
  }

  lemma RestoreKeep(c: char, rest: string)
    requires c != '{'
    ensures RestoreStubs([c] + rest) == [c] + RestoreStubs(rest)
  {
    assert ([c] + rest)[1..] == rest;
  }

  /** Round trip: a query without '{' is recovered from its stubbed form. */
  lemma {:induction false} StubsRoundTrip(q: string, k: nat)
    requires '{' !in q
    ensures RestoreStubs(StubsFrom(q, k)) == q
  {
    if |q| > 0 {
      var k' := if q[0] == '?' then k + 1 else k;
      assert '{' !in q[1..];
      StubsRoundTrip(q[1..], k');
      RoundTripHead(q, k);
    }
  }

  /** The first character of the query comes back in front of the restored rest. */
  lemma RoundTripHead(q: string, k: nat)
    requires 0 < |q| && q[0] != '{'
    ensures RestoreStubs(StubsFrom(q, k)) == [q[0]] + RestoreStubs(StubsFrom(q[1..], if q[0] == '?' then k + 1 else k))
  {
    if q[0] == '?' {
      RestorePlaceholder(k, StubsFrom(q[1..], k + 1));
    } else {
      RestoreKeep(q[0], StubsFrom(q[1..], k));
    }
  }

  /**
   * EFManager.UpdateSqlQueryParameterStubs as the C# loop runs it: an index walks
   * a growing buffer, and a '?' under the index is replaced in place by `{k}`.
   */
  method UpdateSqlQueryParameterStubs(query: string) returns (r: string)
    ensures r == StubsFrom(query, 0)
    ensures '?' !in r
    ensures CountChar(r, '{') == CountChar(query, '{') + CountChar(query, '?')
  {
    var sb := query;
    var paramIndex: nat := 0;
    var stringIndex := 0;
    ghost var consumed := 0;    // characters of `query` already rewritten
    ghost var outLen: nat := 0;     // length of the rewritten prefix of `sb`
    while stringIndex < |sb|
      invariant 0 <= consumed <= |query|
      invariant |sb| == outLen + (|query| - consumed)
      invariant sb[outLen..] == query[consumed..]
      invariant StubsFrom(query, 0) == sb[..outLen] + StubsFrom(query[consumed..], paramIndex)
      invariant 0 <= stringIndex <= outLen
      invariant '?' !in sb[stringIndex..outLen]
      decreases |query| - consumed, outLen - stringIndex
    {
      if sb[stringIndex] == '?' {
        assert stringIndex == outLen;
        ReplaceStep(query, consumed, sb, outLen, paramIndex);
        sb := sb[..stringIndex] + Placeholder(paramIndex) + sb[stringIndex + 1..];
        outLen := stringIndex + |Placeholder(paramIndex)|;
        paramIndex := paramIndex + 1;
        consumed := consumed + 1;
      } else if stringIndex == outLen {
        KeepStep(query, consumed, sb, outLen, paramIndex);
        outLen := outLen + 1;
        consumed := consumed + 1;
      } else {
        assert sb[stringIndex + 1..outLen] == sb[stringIndex..outLen][1..];
      }
      stringIndex := stringIndex + 1;
    }
    assert sb[..outLen] == sb;
    r := sb;
    StubsFromHasNoQuestionMark(query, 0);
    StubsFromCountsPlaceholders(query, 0);
  }

  /** The loop step that replaces the '?' at the boundary of the rewritten prefix. */
  lemma ReplaceStep(query: string, consumed: nat, sb: string, outLen: nat, k: nat)
    requires consumed < |query| && |sb| == outLen + (|query| - consumed)
    requires sb[outLen..] == query[consumed..] && sb[outLen] == '?'
    requires StubsFrom(query, 0) == sb[..outLen] + StubsFrom(query[consumed..], k)
    ensures var sb' := sb[..outLen] + Placeholder(k) + sb[outLen + 1..];
            var outLen' := outLen + |Placeholder(k)|;
            && |sb'| == outLen' + (|query| - (consumed + 1))
            && sb'[outLen'..] == query[consumed + 1..]
            && StubsFrom(query, 0) == sb'[..outLen'] + StubsFrom(query[consumed + 1..], k + 1)
            && '?' !in sb'[outLen + 1..outLen']
  {
    var tail := query[consumed..];
    assert tail[0] == sb[outLen] && tail[1..] == query[consumed + 1..];
    var sb' := sb[..outLen] + Placeholder(k) + sb[outLen + 1..];
    var outLen' := outLen + |Placeholder(k)|;
    assert sb'[..outLen'] == sb[..outLen] + Placeholder(k);
    assert sb'[outLen'..] == sb[outLen + 1..];
    assert sb[outLen + 1..] == sb[outLen..][1..];
    assert sb'[outLen + 1..outLen'] == Placeholder(k)[1..];
    assert '?' !in Decimal(k);
  }

  /** The loop step that copies a non-'?' character at the boundary of the rewritten prefix. */
  lemma KeepStep(query: string, consumed: nat, sb: string, outLen: nat, k: nat)
    requires consumed < |query| && |sb| == outLen + (|query| - consumed)
    requires sb[outLen..] == query[consumed..] && sb[outLen] != '?'
    requires StubsFrom(query, 0) == sb[..outLen] + StubsFrom(query[consumed..], k)
    ensures sb[outLen + 1..] == query[consumed + 1..]
    ensures StubsFrom(query, 0) == sb[..outLen + 1] + StubsFrom(query[consumed + 1..], k)
  {
    var tail := query[consumed..];
    assert tail[0] == sb[outLen] && tail[1..] == query[consumed + 1..];
    assert sb[..outLen + 1] == sb[..outLen] + [tail[0]];
    assert sb[outLen + 1..] == sb[outLen..][1..];
  }

  // ---------------------------------------------------------------------------
  // Query rewriting (EFManager.UpdateQueryFormat)
  // ---------------------------------------------------------------------------

  function TrimStartSpaces(s: string): (r: string)
    ensures |r| <= |s| && r == s[|s| - |r|..]
    ensures |r| > 0 ==> r[0] != ' '
    ensures forall k :: 0 <= k < |s| - |r| ==> s[k] == ' '
  {
    if |s| > 0 && s[0] == ' ' then TrimStartSpaces(s[1..]) else s
  }

  const SelectAll := "select * "

  /**
   * Rewrites a query for Entity Framework: resolves its entity type, numbers its
   * parameters, replaces the table token with the real table name and prefixes
   * "select * " unless the text already starts with "select *" (ignoring case).
   * A query whose type cannot be resolved fails the way the dictionary lookup with a
   * null key does.
   */
  function UpdateQueryFormat<P, T>(query: Query<P>, tableToType: map<string, T>, typeToTable: map<T, string>)
    : (r: Result<Query<P>>)
    ensures r.Ok? ==> r.value.parameters == query.parameters
    ensures r.Ok? ==> MatchAt(r.value.sql, 0, "select *")
    ensures GetEntityTypeFromSqlQuery(query.sql, tableToType) == Ok(None) ==> r == Err(ArgumentNull)
    ensures TableToken(query.sql).Err? ==> r.Err?
  {
    var realType :- GetEntityTypeFromSqlQuery(query.sql, tableToType);
    if realType.None? then Err(ArgumentNull)
    else if realType.value !in typeToTable then Err(KeyNotFound)
    else
      var replaced :- ReplaceTableToken(StubsFrom(query.sql, 0), typeToTable[realType.value]);
      Ok(Query(query.parameters, SelectPrefixed(replaced)))
  }

  /**
   * Removes the table token after the last "From " and inserts `name` in its place;
   * fails exactly when reading the token fails.
   */
  function ReplaceTableToken(sql: string, name: string): (r: Result<string>)
    ensures r.Ok? <==> TableToken(sql).Ok?
    ensures r.Err? ==> r.error == ArgumentOutOfRange
  {
    var start := LastIndexOfIgnoreCase(sql, FromKeyword) + 5;
    var end :- IndexOfChar(sql, ' ', start);
    var tableNameInQuery :- Substring(sql, start, end - start);
    Ok(sql[..start] + name + sql[end..])
  }

  /** Makes the text a "select *" query: kept when it already is one, otherwise prefixed after trimming leading spaces. */
  function SelectPrefixed(text: string): (r: string)
    ensures MatchAt(r, 0, "select *")
    ensures MatchAt(text, 0, "select *") ==> r == text
    ensures !MatchAt(text, 0, "select *") ==> |SelectAll| <= |r| && r[..|SelectAll|] == SelectAll
  {
    if MatchAt(text, 0, "select *") then text
    else
      var prefixed := SelectAll + TrimStartSpaces(text);
      assert prefixed[..|SelectAll|] == SelectAll;
      prefixed
  }

  // ---------------------------------------------------------------------------
  // Round trip: the rewritten query still names its table, now the real one
  // ---------------------------------------------------------------------------

  /** A real table name that reads back as one token: no space, no '.', and not ending in "from". */
  predicate PlainTableName(t: string) {
    ' ' !in t && '.' !in t && !MatchAt(t + " ", |t| - 4, FromKeyword)
  }

  lemma MatchShift(x: string, y: string, j: int, pat: string)
    requires 0 <= j
    ensures MatchAt(x + y, |x| + j, pat) <==> MatchAt(y, j, pat)
  {
    if MatchAt(y, j, pat) {
      forall k | 0 <= k < |pat| ensures Fold((x + y)[|x| + j + k]) == Fold(pat[k]) {
        assert (x + y)[|x| + j + k] == y[j + k];
      }
    }
    if MatchAt(x + y, |x| + j, pat) {
      forall k | 0 <= k < |pat| ensures Fold(y[j + k]) == Fold(pat[k]) {
        assert (x + y)[|x| + j + k] == y[j + k];
      }
    }
  }

  lemma LastIndexShift(x: string, y: string, pat: string)
    requires 0 <= LastIndexOfIgnoreCase(y, pat)
    ensures LastIndexOfIgnoreCase(x + y, pat) == |x| + LastIndexOfIgnoreCase(y, pat)
  {
    var l := LastIndexOfIgnoreCase(y, pat);
    var r := LastIndexOfIgnoreCase(x + y, pat);
    MatchShift(x, y, l, pat);
    if r > |x| + l {
      MatchShift(x, y, r - |x|, pat);
    }
  }

  lemma {:induction false} IndexOfCharFinds(s: string, c: char, start: int, p: int)
    requires 0 <= start <= p < |s| && s[p] == c
    requires forall k :: start <= k < p ==> s[k] != c
    ensures IndexOfChar(s, c, start) == Ok(p)
    decreases p - start
  {
    if start < p {
      IndexOfCharFinds(s, c, start + 1, p);
    }
  }

  lemma TableTokenIsTokenAt(s: string, st: int)
    requires st == LastIndexOfIgnoreCase(s, FromKeyword) + 5
    ensures 5 <= st ==> st <= |s|
    ensures TableToken(s) == TokenAt(s, st)
  {
  }

  /** The token at `st` is the text from `st` up to the next space when that text has no '.'. */
  lemma TokenAtReads(s: string, st: int, t: string)
    requires 0 <= st && st + |t| < |s| && s[st + |t|] == ' '
    requires s[st..st + |t|] == t
    requires ' ' !in t
    ensures TokenAt(s, st) == Ok(AfterLastDot(t))
  {
    var e := st + |t|;
    forall k | st <= k < e ensures s[k] != ' ' {
      assert s[k] == s[st..e][k - st];
    }
    IndexOfCharFinds(s, ' ', st, e);
  }

  /**
   * The table token is read straight off the text after the last "From ", up to the
   * next space, and a namespace-qualified name is cut to its part after the last '.'.
   */
  lemma TableTokenReads(s: string, l: int, q: string)
    requires l == LastIndexOfIgnoreCase(s, FromKeyword) && 0 <= l
    requires l + 5 + |q| < |s| && s[l + 5 + |q|] == ' '
    requires s[l + 5..l + 5 + |q|] == q
    requires ' ' !in q
    ensures TableToken(s) == Ok(AfterLastDot(q))
    ensures '.' !in q ==> TableToken(s) == Ok(q)
  {
    var st := l + 5;
    TokenAtReads(s, st, q);
    TableTokenIsTokenAt(s, st);
  }

  /**
   * A query whose text after the last "From " is a token `q` and a space gives two
   * names: the part `t` of `q` after its last '.', and `t` with its trailing 's'
   * dropped or added.
   */
  lemma ParseTableNameReads(s: string, l: int, q: string)
    requires l == LastIndexOfIgnoreCase(s, FromKeyword) && 0 <= l
    requires l + 5 + |q| < |s| && s[l + 5 + |q|] == ' '
    requires s[l + 5..l + 5 + |q|] == q
    requires ' ' !in q
    ensures ParseTableNameFromSql(s).Ok?
    ensures var t := AfterLastDot(q);
            var names := ParseTableNameFromSql(s).value;
            && |names| == 2 && names[0] == t
            && (EndsWithS(t) ==> names[1] + "s" == t)
            && (!EndsWithS(t) ==> names[1] == t + "s")
  {
    TableTokenReads(s, l, q);
    CandidatesDifferByTrailingS(AfterLastDot(q));
  }

  /**
   * For such a query, the entity type is the one mapped to `t`, or else the one mapped
   * to its singular or plural, or none.
   */
  lemma EntityTypeFromReadsTable<T>(s: string, l: int, q: string, m: map<string, T>)
    requires l == LastIndexOfIgnoreCase(s, FromKeyword) && 0 <= l
    requires l + 5 + |q| < |s| && s[l + 5 + |q|] == ' '
    requires s[l + 5..l + 5 + |q|] == q
    requires ' ' !in q
    ensures var t := AfterLastDot(q);
            var other := CandidateNames(t)[1];
            && (t in m ==> GetEntityTypeFromSqlQuery(s, m) == Ok(Some(m[t])))
            && (t !in m && other in m ==> GetEntityTypeFromSqlQuery(s, m) == Ok(Some(m[other])))
            && (t !in m && other !in m ==> GetEntityTypeFromSqlQuery(s, m) == Ok(None))
  {
    TableTokenReads(s, l, q);
    FirstMappedCandidates(AfterLastDot(q), m);
  }

  /** The first mapped of a name's two candidates: the name itself, else the other one. */
  lemma FirstMappedCandidates<T>(t: string, m: map<string, T>)
    ensures var other := CandidateNames(t)[1];
            && (t in m ==> FirstMapped(CandidateNames(t), m) == Some(m[t]))
            && (t !in m && other in m ==> FirstMapped(CandidateNames(t), m) == Some(m[other]))
            && (t !in m && other !in m ==> FirstMapped(CandidateNames(t), m) == None)
  {
    var names := CandidateNames(t);
    assert names[1..] == [names[1]];
    assert names[1..][1..] == [];
  }

  lemma NoMatchAtSpace(s: string, j: int, k: int)
    requires 0 <= k < 4 && 0 <= j && j + k < |s| && s[j + k] == ' '
    ensures !MatchAt(s, j, FromKeyword)
  {
    assert Fold(s[j + k]) != Fold(FromKeyword[k]);
  }

  lemma NoMatchWithoutSpace(s: string, j: int)
    requires 0 <= j && j + 4 < |s| && s[j + 4] != ' '
    ensures !MatchAt(s, j, FromKeyword)
  {
    assert Fold(s[j + 4]) != Fold(FromKeyword[4]);
  }

  /** No "From " starts after the kept one once the token is replaced by a plain name. */
  lemma NoLaterMatch(sql: string, end: int, t: string, j: int)
    requires 0 <= LastIndexOfIgnoreCase(sql, FromKeyword)
    requires LastIndexOfIgnoreCase(sql, FromKeyword) + 5 <= end < |sql| && sql[end] == ' '
    requires PlainTableName(t)
    requires LastIndexOfIgnoreCase(sql, FromKeyword) < j
    ensures var start := LastIndexOfIgnoreCase(sql, FromKeyword) + 5;
            !MatchAt(sql[..start] + t + sql[end..], j, FromKeyword)
  {
    var l := LastIndexOfIgnoreCase(sql, FromKeyword);
    var start := l + 5;
    var r := sql[..start] + t + sql[end..];
    var e2 := start + |t|;
    assert r[e2] == ' ';
    if e2 <= j {
      MatchShift(sql[..start] + t, sql[end..], j - e2, FromKeyword);
      MatchShift(sql[..end], sql[end..], j - e2, FromKeyword);
      assert sql[..end] + sql[end..] == sql;
    } else if j + 4 < e2 {
      assert r[j + 4] == t[j + 4 - start];
      NoMatchWithoutSpace(r, j);
    } else if e2 - j < 4 {
      NoMatchAtSpace(r, j, e2 - j);
    } else if j < start {
      assert r[j] == sql[l + (j - l)];
      assert Fold(sql[l + (j - l)]) == Fold(FromKeyword[j - l]);
      assert Fold(r[j]) != Fold(FromKeyword[0]);
    } else {
      forall i | j <= i < j + 5 ensures r[i] == (t + " ")[i - start] {
      }
    }
  }

  /** Replacing the token after the last "From " by a plain name keeps that "From " the last one. */
  lemma TokenAfterReplacement(sql: string, end: int, t: string)
    requires 0 <= LastIndexOfIgnoreCase(sql, FromKeyword)
    requires LastIndexOfIgnoreCase(sql, FromKeyword) + 5 <= end < |sql| && sql[end] == ' '
    requires PlainTableName(t)
    ensures var l := LastIndexOfIgnoreCase(sql, FromKeyword);
            LastIndexOfIgnoreCase(sql[..l + 5] + t + sql[end..], FromKeyword) == l
  {
    var l := LastIndexOfIgnoreCase(sql, FromKeyword);
    var start := l + 5;
    var r := sql[..start] + t + sql[end..];
    assert MatchAt(r, l, FromKeyword) by {
      forall k | 0 <= k < 5 ensures Fold(r[l + k]) == Fold(FromKeyword[k]) {
        assert r[l + k] == sql[l + k];
      }
    }
    forall j | l < j
      ensures !MatchAt(r, j, FromKeyword)
    {
      NoLaterMatch(sql, end, t, j);
    }
  }

  /** Stubbing keeps every "From " of the query: '?' never takes part in a match. */
  lemma StubsKeepNoQuestionPrefix(x: string, y: string, k: nat)
    requires '?' !in x
    ensures StubsFrom(x + y, k) == x + StubsFrom(y, k)
  {
    StubsFromAppend(x, y, k);
    StubsFromIdentity(x, k);
    CountCharAbsent(x, '?');
  }

  lemma {:induction false} StubsFromIdentity(x: string, k: nat)
    requires '?' !in x
    ensures StubsFrom(x, k) == x
  {
    if |x| > 0 {
      StubsFromIdentity(x[1..], k);
      assert x == [x[0]] + x[1..];
    }
  }

  lemma {:induction false} CountCharAbsent(x: string, c: char)
    requires c !in x
    ensures CountChar(x, c) == 0
  {
    if |x| > 0 {
      CountCharAbsent(x[1..], c);
    }
  }

  lemma StubsKeepsFrom(q: string)
    requires 0 <= LastIndexOfIgnoreCase(q, FromKeyword)
    ensures 0 <= LastIndexOfIgnoreCase(StubsFrom(q, 0), FromKeyword)
  {
    var j := LastIndexOfIgnoreCase(q, FromKeyword);
    var window := q[j..j + 5];
    MatchSlice(q, j, FromKeyword);
    FromHasNoQuestionMark(window);
    assert q == q[..j] + (window + q[j + 5..]);
    StubsFromAppend(q[..j], window + q[j + 5..], 0);
    var c := CountChar(q[..j], '?');
    StubsKeepNoQuestionPrefix(window, q[j + 5..], c);
    var pre := StubsFrom(q[..j], 0);
    var post := window + StubsFrom(q[j + 5..], c);
    MatchPrefix(window, StubsFrom(q[j + 5..], c), FromKeyword);
    MatchShift(pre, post, 0, FromKeyword);
    LastIndexAtLeast(pre + post, FromKeyword, |pre|);
  }

  lemma MatchSlice(s: string, j: int, pat: string)
    requires MatchAt(s, j, pat)
    ensures MatchAt(s[j..j + |pat|], 0, pat)
  {
    forall k | 0 <= k < |pat| ensures Fold(s[j..j + |pat|][k]) == Fold(pat[k]) {
      assert s[j..j + |pat|][k] == s[j + k];
    }
  }

  lemma MatchPrefix(w: string, rest: string, pat: string)
    requires MatchAt(w, 0, pat)
    ensures MatchAt(w + rest, 0, pat)
  {
    forall k | 0 <= k < |pat| ensures Fold((w + rest)[k]) == Fold(pat[k]) {
      assert (w + rest)[k] == w[k];
    }
  }

  /** A text that reads "From " up to case has no '?'. */
  lemma FromHasNoQuestionMark(w: string)
    requires MatchAt(w, 0, FromKeyword) && |w| == 5
    ensures '?' !in w
  {
    forall k | 0 <= k < 5 ensures w[k] != '?' {
      assert Fold(w[k]) == Fold(FromKeyword[k]);
    }
  }

  /** After the replacement the last "From " stays where it was and is followed by `name` and a space. */
  lemma ReplacedTokenReads(sql: string, name: string)
    requires ReplaceTableToken(sql, name).Ok?
    requires 0 <= LastIndexOfIgnoreCase(sql, FromKeyword)
    requires PlainTableName(name)
    ensures var r := ReplaceTableToken(sql, name).value;
            var l := LastIndexOfIgnoreCase(sql, FromKeyword);
            && l == LastIndexOfIgnoreCase(r, FromKeyword)
            && l + 5 + |name| < |r| && r[l + 5 + |name|] == ' '
            && r[l + 5..l + 5 + |name|] == name
  {
    var l := LastIndexOfIgnoreCase(sql, FromKeyword);
    var start := l + 5;
    var end := IndexOfChar(sql, ' ', start).value;
    var r := sql[..start] + name + sql[end..];
    assert ReplaceTableToken(sql, name).value == r;
    TokenAfterReplacement(sql, end, name);
    assert r[start + |name|] == sql[end];
    assert r[start..start + |name|] == name;
  }

  /** Dropping the leading spaces and prefixing "select * " moves the last "From " and its token together. */
  lemma PrefixedTokenPosition(replaced: string, l: int, name: string, u: string, d: int) returns (lo: int)
    requires l == LastIndexOfIgnoreCase(replaced, FromKeyword) && 0 <= l
    requires l + 5 + |name| < |replaced| && replaced[l + 5 + |name|] == ' '
    requires replaced[l + 5..l + 5 + |name|] == name
    requires d == |replaced| - |u| && 0 <= d <= l
    requires LastIndexOfIgnoreCase(u, FromKeyword) == l - d
    requires forall i :: 0 <= i < |u| ==> u[i] == replaced[i + d]
    ensures var out := SelectAll + u;
            && lo == LastIndexOfIgnoreCase(out, FromKeyword) && 0 <= lo
            && lo + 5 + |name| < |out| && out[lo + 5 + |name|] == ' '
            && out[lo + 5..lo + 5 + |name|] == name
  {
    lo := PrefixedLast(u, l - d);
    ShiftedSlice(SelectAll, u, replaced, l, lo, d, |name|);
    ShiftedIndex(SelectAll, u, replaced, l, lo, d, |name|);
  }

  /** A slice of `replaced` past its first `d` characters reappears in `p + u` when `u` is `replaced` without them. */
  lemma ShiftedSlice(p: string, u: string, replaced: string, l: int, lo: int, d: int, n: int)
    requires 0 <= d <= l && 0 <= n && l + 5 + n <= |replaced| && lo == |p| + l - d
    requires d == |replaced| - |u|
    requires forall i :: 0 <= i < |u| ==> u[i] == replaced[i + d]
    ensures (p + u)[lo + 5..lo + 5 + n] == replaced[l + 5..l + 5 + n]
  {
    var out := p + u;
    var st := lo + 5;
    forall i | st <= i < st + n ensures out[i] == replaced[i - st + (l + 5)] {
      assert out[i] == u[i - |p|];
    }
    SlicesAgree(out, replaced, st, l + 5, n);
  }

  lemma ShiftedIndex(p: string, u: string, replaced: string, l: int, lo: int, d: int, n: int)
    requires 0 <= d <= l && 0 <= n && l + 5 + n < |replaced| && lo == |p| + l - d
    requires d == |replaced| - |u|
    requires forall i :: 0 <= i < |u| ==> u[i] == replaced[i + d]
    ensures |p + u| == |p| + |u| && lo + 5 + n < |p + u|
    ensures (p + u)[lo + 5 + n] == replaced[l + 5 + n]
  {
    var k := l + 5 + n;
    assert u[k - d] == replaced[k - d + d];
  }

  lemma PrefixedLast(u: string, lu: int) returns (lo: int)
    requires lu == LastIndexOfIgnoreCase(u, FromKeyword) && 0 <= lu
    ensures lo == 9 + lu == LastIndexOfIgnoreCase(SelectAll + u, FromKeyword)
  {
    LastIndexShift(SelectAll, u, FromKeyword);
    lo := 9 + lu;
  }

  lemma SlicesAgree(a: string, b: string, i: int, j: int, n: int)
    requires 0 <= i && 0 <= n && i + n <= |a| && 0 <= j && j + n <= |b|
    requires forall k :: i <= k < i + n ==> a[k] == b[k - i + j]
    ensures a[i..i + n] == b[j..j + n]
  {
    var x, y := a[i..i + n], b[j..j + n];
    forall k | 0 <= k < n ensures x[k] == y[k] {
      assert x[k] == a[k + i];
    }
  }

  /** Trimming the leading spaces removes `d` characters, all before the last "From ". */
  lemma TrimmedFrom(replaced: string, l: int) returns (d: int)
    requires l == LastIndexOfIgnoreCase(replaced, FromKeyword) && 0 <= l
    ensures d == |replaced| - |TrimStartSpaces(replaced)| && 0 <= d <= l
    ensures LastIndexOfIgnoreCase(TrimStartSpaces(replaced), FromKeyword) == l - d
    ensures forall i :: 0 <= i < |TrimStartSpaces(replaced)| ==> TrimStartSpaces(replaced)[i] == replaced[i + d]
  {
    var u := TrimStartSpaces(replaced);
    d := |replaced| - |u|;
    if l < d {
      NoMatchAtSpace(replaced, l, 0);
    }
    SplitAtSuffix(replaced, u);
    LastIndexInSuffix(replaced[..d], u, l - d, FromKeyword);
  }

  lemma SplitAtSuffix(s: string, u: string)
    requires |u| <= |s| && u == s[|s| - |u|..]
    ensures s == s[..|s| - |u|] + u
    ensures forall i :: 0 <= i < |u| ==> u[i] == s[i + (|s| - |u|)]
  {
  }

  /** The last match in `x + y`, when it lies in `y`, is also the last match of `y`, shifted. */
  lemma LastIndexInSuffix(x: string, y: string, j: int, pat: string)
    requires 0 <= j && LastIndexOfIgnoreCase(x + y, pat) == |x| + j
    ensures LastIndexOfIgnoreCase(y, pat) == j
  {
    MatchShift(x, y, j, pat);
    LastIndexAtLeast(y, pat, j);
    LastIndexShift(x, y, pat);
  }

  lemma LastIndexAtLeast(s: string, pat: string, j: int)
    requires MatchAt(s, j, pat)
    ensures j <= LastIndexOfIgnoreCase(s, pat)
  {
  }

  lemma PrefixedTokenReads(replaced: string, l: int, name: string)
    requires l == LastIndexOfIgnoreCase(replaced, FromKeyword) && 0 <= l
    requires l + 5 + |name| < |replaced| && replaced[l + 5 + |name|] == ' '
    requires replaced[l + 5..l + 5 + |name|] == name
    requires ' ' !in name && '.' !in name
    ensures TableToken(SelectPrefixed(replaced)) == Ok(name)
  {
    if MatchAt(replaced, 0, "select *") {
      TableTokenReads(replaced, l, name);
    } else {
      var u := TrimStartSpaces(replaced);
      var d := TrimmedFrom(replaced, l);
      var lo := PrefixedTokenPosition(replaced, l, name, u, d);
      TableTokenReads(SelectAll + u, lo, name);
    }
  }

  /**
   * Round trip of the rewriting: when the query names its table after a "From " and
   * the real table names are plain tokens, reading the table token of the rewritten
   * query gives exactly the real table name of the resolved entity type.
   */
  lemma UpdateQueryFormatNamesRealTable<P, T>(query: Query<P>, tableToType: map<string, T>, typeToTable: map<T, string>)
    requires UpdateQueryFormat(query, tableToType, typeToTable).Ok?
    requires 0 <= LastIndexOfIgnoreCase(query.sql, FromKeyword)
    requires forall t :: t in typeToTable ==> PlainTableName(typeToTable[t])
    ensures var realType := GetEntityTypeFromSqlQuery(query.sql, tableToType).value.value;
            TableToken(UpdateQueryFormat(query, tableToType, typeToTable).value.sql) == Ok(typeToTable[realType])
  {
    var name := typeToTable[GetEntityTypeFromSqlQuery(query.sql, tableToType).value.value];
    var sql := StubsFrom(query.sql, 0);
    StubsKeepsFrom(query.sql);
    ReplacedTokenReads(sql, name);
    var replaced := ReplaceTableToken(sql, name).value;
    PrefixedTokenReads(replaced, LastIndexOfIgnoreCase(sql, FromKeyword), name);
  }
}
